=== FILE: README.md ===
# WorkFlewAI core, modelled in Dafny

WorkFlewAI is a browser productivity app. It has a focus timer that credits
study minutes to subjects and to a daily progress log. It also has notes,
reminders that ring when due, a diary, custom chat characters, ambient
sounds, settings with reset and backup, a first-run welcome flow, a custom
colour theme and a plant that grows during a session. Almost all of it lives
in React event handlers over `localStorage`.

This project models those handlers as pure functions from a state and the
handler's inputs to the new state and the toast or event that results. It
proves properties of those functions. Storage keys become `Option` values
(`None` is a missing key) or a `map<string, string>`. JSON is the identity on
the typed records. The clock, the file reader, the AI assistant and the
persona generator are inputs.

| file | module | models |
|---|---|---|
| common.dfy | `Common` | `Option`, truthiness of stored strings, `Array.prototype.filter`, `Math.round` |
| text.dfy | `Text` | `trim`, `parseInt` in radix 10 and 16, `String(n)`, `padStart`, `toUpperCase` on ASCII letters |
| sorting.dfy | `Sorting` | `Array.prototype.sort` with a comparator, as a stable insertion sort |
| types.dfy | `Types` | the records of `src/lib/types.ts` |
| dashboard.dfy | `Dashboard` | the focus-session engine, subjects, notes, daily progress, `formatTime`, `growthPercentage` |
| plant.dfy | `Plant` | the growth curves of the plant animation |
| reminders.dfy | `Reminders` | the background reminder scan, and scheduling, deleting and listing reminders |
| reminders_page.dfy | `ReminderPage` | the reminders page's add and delete on the state its render sorts in place |
| aichat.dfy | `AiChat` | what a chat message does with the assistant's structured result |
| progress.dfy | `Progress` | day-key order, the goal test, `formatMinutes`, the purpose wording |
| settings.dfy | `Settings` | save validators, reset and backup key selection, theme restore, palette editing |
| sounds.dfy | `Sounds` | the ambient sound list, play state, uploads, the reminder ringtone |
| characters.dfy | `Characters` | the custom chat characters |
| diary.dfy | `Diary` | starting, deleting and ordering diary entries |
| diary_write.dfy | `DiaryWrite` | loading and saving the entry being written |
| background.dfy | `Background` | the focus background image and the timer colour |
| welcome.dfy | `Welcome` | the two-step name and purpose flow |
| theme.dfy | `Theme` | `hexToHsl`, `isColorLight` and when the custom palette is applied |

Modelling choices:

- Time is whole seconds.
- A stored date string is a `Stamp`. It is either the instant it names, or
  `Invalid` for a string that `new Date` cannot parse (NaN).
- A comparator that yields NaN places neither element ahead of the other.
- Arithmetic on colours, goals and growth is exact (`real`).
- `Math.round` is `floor(x + 1/2)`.

## Model

| member | source | states |
|---|---|---|
| Dashboard.UpdateDailyProgress | src/app/dashboard/page.tsx:300-310 | today's record gains exactly the credited minutes, starting from 0 when absent; it takes the current goal times 60; the key set grows by today only; every other day is unchanged |
| Dashboard.UpdateDailyProgressTwice | src/app/dashboard/page.tsx:300-310 | two credits on the same day equal one credit of their sum; the day keeps the goal of the later write |
| Dashboard.Credit | src/app/dashboard/page.tsx:323-329 | only subjects carrying the active id gain the minutes; every other subject and the list length are unchanged |
| Dashboard.CreditTotal | src/app/dashboard/page.tsx:321-330 | conservation: total study time grows by the minutes once per subject with the id, so by exactly the minutes when ids are unique |
| Dashboard.AddSubject | src/app/dashboard/page.tsx:365-378 | an empty name or goal changes nothing; otherwise exactly one subject is appended with the old list as prefix, 0 minutes studied, icon "Clock", and a goal of 60 times the parsed hours (absent when the goal does not parse) |
| Dashboard.DeleteSubject | src/app/dashboard/page.tsx:380-387 | a subject survives exactly when it was present and its id differs; as many survive as there are subjects with another id, each as often as before (order: `Dashboard.DeleteSubjectKeepsOrder`) |
| Dashboard.DeleteSubjectIdempotent | src/app/dashboard/page.tsx:380-387 | deleting twice equals deleting once |
| Dashboard.DeleteSubjectKeepsOrder | src/app/dashboard/page.tsx:380-387 | deletion distributes over concatenation, so survivors keep their relative order |
| Dashboard.DeleteSubjectUndoesAdd | src/app/dashboard/page.tsx:365-387 | when no subject has the new id, deleting by it right after an add gives back the list exactly |
| Dashboard.ManualAddNote | src/app/dashboard/page.tsx:495-513 | blank input changes nothing; otherwise one note with the trimmed content is put first, ahead of the unchanged old list, and its content starts with no whitespace |
| Dashboard.SaveNote | src/app/dashboard/page.tsx:520-535 | with no note being edited nothing changes; otherwise only notes with the edited id get the new content and timestamp, and ids and every other note are unchanged |
| Dashboard.DeleteNote | src/app/dashboard/page.tsx:397-404 | a note survives exactly when it was present and its id differs; as many survive as there are notes with another id, each as often as before (order: `Dashboard.DeleteNoteKeepsOrder`) |
| Dashboard.DeleteNoteKeepsOrder | src/app/dashboard/page.tsx:397-404 | deletion distributes over concatenation, so surviving notes keep their relative order |
| Dashboard.DeleteNoteUndoesAdd | src/app/dashboard/page.tsx:495-513 | when no note has the new id, deleting by it right after a manual add gives back the list exactly |
| Dashboard.SaveNoteThenDelete | src/app/dashboard/page.tsx:520-528 | saving an edit changes nothing but the edited note: once that note is deleted the list equals the unedited list with it deleted |
| Dashboard.SaveNoteIdempotent | src/app/dashboard/page.tsx:520-528 | saving the same edit twice equals saving it once |
| Dashboard.Start | src/app/dashboard/page.tsx:406-442 | a running timer refuses with "session in progress" and no change; otherwise only the engine changes: running, focus mode, the chosen subject, a full timer, the ambient sound unless missing or 'none'; the timer bound is kept |
| Dashboard.Toggle | src/app/dashboard/page.tsx:444-455 | only the running flag changes, and it flips |
| Dashboard.Finish | src/app/dashboard/page.tsx:318-338 | after a completion or cancel the engine is stopped, out of focus mode, has no subject and holds a full timer; notes and goal are untouched |
| Dashboard.Step | src/app/dashboard/page.tsx:312-338 | a running timer above zero loses one second and nothing else changes; at zero, floor(duration/60) minutes go to the active subject and to today, then the engine stops, out of focus mode, duration unchanged, with a full timer, notes and daily goal kept, and "session complete"; an idle engine is untouched; 0 <= timer <= duration is preserved |
| Dashboard.Cancel | src/app/dashboard/page.tsx:465-493 | with k the whole minutes elapsed: "ended early" with k credited to subject and today exactly when a subject is active and k > 0, otherwise "cancelled" with nothing credited; always ends stopped, out of focus mode, duration unchanged, with no subject, a full timer, and notes and daily goal kept |
| Dashboard.SetDuration | src/app/dashboard/page.tsx:256-260 | a new duration refills the timer only when the countdown is not running; a running countdown keeps its value |
| Dashboard.SetDurationLastWins | src/app/dashboard/page.tsx:256-260 | of two duration changes only the last counts, for the length and for the refilled timer |
| Dashboard.LoadDurationSeconds | src/app/dashboard/page.tsx:190-194 | with no stored value the session is 25 minutes; otherwise it is 60 times the parsed minutes, NaN exactly when the text does not parse |
| Dashboard.LoadDailyGoal | src/app/dashboard/page.tsx:196-197 | with no stored goal, or an empty one, the goal is 3.5 hours; otherwise it is `parseFloat` of the stored text, NaN included |
| Dashboard.CountDown | src/app/dashboard/page.tsx:314-317 | while seconds remain, n effect runs only take n seconds off the timer |
| Dashboard.FullSession | src/app/dashboard/page.tsx:312-338 | start plus duration+1 effect runs credits floor(duration/60) to the subject and to today and leaves an idle engine with a full timer |
| Dashboard.CancelAfterTicks | src/app/dashboard/page.tsx:465-493 | cancelling k seconds into a session credits floor(k/60) when that is positive, and nothing under a minute |
| Dashboard.PausedSessionReplaced | src/app/dashboard/page.tsx:406-414 | the guard only checks the running flag: a paused session is replaced by a new start and its time is never credited |
| Dashboard.ClockRoundTrip | src/app/dashboard/page.tsx:551-555 | the `mm:ss` rendering of minutes and seconds below 60 reads back as 60·minutes + seconds |
| Dashboard.FormatTimeRoundTrip | src/app/dashboard/page.tsx:551-555 | `formatTime` loses nothing: it reads back as the number of seconds, so 60·mins + secs = s with secs < 60 |
| Dashboard.GrowthPercentage | src/app/dashboard/page.tsx:557-564 | 0 for a zero duration, otherwise min(100, elapsed/duration·100) with the multiplier cancelled, and within [0, 100] while the timer is in range |
| Plant.Stage | src/components/plant-animation.tsx:21-29 | a leaf or root curve lies in [0, 1], is 0 up to its threshold and 1 from threshold plus span on |
| Plant.StageIsClamp | src/components/plant-animation.tsx:21-29 | each curve equals the clamp to [0, 1] of its straight line |
| Plant.StageMonotone | src/components/plant-animation.tsx:21-29 | a curve never shrinks as the percentage rises |
| Plant.LaterStageTrails | src/components/plant-animation.tsx:21-29 | a curve with a later threshold and the same span is never further along |
| Plant.Grow | src/components/plant-animation.tsx:17-31 | flower is 1 iff p >= 1 and 0 otherwise; each leaf and root is 0 at or below its threshold; stem height never exceeds 60 px and equals 60 exactly from 80% on; all curves lie in [0, 1] for p >= 0 |
| Plant.GrowMonotone | src/components/plant-animation.tsx:17-31 | no curve of the drawing, stem height included, decreases as the percentage rises |
| Plant.LaterPartsTrail | src/components/plant-animation.tsx:21-29 | leaves open in order 1, 2, 3 and roots in order 1 to 4 |
| Plant.SeedAndFullPlant | src/components/plant-animation.tsx:17-31 | at 0% every curve is 0; at 100% every curve is 1 and the stem is 60 px |
| Plant.SessionPlant | src/components/plant-animation.tsx:17-24 | driven by the timer, the plant stays in its drawing range and flowers exactly when the countdown reaches zero |
| Reminders.RingtoneSource | src/app/dashboard/layout.tsx:61-67 | the ringtone is the stored one unless missing or empty, then the bird sound; never empty |
| Reminders.CheckReminders | src/app/dashboard/layout.tsx:81-115 | nothing stored: no effect; otherwise one toast per due reminder in list order, a reminder is kept iff not due, as many are kept as are not due and each kept one as often as stored, storage is rewritten and the event dispatched only when something fired, and the audio becomes the ringtone (order: `Reminders.ScanKeeps`, `Reminders.CheckKeepsOrder`) |
| Reminders.CheckPartition | src/app/dashboard/layout.tsx:90-109 | kept plus fired reminders are the stored list as a multiset, with exactly one toast per due reminder |
| Reminders.CheckIdempotent | src/app/dashboard/layout.tsx:90-115 | a second scan at the same instant shows no toast, writes nothing, dispatches nothing and keeps the audio |
| Reminders.ScanKeeps | src/app/dashboard/layout.tsx:90-109 | a scan stores exactly the stored list filtered to the reminders not yet due, in stored order |
| Reminders.CheckKeepsOrder | src/app/dashboard/layout.tsx:90-109 | the kept list of a concatenation is the two kept lists concatenated, so kept reminders keep their stored order |
| Reminders.ScansCompose | src/app/dashboard/layout.tsx:81-115 | a scan followed by a later one leaves the same stored list and current audio as the later scan alone |
| Reminders.InvalidNeverFires | src/app/dashboard/layout.tsx:90-92 | a reminder whose date does not parse never fires: a scan keeps it exactly when it was stored, every copy of it |
| Reminders.Hour24Bijection | src/app/dashboard/reminders/page.tsx:99-104 | on hours 1 to 12 and am/pm the 12h-to-24h map lands in 0 to 23 and is inverted by the 12h reading, and every 24h hour is reached |
| Reminders.Schedule | src/app/dashboard/reminders/page.tsx:106-112 | the instant has the chosen time of day, and lies in [now, now + 1 day) |
| Reminders.AddReminder | src/app/dashboard/reminders/page.tsx:77-136 | "missing information" iff content is blank or hour or minute does not parse; "invalid time" iff both parse but fall outside 1-12 / 0-59; otherwise one reminder is appended after the unchanged list, with the new id, the trimmed content and the instant `Schedule` gives for the 24-hour reading of hour and period and the parsed minute, which falls within the next day; the form resets to pm |
| Reminders.AddedFiresOnTime | src/app/dashboard/reminders/page.tsx:106-118 | an added reminder is fired by a scan exactly when the scan is at or after its time |
| Reminders.DeleteReminder | src/app/dashboard/reminders/page.tsx:138-142 | a reminder survives iff present with a different id; the count is the number of other-id reminders, each surviving as often as before (order: `Reminders.DeleteReminderKeepsOrder`) |
| Reminders.DeleteReminderKeepsOrder | src/app/dashboard/reminders/page.tsx:138-142 | deletion distributes over concatenation, so surviving reminders keep their relative order |
| Reminders.DeleteUndoesAdd | src/app/dashboard/reminders/page.tsx:77-142 | when no reminder has the new id, deleting by it right after an accepted add gives back the list exactly |
| Reminders.DisplayOrder | src/app/dashboard/reminders/page.tsx:152 | the listed reminders are a permutation of the stored ones |
| Reminders.DisplayOrderChronological | src/app/dashboard/reminders/page.tsx:152 | when every date parses the list ascends by time |
| Reminders.InvalidBreaksOrder | src/app/dashboard/reminders/page.tsx:152 | an unparsable date makes the comparator no strict weak order, so no order is promised then |
| Reminders.SortTwo | src/app/dashboard/reminders/page.tsx:152 | two reminders stored the later first are displayed swapped |
| Reminders.AddEightAm | src/app/dashboard/reminders/page.tsx:77-120 | the form "c" at 8:00 am, added at midnight, appends to any list a reminder eight hours later that day |
| Reminders.AddAccepted | src/app/dashboard/reminders/page.tsx:77-120 | a non-blank form whose hour and minute parse in range appends exactly one reminder, at the instant `Schedule` gives, and clears the form |
| Reminders.EightAmParses | src/app/dashboard/reminders/page.tsx:78-79 | the hour "8" and minute "0" parse as 8 and 0 and the content "c" is not blank |
| Reminders.ParseDigit | src/app/dashboard/reminders/page.tsx:78-79 | `parseInt` of a lone digit is that digit |
| ReminderPage.AddOnPage | src/app/dashboard/reminders/page.tsx:77-152 | the page rejects exactly what `AddReminder` rejects, with the same error; an accepted add writes the stored list in display order followed by the reminder `AddReminder` appends |
| ReminderPage.AddSameReminder | src/app/dashboard/reminders/page.tsx:77-120 | whether the form is accepted, and the reminder it makes, do not depend on the list it is added to |
| ReminderPage.OnPageAppends | src/app/dashboard/reminders/page.tsx:120-152 | on an accepted add, the intended list is the stored list plus the new reminder and the page writes the display order plus that same reminder |
| ReminderPage.AddOnPageSameReminders | src/app/dashboard/reminders/page.tsx:120-152 | the page writes the same reminders, each as often, as appending to the stored list would |
| ReminderPage.AddOnPageReorders | src/app/dashboard/reminders/page.tsx:120-152 | two stored reminders, the later first, are written back swapped with the new one last |
| ReminderPage.SwapTwo | src/app/dashboard/reminders/page.tsx:152 | a two-element list stored the later first is displayed swapped |
| ReminderPage.DeleteOnPage | src/app/dashboard/reminders/page.tsx:138-152 | deleting on the sorted state keeps the same reminders, each as often, as deleting from the stored list |
| AiChat.Exchange | src/app/dashboard/ai-chat/page.tsx:36-37 | the user's message then the assistant's follow everything said before |
| AiChat.SendMessage | src/app/dashboard/ai-chat/page.tsx:33-104 | a blank message changes nothing; otherwise the user message and then exactly one assistant message are appended, and a failed call gives the fixed error text and stores nothing; on an answer, the assistant message is the fixed rephrase text exactly when a requested reminder's time does not parse and the reply otherwise, a note is put first in the stored notes (with the "note added" toast) iff the answer asks for one, and a reminder is appended and the storage event dispatched iff one is asked for and its time parses, each store otherwise untouched |
| AiChat.StoredReminderIsValid | src/app/dashboard/ai-chat/page.tsx:72-80 | a reminder stored from chat always has a parsed time and non-empty content, so the scan can fire it |
| AiChat.SendKeepsStoredItems | src/app/dashboard/ai-chat/page.tsx:48-81 | stored notes stay a suffix and stored reminders a prefix of what is stored after a send |
| Progress.LexDigits | src/app/dashboard/progress/page.tsx:49 | on digit strings of one length, `localeCompare` order is numeric order |
| Progress.DateKeyOrder | src/app/dashboard/progress/page.tsx:49 | `YYYY-MM-DD` keys compare as the dates they name: year, then month, then day |
| Progress.LaterIsStrictWeak | src/app/dashboard/progress/page.tsx:49 | the descending key comparator is a strict weak order, so the sort is well defined |
| Progress.SortedDates | src/app/dashboard/progress/page.tsx:49 | the listed keys are a permutation of the stored ones |
| Progress.SortedDatesDescending | src/app/dashboard/progress/page.tsx:49 | each listed key is equal to or later than every key after it |
| Progress.NewestFirst | src/app/dashboard/progress/page.tsx:49 | of two listed days, the first shown is never the earlier date |
| Progress.GoalAfterCredit | src/app/dashboard/progress/page.tsx:98 | after a credit, the day is met iff its total minutes reach 60 times the goal in force at the credit |
| Progress.RaisedGoalUnmeets | src/app/dashboard/progress/page.tsx:98 | raising the goal can remove the check mark from a day even though it gains minutes |
| Progress.FormatWholeShape | src/app/dashboard/progress/page.tsx:51-57 | for whole minutes m: "(m div 60)h (m mod 60)m" from 60 on, "mm" below |
| Progress.FormatMinutesWhole | src/app/dashboard/progress/page.tsx:51-57 | for whole minutes the rendering reads back as that number, so 60·hours + rem = m with rem < 60 |
| Progress.FormatMinutesShowsSixty | src/app/dashboard/progress/page.tsx:51-57 | as written, 119.94 minutes renders as "1h 60m" |
| Progress.FormatMinutesRounded | src/app/dashboard/progress/page.tsx:51-57 | rounding first, then splitting, always reads back as the rounded amount, with a minute part below 60 |
| Progress.RoundedAgreesOnWhole | src/app/dashboard/progress/page.tsx:51-57 | on whole minutes the corrected and the written formatter agree |
| Progress.WordingChoice | src/app/dashboard/progress/page.tsx:39-43 | the activity wording appears iff the stored purpose is 'hobby'; no purpose gives the study wording |
| Settings.SavePomodoro | src/app/dashboard/settings/page.tsx:158-167 | accepted iff the input parses to an integer above 0; a rejection writes nothing; acceptance writes only the duration key |
| Settings.SavedPomodoroLoads | src/app/dashboard/settings/page.tsx:158-167 | the saved duration is what the dashboard loads: 60 times the parsed minutes (for JavaScript numbers only below 2^53; see Left out) |
| Settings.PomodoroToleratesText | src/app/dashboard/settings/page.tsx:160-167 | text after the leading digits is ignored: "30 minutes" saves 30 |
| Settings.SaveDailyGoal | src/app/dashboard/settings/page.tsx:179-188 | accepted iff the input reads as a number >= 0, and then only the goal key is written |
| Settings.SavedGoalLoads | src/app/dashboard/settings/page.tsx:179-188 | an accepted goal is the goal the dashboard loads back on mount, when `parseFloat` reads its rendering back as itself |
| Settings.ZeroGoalAccepted | src/app/dashboard/settings/page.tsx:158-188 | a goal of 0 is accepted while a duration of 0 is refused |
| Settings.SaveName | src/app/dashboard/settings/page.tsx:136-145 | accepted iff the name is not blank; a rejection writes nothing; an accepted save writes the trimmed name under "userName" and changes no other key; the stored name is non-empty |
| Settings.SaveNameIdempotent | src/app/dashboard/settings/page.tsx:136-145 | the stored name is already trimmed: saving it again changes nothing |
| Settings.Reset | src/app/dashboard/settings/page.tsx:200-209 | a key survives iff it is neither listed nor a `chatHistory_` key; survivors keep their values |
| Settings.Backup | src/app/dashboard/settings/page.tsx:283-298 | the backup holds exactly the listed and `chatHistory_` keys, with their values |
| Settings.BackupIsWhatResetDeletes | src/app/dashboard/settings/page.tsx:63-68 | backup and reset select the same keys: the backup is what reset deletes, disjoint from what it keeps, and together they are the storage |
| Settings.ResetIdempotent | src/app/dashboard/settings/page.tsx:200-209 | resetting twice is resetting once, and a reset leaves nothing to back up |
| Settings.ChatHistoriesAreAppData | src/app/dashboard/settings/page.tsx:205 | any character's chat history is deleted by reset and kept by backup |
| Settings.RestoreTheme | src/app/dashboard/settings/page.tsx:97-100 | the restored theme is a preset or 'custom'; the stored name is taken iff it is one of those, otherwise 'default' |
| Settings.ThemeChange | src/app/dashboard/settings/page.tsx:112-134 | the name is stored; `data-theme` is set to it iff it is not 'custom'; other keys are unchanged |
| Settings.ThemeChangeRestores | src/app/dashboard/settings/page.tsx:97-134 | a theme chosen on the page survives a reload |
| Settings.SetCustomColor | src/app/dashboard/settings/page.tsx:228-236 | the one (mode, field) colour takes the value and every other colour is unchanged |
| Settings.SetCustomColorUndo | src/app/dashboard/settings/page.tsx:228-236 | setting a colour back to its old value restores the palette |
| Settings.ClearCustomTheme | src/app/dashboard/settings/page.tsx:256-261 | the stored palette goes and the defaults show; a selected custom theme falls back to 'default', stored and applied; any other selection is kept |
| Settings.ClearedThemeIsPreset | src/app/dashboard/settings/page.tsx:256-261 | after clearing, a reload restores a preset, never the custom theme |
| Sounds.CheckUpload | src/app/dashboard/sounds/page.tsx:159-178 | accepted iff size <= 5 MiB and the type is audio/mpeg; too large iff size > 5 MiB, whatever the type |
| Sounds.UploadLimitInclusive | src/app/dashboard/sounds/page.tsx:26-27 | exactly 5242880 bytes is accepted and one byte more is refused |
| Sounds.SoundName | src/app/dashboard/sounds/page.tsx:197 | one trailing ".mp3" is dropped and nothing else changes |
| Sounds.SoundNameOneSuffix | src/app/dashboard/sounds/page.tsx:197 | only one suffix goes: "a.mp3.mp3" becomes "a.mp3" |
| Sounds.Load | src/app/dashboard/sounds/page.tsx:45-68 | the list is the built-ins followed by the stored uploads in order; the selection defaults to 'none'; the ringtone is read only when stored |
| Sounds.Select | src/app/dashboard/sounds/page.tsx:116-139 | the choice is stored; choosing 'none' stops playback; otherwise playback is unchanged |
| Sounds.PlayPause | src/app/dashboard/sounds/page.tsx:141-157 | 'none' is ignored, pressing the playing sound stops it, any other sound replaces it; only the playing slot changes |
| Sounds.PlayPauseTwice | src/app/dashboard/sounds/page.tsx:141-157 | pressing a sound twice returns to silence |
| Sounds.PlayingStaysReal | src/app/dashboard/sounds/page.tsx:116-276 | every handler keeps the single playing slot off 'none' |
| Sounds.NewSound | src/app/dashboard/sounds/page.tsx:195-200 | an upload has a `custom-` id, is custom, and plays its data URL |
| Sounds.UploadAmbient | src/app/dashboard/sounds/page.tsx:194-213 | a refused file changes nothing; an accepted one is appended to the stored and the shown list, and nothing else changes |
| Sounds.UploadKeepsConsistent | src/app/dashboard/sounds/page.tsx:194-213 | after an upload the shown list is still the built-ins followed by the stored uploads |
| Sounds.UploadRingtone | src/app/dashboard/sounds/page.tsx:184-193 | an accepted file becomes the stored and shown ringtone under its file name; a refused one changes nothing |
| Sounds.Delete | src/app/dashboard/sounds/page.tsx:229-256 | a built-in is never deleted; a custom one is filtered out by id from both lists, a selection of it becomes 'none' and its playback stops |
| Sounds.DeleteKeepsConsistent | src/app/dashboard/sounds/page.tsx:229-247 | deleting keeps the shown list the built-ins followed by the stored uploads |
| Sounds.RemoveRingtone | src/app/dashboard/sounds/page.tsx:269-276 | both ringtone keys and the shown ringtone are cleared and the preview stops |
| Sounds.PlayPauseRingtone | src/app/dashboard/sounds/page.tsx:258-267 | without a ringtone nothing happens; otherwise the preview flag flips |
| Sounds.RingtoneReachesReminders | src/app/dashboard/sounds/page.tsx:184-193 | the next reminder rings an uploaded ringtone, and the bird sound once it is removed |
| Characters.Load | src/app/dashboard/chat-with-characters/page.tsx:51-61 | the list is the built-in companion followed by the stored characters in order |
| Characters.CustomCountIsStored | src/app/dashboard/chat-with-characters/page.tsx:130 | on a consistent page the custom count is the number of stored characters |
| Characters.CanOpenCreateStored | src/app/dashboard/chat-with-characters/page.tsx:164 | the create button is enabled iff fewer than two characters are stored and nothing is being generated |
| Characters.Create | src/app/dashboard/chat-with-characters/page.tsx:68-114 | "missing information" iff name or description is blank, with no change; "created" iff the generator answers; a failure changes no list |
| Characters.CreateAppends | src/app/dashboard/chat-with-characters/page.tsx:80-97 | a successful create appends exactly one `custom-` character with the generated persona after the unchanged stored list, and clears the form |
| Characters.CreateIgnoresLimit | src/app/dashboard/chat-with-characters/page.tsx:68-114 | the limit of two is on the button only: the handler still adds a third |
| Characters.Delete | src/app/dashboard/chat-with-characters/page.tsx:116-128 | the stored list holds exactly the non-default characters with another id, shown behind the companion |
| Characters.DeleteFiltersStored | src/app/dashboard/chat-with-characters/page.tsx:118-120 | on a consistent page, deletion filters the stored list by id, keeping the others in order |
| Characters.DeleteUndoesCreate | src/app/dashboard/chat-with-characters/page.tsx:80-120 | deleting a freshly created character restores the stored list |
| Diary.NewEntry | src/app/dashboard/diary/page.tsx:88-93 | a new entry has the trimmed title, empty content, the chosen date and a clock id |
| Diary.StartWriting | src/app/dashboard/diary/page.tsx:78-117 | refused iff the title is blank or no date is chosen, with no change; otherwise the stored entries plus the new one, and the new id becomes active |
| Diary.DeleteEntry | src/app/dashboard/diary/page.tsx:119-120 | an entry survives iff present with a different id; as many survive as there are entries with another id, each as often as before (order: `Diary.DeleteEntryKeepsOrder`) |
| Diary.DeleteEntryIdempotent | src/app/dashboard/diary/page.tsx:119-120 | deleting twice is deleting once |
| Diary.DeleteEntryKeepsOrder | src/app/dashboard/diary/page.tsx:119-120 | deletion distributes over concatenation, so surviving entries keep their relative order |
| Diary.DeleteStarted | src/app/dashboard/diary/page.tsx:88-120 | deleting the entry just started leaves exactly the stored entries with other ids |
| Diary.DisplayOrder | src/app/dashboard/diary/page.tsx:149 | the shown list is a permutation of the entries |
| Diary.DisplayNewestFirst | src/app/dashboard/diary/page.tsx:149 | when every date parses the shown list runs from newest to oldest |
| Diary.StartedIsDisplayOrder | src/app/dashboard/diary/page.tsx:98 | the list written after starting an entry runs from newest to oldest when the stored dates parse |
| Diary.NewEntryLeadsItsDate | src/app/dashboard/diary/page.tsx:98 | the stable sort puts the new entry ahead of every entry with the same date: only strictly newer ones precede it |
| DiaryWrite.Find | src/app/diary/write/page.tsx:33 | the first entry with the id, and none exactly when no entry has it |
| DiaryWrite.FindIsFirst | src/app/diary/write/page.tsx:33 | no entry before the one found has the id |
| DiaryWrite.Open | src/app/diary/write/page.tsx:21-50 | a missing or empty active id redirects; with stored entries it edits the entry found, or redirects iff none has the id; with no stored entries the editor stays empty |
| DiaryWrite.SetContent | src/app/diary/write/page.tsx:59 | entries with the id get the new content, keeping id, title and date; the rest are unchanged |
| DiaryWrite.Save | src/app/diary/write/page.tsx:52-73 | saves iff an entry is loaded and entries are stored; then the active id is removed; otherwise nothing changes |
| DiaryWrite.SaveThenOpen | src/app/diary/write/page.tsx:52-61 | the saved content is what the editor loads next, and with the active id gone reopening redirects |
| DiaryWrite.SetContentIdempotent | src/app/diary/write/page.tsx:59 | saving the same content twice is saving it once |
| Background.Load | src/app/dashboard/background/page.tsx:26-41 | a stored image is shown and previewed iff truthy; the colour is the stored one or white, as both current and saved colour |
| Background.CheckFile | src/app/dashboard/background/page.tsx:43-65 | too large iff over 5 MiB; chosen iff at most 5 MiB and the type starts with "image/" |
| Background.ChooseFile | src/app/dashboard/background/page.tsx:43-65 | an accepted file is selected and previewed; anything else leaves the page as it was |
| Background.FileLimitInclusive | src/app/dashboard/background/page.tsx:13-14 | exactly 5 MiB is accepted; one byte more is refused whatever the type |
| Background.SaveBackground | src/app/dashboard/background/page.tsx:67-90 | without a selected file nothing happens; otherwise the data URL is stored and shown |
| Background.RemoveBackground | src/app/dashboard/background/page.tsx:92-108 | stored image, selection and preview are cleared; the colour is untouched |
| Background.BackgroundSurvivesReload | src/app/dashboard/background/page.tsx:26-97 | a saved image comes back on the next visit; after a removal none does |
| Background.SaveColor | src/app/dashboard/background/page.tsx:112-123 | the picked colour is stored and becomes the saved colour |
| Background.RemoveColor | src/app/dashboard/background/page.tsx:125-137 | the stored colour is removed and both colours return to white |
| Background.ColorSurvivesReload | src/app/dashboard/background/page.tsx:26-137 | a saved colour is shown on the next visit, and after a reset the next visit shows the same white |
| Background.PreviewBackdrop | src/app/dashboard/background/page.tsx:139 | the backdrop is black iff the colour, with ASCII letters upper-cased, is white, and white otherwise (full Unicode case mapping: see Left out) |
| Background.PreviewIgnoresCase | src/app/dashboard/background/page.tsx:139 | lower- and mixed-case white get the black backdrop; black gets white |
| Background.BackdropDiffers | src/app/dashboard/background/page.tsx:139 | the backdrop is never the colour it sits behind |
| Welcome.ShowsForm | src/app/page.tsx:19-31 | the form shows iff no non-empty name is stored |
| Welcome.Continue | src/app/page.tsx:33-37 | step 2 is reached iff the name is not blank; the name is kept |
| Welcome.KeyDown | src/app/page.tsx:52-56 | Enter acts as Continue and any other key does nothing |
| Welcome.SelectPurpose | src/app/page.tsx:39-50 | the dashboard opens iff the name is not blank; then the trimmed name and the purpose are stored and other keys are unchanged; otherwise nothing is written |
| Welcome.WelcomeIsOnce | src/app/page.tsx:19-50 | after choosing, the form no longer shows, and the progress page uses the study wording iff the purpose is student |
| Welcome.StoredNameIsSettled | src/app/page.tsx:39-44 | the stored name is already what the settings page would save |
| Welcome.ContinueAgreesWithSelect | src/app/page.tsx:33-56 | from step 1, Continue or Enter reaches step 2 iff picking a purpose would succeed |
| Theme.HexToHsl | src/components/custom-theme-provider.tsx:7-35 | anything but '#' and six hex digits gives "0 0% 0%"; otherwise the text of the rounded HSL of the three channels |
| Theme.HslOf | src/components/custom-theme-provider.tsx:12-32 | hue within [0, 360], saturation and lightness within [0, 100]; a grey has hue 0 and saturation 0 |
| Theme.Hue | src/components/custom-theme-provider.tsx:22-27 | the hue of channels that are not all equal is within one turn |
| Theme.Saturation | src/components/custom-theme-provider.tsx:20-21 | the saturation is within [0, 1] on both branches of the lightness test |
| Theme.HslOfKnownColors | src/components/custom-theme-provider.tsx:12-34 | black, white, red, green and blue give their textbook HSL values |
| Theme.BlackIsHslOfBlack | src/components/custom-theme-provider.tsx:7-34 | '#000000' gives "0 0% 0%", the fallback, and '#ffffff' gives "0 0% 100%" |
| Theme.IsColorLight | src/components/custom-theme-provider.tsx:38-46 | a string whose length is not 7 is never light |
| Theme.IsColorLightOfHex | src/components/custom-theme-provider.tsx:40-45 | on a well-formed colour the test is 0.299r² + 0.587g² + 0.114b² > 127.5² |
| Text.ParseHexPairIsParseHexInt | src/components/custom-theme-provider.tsx:40-42 | the two-character reader used by the light test is `parseInt(_, 16)` on every two-character input |
| Theme.LighterStaysLight | src/components/custom-theme-provider.tsx:44-45 | raising any channel never turns a light colour dark |
| Theme.BlackDarkWhiteLight | src/components/custom-theme-provider.tsx:38-46 | black is dark and white is light |
| Theme.Foreground | src/components/custom-theme-provider.tsx:73-76 | the foreground is near-black text iff the colour is light, near-white otherwise |
| Theme.PaletteVars | src/components/custom-theme-provider.tsx:78-95 | every colour becomes its HSL text and each foreground follows the colour it sits on |
| Theme.DefaultForegrounds | src/components/custom-theme-provider.tsx:81-89 | the default palette gets dark text on its light background and light text on its dark one |
| Theme.Apply | src/components/custom-theme-provider.tsx:51-102 | a style is applied iff the theme is 'custom' and a palette is stored and parses; `data-theme` is set, to the stored theme or 'default', iff the theme is not 'custom'; it is removed iff custom with colours stored |
| Theme.ProviderFollowsPresetChoice | src/components/custom-theme-provider.tsx:56-63 | after a preset is chosen in settings the provider sets the same `data-theme` and no custom style |
| Theme.ClearedThemeHasNoStyle | src/components/custom-theme-provider.tsx:56-63 | after the custom theme is cleared no custom style is applied |
| Text.TrimIdempotent | src/app/dashboard/settings/page.tsx:137 | trimming a trimmed string changes nothing |
| Text.BlankIffAllWhitespace | src/app/dashboard/settings/page.tsx:137-138 | a field is blank after `trim` iff all its characters are whitespace |
| Text.ParseIntOfNatToString | src/app/dashboard/settings/page.tsx:160-167 | on unbounded naturals, `parseInt` reads back `String(n)` as n (for JavaScript numbers this holds only below 2^53; see Left out) |
| Text.ParseIntIgnoresTail | src/app/dashboard/settings/page.tsx:160 | `parseInt` reads the leading digits and ignores what follows them |
| Text.PadNat2IsPadStart | src/app/dashboard/page.tsx:554 | the two-digit rendering is `String(n).padStart(2, "0")` |
| Sorting.SortPermutation | src/app/dashboard/reminders/page.tsx:152 | sorting only rearranges: the result is a permutation of the input |
| Sorting.SortOrdered | src/app/dashboard/reminders/page.tsx:152 | with a strict weak order, no element is placed after one it must come before |
| Sorting.SortedFrontIsFirstAmongEquals | src/app/dashboard/diary/page.tsx:98 | stability at the front: an element put first is preceded only by elements that must come before it |

## Left out

- Storage I/O and JSON parsing are not modelled. Each storage key is an `Option` value or an entry of a string map, and parsing JSON back is the identity. Parse errors and the storage quota error (the `catch` branches) are left out.
- Audio elements are not modelled: playback promises, looping at half duration, mute, volume and `navigator.vibrate`. Only the source that is current or playing is kept.
- Toasts are modelled only as the event a handler emits, where that matters. Routing and redirects are modelled as a flag or an `Opened` case.
- React effect scheduling, `setInterval` and batched state updates are not modelled. Each effect run or tick is one atomic step (`Dashboard.Step`).
- The save-on-change effects are not modelled; the handlers' own writes are.
- `Date` parsing, time zones and DST are not modelled. A stored date is a `Stamp`, and the start of the local day is an input of `Reminders.Schedule`.
- The day key is a string input of `Dashboard.UpdateDailyProgress`. `Progress.DateKey` gives its `YYYY-MM-DD` shape.
- IEEE-754 rounding in `hexToHsl`, `isColorLight`, `growthPercentage` and the plant curves is not modelled. The arithmetic is exact, and `Math.sqrt` is removed by comparing squares.
- `parseFloat` and `Number.prototype.toString` on non-whole numbers are function parameters of `Settings.SaveDailyGoal`.
- `Text.ParseIntOfNatToString`: the round trip is proved on unbounded naturals. A JavaScript number is a double, so it holds only below 2^53. Above that `parseInt` rounds, and from 10^21 on `toString` writes exponent text, which `parseInt` reads as its leading digits.
- `Settings.SavedPomodoroLoads`: the same bound applies. The input "1000000000000000000000" is accepted by `handleSavePomodoro` (src/app/dashboard/settings/page.tsx:158-167) and stored as "1e+21", which the dashboard loads as 1 minute. The model has no double arithmetic, so it does not show this.
- `Settings.SaveDailyGoal`: `parseFloat` is a parameter returning `Option<real>`, which has no infinity. The source accepts and stores "Infinity", because it is not NaN and not below 0 (src/app/dashboard/settings/page.tsx:179-188); the model cannot express that input.
- `Background.PreviewBackdrop`: upper-cases ASCII letters only. The source calls `toUpperCase()` (src/app/dashboard/background/page.tsx:139), whose full Unicode mapping can also turn other characters into ASCII letters ("ﬀ" becomes "FF"). A colour written that way can get the black backdrop in the source and the white one in the model. Unicode case tables are not modelled.
- The persona generator, the AI assistant and the character chat flows are not modelled. The server actions that call them (`src/ai`, `src/app/actions/ai.ts`) are not part of this model; their answers are inputs.
- The companion's persona text is the constant `Characters.DefaultPersona`, with no value: its wording plays no part in any property.
- Backup upload and restore (`FileReader`, clear then restore) and the download of the backup file are not modelled. Only the key selection of the download is.
- `handleSaveCustomTheme` and `handlePurposeChange` in the settings page are not modelled. Each writes one storage key and dispatches an event; `Settings.ThemeChange` shows the same pattern.
- `handleEditEntry` in the diary page is not modelled. It only stores the active id that `DiaryWrite.Open` reads.
- Starting a session also re-reads the focus background and timer colour; `Dashboard.Start` models only the ambient sound of that refresh.
- The timer colour and background the dashboard shows are not modelled; their storage side is in `Background`.
- `Sounds.CheckUpload`: a missing file (`if (!file) return`) is not modelled as a case; a picked file is an input.
- `Dashboard.CreditTotal`: the total grows by the credited minutes once per subject carrying the id. The source assumes ids are unique, so that is a single credit; uniqueness itself is not proved.
- `Reminders.DisplayOrderChronological`: order is promised only when every stored date parses. With an unparsable date the comparator is not a strict weak order, and the engine's result then depends on its sorting algorithm (`Reminders.InvalidBreaksOrder`).
- `Diary.DisplayNewestFirst`: the same restriction to parsable dates applies.
- `Reminders.CheckReminders`: the close handler of each reminder toast (src/app/dashboard/layout.tsx:98-103), which pauses and drops the current ringtone, is not modelled, because toasts are not modelled.
- `Dashboard.SetDuration` takes a `nat`, so a loaded duration that is NaN (stored text that does not parse) or negative (a stored "-5" gives -300 seconds, see `Dashboard.LoadDurationSeconds`) is not fed to the engine. In the source such a session never completes: the countdown effect ticks only while `timer > 0` and completes only at `timer === 0` (src/app/dashboard/page.tsx:314-318).
- `Progress.FormatMinutesWhole`: the round trip is stated for whole minutes. For fractional amounts the written formatter can show a minute part of 60 (see Findings).
- Static data and markup are not modelled: the preset palettes of `src/lib/themes.ts` (only their names matter), the root layouts, the header and all JSX.

## Findings

| source | as written | input that shows it | evidently intended | confidence | as-written member | corrected member |
|---|---|---|---|---|---|---|
| src/app/dashboard/progress/page.tsx:51-57 | `formatMinutes` takes the hours with `Math.floor(minutes / 60)` and rounds only the remainder with `Math.round(minutes % 60)` | a daily goal of 1.999 hours is 119.94 minutes; it renders as "1h 60m" | round the amount first, then split it, so the minute part stays below 60 ("2h 0m") | not executed | Progress.FormatMinutesShowsSixty | Progress.FormatMinutesRounded |
| src/app/dashboard/reminders/page.tsx:120-152 | the render calls `reminders.sort(...)`, which sorts the state array in place, so `handleAddReminder` appends to (and writes back) the stored list in display order | reminders stored 10:00 then 09:00; adding "c" at 8:00 am writes 09:00, 10:00, 08:00 | sort a copy (as the diary page does with `[...entries].sort`), so an add appends to the stored order | not executed | ReminderPage.AddOnPageReorders | Reminders.AddReminder |

=== FILE: aichat.dfy ===
/** The AI chat page (src/app/dashboard/ai-chat/page.tsx): what
    `handleSendMessage` does with the structured result of the assistant.
    The assistant call is an input (`None` when it fails) and date parsing is
    the abstract function `parse`. */
module AiChat {
  import opened Common
  import opened Text
  import opened Types

  const ErrorReply: string := "Sorry, I encountered an error and cannot respond at the moment."
  const RephraseReply: string :=
    "I'm sorry, I couldn't understand the time for that reminder. Could you please try rephrasing it? For example: 'Remind me tomorrow at 5pm'."

  /** The assistant's structured result. */
  datatype AiResult = AiResult(message: string, isNote: bool, noteContent: Option<string>,
                               isReminder: bool, reminderContent: Option<string>,
                               reminderDateTime: Option<string>)

  /** The conversation and the two stored lists (`None` when the key is absent). */
  datatype ChatState = ChatState(messages: seq<Message>, notes: Option<seq<Note>>,
                                 reminders: Option<seq<Reminder>>)

  /** The toasts shown and whether the storage event was dispatched. */
  datatype Effects = Effects(noteAdded: bool, reminderSet: bool, dispatched: bool)

  datatype Sent = Sent(state: ChatState, effects: Effects)

  /** The result asks for a note. */
  predicate WantsNote(res: AiResult) {
    res.isNote && Truthy(res.noteContent)
  }

  /** The result asks for a reminder and carries both of its fields. */
  predicate WantsReminder(res: AiResult) {
    res.isReminder && Truthy(res.reminderContent) && Truthy(res.reminderDateTime)
  }

  /** The conversation after one exchange: the user's message, then the
      assistant's, after everything said before. */
  function Exchange(messages: seq<Message>, text: string, reply: string): (r: seq<Message>)
    ensures |r| == |messages| + 2
    ensures r[..|messages|] == messages
    ensures r[|messages|] == Message(User, text) && r[|messages| + 1] == Message(Assistant, reply)
  {
    messages + [Message(User, text), Message(Assistant, reply)]
  }

  /** `handleSendMessage`: a blank message is ignored. Otherwise the user's
      message is appended and then exactly one assistant message: the
      assistant's reply, the fixed rephrase text when the reminder time does
      not parse, or the fixed error text when the call fails. A requested note
      is put first in the stored notes; a requested reminder with a valid time
      is appended to the stored reminders. */
  function SendMessage(st: ChatState, text: string, result: Option<AiResult>,
                       parse: string -> Stamp, newId: string, localTime: string): (r: Sent)
    ensures IsBlank(text) ==> r == Sent(st, Effects(false, false, false))
    ensures !IsBlank(text) ==>
              && |r.state.messages| == |st.messages| + 2
              && r.state.messages[..|st.messages|] == st.messages
              && r.state.messages[|st.messages|] == Message(User, text)
              && r.state.messages[|st.messages| + 1].role == Assistant
    ensures !IsBlank(text) && result.None? ==>
              && r.state == st.(messages := r.state.messages)
              && r.state.messages[|st.messages| + 1].content == ErrorReply
              && r.effects == Effects(false, false, false)
    ensures !IsBlank(text) && result.Some? ==>
              var res := result.value;
              var invalid := WantsReminder(res) && parse(res.reminderDateTime.value).Invalid?;
              r.state.messages[|st.messages| + 1].content == (if invalid then RephraseReply else res.message)
    ensures !IsBlank(text) && result.Some? ==>
              var res := result.value;
              && (WantsNote(res) <==> r.effects.noteAdded)
              && (WantsNote(res) ==>
                    r.state.notes == Some([Note(newId, res.noteContent.value, localTime)] + st.notes.GetOr([])))
              && (!WantsNote(res) ==> r.state.notes == st.notes)
    ensures !IsBlank(text) && result.Some? ==>
              var res := result.value;
              && (r.effects.reminderSet <==> WantsReminder(res) && parse(res.reminderDateTime.value).At?)
              && r.effects.dispatched == r.effects.reminderSet
              && (r.effects.reminderSet ==>
                    r.state.reminders == Some(st.reminders.GetOr([]) +
                                              [Reminder(newId, res.reminderContent.value,
                                                        parse(res.reminderDateTime.value))]))
              && (!r.effects.reminderSet ==> r.state.reminders == st.reminders)
  {
    if IsBlank(text) then Sent(st, Effects(false, false, false))
    else
      if result.None? then
        Sent(st.(messages := Exchange(st.messages, text, ErrorReply)), Effects(false, false, false))
      else
        var res := result.value;
        var noteAdded := WantsNote(res);
        var notes := if noteAdded then Some([Note(newId, res.noteContent.value, localTime)] + st.notes.GetOr([]))
                     else st.notes;
        var when := if WantsReminder(res) then parse(res.reminderDateTime.value) else Invalid("");
        var reminderSet := WantsReminder(res) && when.At?;
        var reply := if WantsReminder(res) && when.Invalid? then RephraseReply else res.message;
        var reminders := if reminderSet
                         then Some(st.reminders.GetOr([]) + [Reminder(newId, res.reminderContent.value, when)])
                         else st.reminders;
        Sent(ChatState(Exchange(st.messages, text, reply), notes, reminders),
             Effects(noteAdded, reminderSet, reminderSet))
  }

  /** A stored reminder always carries a parsed time, so the background scan
      can fire it: the assistant never stores a reminder that could never
      ring. */
  lemma StoredReminderIsValid(st: ChatState, text: string, result: Option<AiResult>,
                              parse: string -> Stamp, newId: string, localTime: string)
    requires SendMessage(st, text, result, parse, newId, localTime).effects.reminderSet
    ensures var r := SendMessage(st, text, result, parse, newId, localTime);
            var rs := r.state.reminders.value;
            |rs| > 0 && rs[|rs| - 1].remindAt.At? && rs[|rs| - 1].content != ""
  {
    assert !IsBlank(text) && result.Some?;
  }

  /** Sending never loses stored data: every note and reminder stored before
      is still stored, in the same order, after the send. */
  lemma SendKeepsStoredItems(st: ChatState, text: string, result: Option<AiResult>,
                             parse: string -> Stamp, newId: string, localTime: string)
    ensures var r := SendMessage(st, text, result, parse, newId, localTime).state;
            && (st.notes.Some? ==> r.notes.Some? && IsSuffix(st.notes.value, r.notes.value))
            && (st.reminders.Some? ==> r.reminders.Some? && IsPrefix(st.reminders.value, r.reminders.value))
  {
    if !IsBlank(text) && result.Some? {
      var r := SendMessage(st, text, result, parse, newId, localTime).state;
      if st.notes.Some? && r.notes != st.notes {
        var added := [Note(newId, result.value.noteContent.value, localTime)];
        assert r.notes.value == added + st.notes.value;
        assert (added + st.notes.value)[|added|..] == st.notes.value;
      }
    }
  }
}

=== FILE: background.dfy ===
/** The focus-mode customisation page (src/app/dashboard/background/page.tsx):
    the background image (chosen, checked, saved as a data URL, removed)
    and the timer colour (saved, reset), with the preview backdrop that
    keeps the colour readable. The file reader and object URLs are inputs. */
module Background {
  import opened Common
  import opened Text

  /** `MAX_FILE_SIZE_BYTES`: 5 MiB. */
  const MaxFileSizeBytes: nat := 5 * 1024 * 1024

  /** `DEFAULT_TIMER_COLOR`. */
  const DefaultTimerColor: string := "#FFFFFF"

  /** A picked file: its size in bytes and its MIME type. */
  datatype ImageFile = ImageFile(size: nat, mimeType: string)

  datatype FileCheck = NoFile | TooLarge | InvalidType | Chosen

  /** The two storage keys (`customFocusBackground`, `focusTimerColor`) and
      the page state. */
  datatype Page = Page(storedBackground: Option<string>, storedColor: Option<string>,
                       customBackground: Option<string>, selectedFile: Option<ImageFile>,
                       previewUrl: Option<string>, timerColor: string, savedTimerColor: string)

  /** The mount effect: a stored background is shown and previewed; a
      stored colour is taken as both the current and the saved colour. */
  function Load(storedBackground: Option<string>, storedColor: Option<string>): (p: Page)
    ensures p.storedBackground == storedBackground && p.storedColor == storedColor
    ensures p.customBackground == p.previewUrl
    ensures Truthy(storedBackground) <==> p.customBackground.Some?
    ensures p.customBackground.Some? ==> p.customBackground == storedBackground
    ensures p.timerColor == p.savedTimerColor
    ensures p.timerColor == if Truthy(storedColor) then storedColor.value else DefaultTimerColor
    ensures p.selectedFile.None?
  {
    var bg := if Truthy(storedBackground) then storedBackground else None;
    var color := if Truthy(storedColor) then storedColor.value else DefaultTimerColor;
    Page(storedBackground, storedColor, bg, None, bg, color, color)
  }

  /** The checks of `handleFileChange`, size first, then the type. */
  function CheckFile(file: Option<ImageFile>): (r: FileCheck)
    ensures r == NoFile <==> file.None?
    ensures r == TooLarge <==> file.Some? && file.value.size > MaxFileSizeBytes
    ensures r == Chosen <==> file.Some? && file.value.size <= MaxFileSizeBytes
                             && StartsWith(file.value.mimeType, "image/")
  {
    match file
    case None => NoFile
    case Some(f) =>
      if f.size > MaxFileSizeBytes then TooLarge
      else if !StartsWith(f.mimeType, "image/") then InvalidType
      else Chosen
  }

  /** `handleFileChange`: an accepted file is selected and previewed through
      its object URL; anything else leaves the page as it was. */
  function ChooseFile(p: Page, file: Option<ImageFile>, objectUrl: string): (r: (Page, FileCheck))
    ensures r.1 == CheckFile(file)
    ensures r.1 != Chosen ==> r.0 == p
    ensures r.1 == Chosen ==> r.0 == p.(selectedFile := file, previewUrl := Some(objectUrl))
  {
    var check := CheckFile(file);
    if check == Chosen then (p.(selectedFile := file, previewUrl := Some(objectUrl)), check)
    else (p, check)
  }

  /** Exactly 5 MiB is allowed; one byte more is refused, whatever the type. */
  lemma FileLimitInclusive(mimeType: string)
    ensures CheckFile(Some(ImageFile(5242880, "image/png"))) == Chosen
    ensures CheckFile(Some(ImageFile(5242881, mimeType))) == TooLarge
  {
    assert "image/png"[..6] == "image/";
  }

  /** `handleSaveBackground`: with a file selected, its data URL is stored
      and shown; without one nothing happens. */
  function SaveBackground(p: Page, dataUrl: string): (r: Page)
    ensures p.selectedFile.None? ==> r == p
    ensures p.selectedFile.Some? ==>
              r.storedBackground == Some(dataUrl) && r.customBackground == Some(dataUrl)
              && r.storedColor == p.storedColor && r.timerColor == p.timerColor
  {
    if p.selectedFile.None? then p
    else p.(storedBackground := Some(dataUrl), customBackground := Some(dataUrl))
  }

  /** `handleRemoveBackground`: the stored image, the selection and the
      preview are all cleared; the colour is untouched. */
  function RemoveBackground(p: Page): (r: Page)
    ensures r.storedBackground.None? && r.customBackground.None?
    ensures r.selectedFile.None? && r.previewUrl.None?
    ensures r.storedColor == p.storedColor && r.timerColor == p.timerColor
            && r.savedTimerColor == p.savedTimerColor
  {
    p.(storedBackground := None, customBackground := None, selectedFile := None, previewUrl := None)
  }

  /** A chosen image that is saved comes back on the next visit; after a
      removal none does. */
  lemma BackgroundSurvivesReload(p: Page, file: Option<ImageFile>, objectUrl: string, dataUrl: string)
    requires CheckFile(file) == Chosen && dataUrl != ""
    ensures var r := SaveBackground(ChooseFile(p, file, objectUrl).0, dataUrl);
            Load(r.storedBackground, r.storedColor).customBackground == Some(dataUrl)
    ensures var r := RemoveBackground(p);
            Load(r.storedBackground, r.storedColor).customBackground.None?
  {
  }

  /** `handleSaveColor`: the colour in the picker becomes the saved one. */
  function SaveColor(p: Page): (r: Page)
    ensures r.storedColor == Some(p.timerColor) && r.savedTimerColor == p.timerColor
    ensures r.timerColor == p.timerColor && r.storedBackground == p.storedBackground
  {
    p.(storedColor := Some(p.timerColor), savedTimerColor := p.timerColor)
  }

  /** `handleRemoveColor`: the stored colour is removed and both colours go
      back to white. */
  function RemoveColor(p: Page): (r: Page)
    ensures r.storedColor.None?
    ensures r.timerColor == DefaultTimerColor && r.savedTimerColor == DefaultTimerColor
    ensures r.storedBackground == p.storedBackground && r.customBackground == p.customBackground
  {
    p.(storedColor := None, timerColor := DefaultTimerColor, savedTimerColor := DefaultTimerColor)
  }

  /** A saved colour is what the page shows on the next visit, and after a
      reset the next visit shows the same white the reset shows now. */
  lemma ColorSurvivesReload(p: Page)
    ensures var r := SaveColor(p);
            p.timerColor != "" ==> Load(r.storedBackground, r.storedColor).timerColor == p.timerColor
    ensures var r := RemoveColor(p);
            Load(r.storedBackground, r.storedColor).timerColor == r.timerColor
  {
  }

  /** The backdrop behind the colour preview: black behind white (in either
      case), white behind anything else. */
  function PreviewBackdrop(timerColor: string): (b: string)
    ensures b == "#000000" || b == "#FFFFFF"
    ensures b == "#000000" <==> ToUpperAscii(timerColor) == DefaultTimerColor
  {
    if ToUpperAscii(timerColor) == DefaultTimerColor then "#000000" else "#FFFFFF"
  }

  /** The comparison ignores case: white written in lower case also gets the
      black backdrop, and black text gets a white one. */
  lemma PreviewIgnoresCase()
    ensures PreviewBackdrop("#ffffff") == "#000000"
    ensures PreviewBackdrop("#fFfFfF") == "#000000"
    ensures PreviewBackdrop("#000000") == "#FFFFFF"
  {
    assert ToUpperAscii("#ffffff") == "#FFFFFF";
    assert ToUpperAscii("#fFfFfF") == "#FFFFFF";
    assert ToUpperAscii("#000000")[1] != 'F';
  }

  /** The backdrop contrasts with the colour it shows: it is never the
      colour itself. */
  lemma BackdropDiffers(timerColor: string)
    ensures PreviewBackdrop(timerColor) != ToUpperAscii(timerColor)
  {
    if ToUpperAscii(timerColor) != DefaultTimerColor {
      assert "#000000"[1] != "#FFFFFF"[1];
      if ToUpperAscii(timerColor) == "#000000" {
        assert PreviewBackdrop(timerColor) == "#FFFFFF";
      }
    }
  }
}

=== FILE: characters.dfy ===
/** The character list of the chat page
    (src/app/dashboard/chat-with-characters/page.tsx): the built-in
    companion followed by the user's own characters, creation through the
    persona generator, and deletion. The stored list is the parsed value of
    the `customCharacters` key; a missing key reads as the empty list. The
    generator is an input: `Some(persona)` when it answers, `None` when the
    call throws. */
module Characters {
  import opened Common
  import opened Text
  import opened Types

  /** `MAX_CUSTOM_CHARACTERS`. */
  const MaxCustomCharacters: nat := 2

  /** The system prompt of the built-in companion; its wording is not part
      of this model. */
  const DefaultPersona: string

  const DefaultCharacter: Character :=
    Character("michael", "Michael", "Your friendly, motivating companion. He's always ready to listen.",
              DefaultPersona, true)

  /** What a create attempt shows: the "missing information" toast, the
      "created" toast, or the "creation failed" toast. */
  datatype CreateOutcome = MissingInformation | Created | CreationFailed

  /** The page: the displayed list, the stored custom list, whether a
      generation is running, and the two form fields. */
  datatype Page = Page(characters: seq<Character>, stored: seq<Character>, creating: bool,
                       nameInput: string, descInput: string)

  /** The stored list holds no built-in character and the page shows the
      built-in one followed by the stored list. */
  ghost predicate Consistent(p: Page) {
    && p.characters == [DefaultCharacter] + p.stored
    && forall i :: 0 <= i < |p.stored| ==> !p.stored[i].isDefault
  }

  /** `loadCharacters`: the built-in character, then the stored ones in
      stored order. */
  function Load(stored: seq<Character>): (r: Page)
    ensures |r.characters| == |stored| + 1 && r.characters[0] == DefaultCharacter
    ensures r.characters[1..] == stored && r.stored == stored
    ensures (forall i :: 0 <= i < |stored| ==> !stored[i].isDefault) ==> Consistent(r)
  {
    Page([DefaultCharacter] + stored, stored, false, "", "")
  }

  /** `customCharacterCount`: the characters that are not built in. */
  function CustomCount(characters: seq<Character>): nat {
    |Filter(characters, (c: Character) => !c.isDefault)|
  }

  /** On a consistent page the count is the length of the stored list. */
  lemma CustomCountIsStored(p: Page)
    requires Consistent(p)
    ensures CustomCount(p.characters) == |p.stored|
  {
    var keep := (c: Character) => !c.isDefault;
    FilterAppend([DefaultCharacter], p.stored, keep);
    assert Filter([DefaultCharacter], keep) == [] by {
      assert [DefaultCharacter][1..] == [];
    }
    FilterKeepsAll(p.stored, keep);
  }

  /** The create button is enabled while fewer than two custom characters
      exist and no generation is running. */
  function CanOpenCreate(p: Page): (b: bool)
    ensures b ==> !p.creating
  {
    CustomCount(p.characters) < MaxCustomCharacters && !p.creating
  }

  /** On a consistent page the button is enabled exactly while fewer than two
      characters are stored and nothing is being generated. */
  lemma CanOpenCreateStored(p: Page)
    requires Consistent(p)
    ensures CanOpenCreate(p) <==> |p.stored| < MaxCustomCharacters && !p.creating
  {
    CustomCountIsStored(p);
  }

  /** The character made from the form: the untrimmed name and description,
      an id from the clock, the generated persona. */
  function NewCharacter(name: string, description: string, now: nat, persona: string): (c: Character)
    ensures StartsWith(c.id, "custom-") && !c.isDefault
    ensures c.name == name && c.description == description && c.persona == persona
  {
    Character("custom-" + NatToString(now), name, description, persona, false)
  }

  /** The form after a successful create: the new character is appended to
      the stored list, the page shows the built-in one ahead of that list,
      and the fields are cleared. */
  function Append(p: Page, c: Character): (r: Page)
    ensures r.stored == p.stored + [c] && r.characters == [DefaultCharacter] + r.stored
  {
    var updated := p.stored + [c];
    Page([DefaultCharacter] + updated, updated, false, "", "")
  }

  /** `handleCreateCharacter`. Blank fields are refused and nothing changes.
      Otherwise the generator runs; its answer becomes a new character
      appended to the stored list. A generator failure changes no list. */
  function Create(p: Page, now: nat, generated: Option<string>): (r: (Page, CreateOutcome))
    ensures r.1 == MissingInformation <==> IsBlank(p.nameInput) || IsBlank(p.descInput)
    ensures r.1 == Created <==> r.1 != MissingInformation && generated.Some?
    ensures r.1 == MissingInformation ==> r.0 == p
    ensures r.1 == CreationFailed ==> r.0 == p.(creating := false)
    ensures r.1 != MissingInformation ==> !r.0.creating
  {
    if IsBlank(p.nameInput) || IsBlank(p.descInput) then (p, MissingInformation)
    else match generated
      case None => (p.(creating := false), CreationFailed)
      case Some(persona) => (Append(p, NewCharacter(p.nameInput, p.descInput, now, persona)), Created)
  }

  /** A successful create adds exactly one character, at the end of the
      stored list, keeps the others, and clears the form. */
  lemma CreateAppends(p: Page, now: nat, persona: string)
    requires !IsBlank(p.nameInput) && !IsBlank(p.descInput)
    ensures var r := Create(p, now, Some(persona)).0;
            && |r.stored| == |p.stored| + 1 && IsPrefix(p.stored, r.stored)
            && r.stored[|p.stored|] == NewCharacter(p.nameInput, p.descInput, now, persona)
            && r.characters == [DefaultCharacter] + r.stored
            && r.nameInput == "" && r.descInput == ""
  {
    var r := Create(p, now, Some(persona)).0;
    assert r.stored[..|p.stored|] == p.stored;
  }

  /** The limit of two lives on the button only: with the form filled in and
      the generator answering, a create succeeds however many custom
      characters exist. */
  lemma CreateIgnoresLimit(p: Page, now: nat, persona: string)
    requires Consistent(p) && !IsBlank(p.nameInput) && !IsBlank(p.descInput)
    ensures var r := Create(p, now, Some(persona));
            r.1 == Created && Consistent(r.0)
            && CustomCount(r.0.characters) == CustomCount(p.characters) + 1
  {
    var r := Create(p, now, Some(persona));
    AppendKeepsConsistent(p, NewCharacter(p.nameInput, p.descInput, now, persona));
    CustomCountIsStored(p);
    CustomCountIsStored(r.0);
  }

  lemma AppendKeepsConsistent(p: Page, c: Character)
    requires Consistent(p) && !c.isDefault
    ensures Consistent(Append(p, c))
  {
    var s := Append(p, c).stored;
    assert forall i :: 0 <= i < |s| ==> s[i] == if i < |p.stored| then p.stored[i] else c;
  }

  /** `handleDeleteCharacter`: the displayed list without the built-in
      character and without the one deleted is stored and shown behind the
      built-in one. */
  function Delete(p: Page, id: string): (r: Page)
    ensures forall c :: c in r.stored <==> c in p.characters && c.id != id && !c.isDefault
    ensures r.characters == [DefaultCharacter] + r.stored
    ensures Consistent(r)
  {
    var updated := Filter(p.characters, (c: Character) => c.id != id && !c.isDefault);
    assert forall i :: 0 <= i < |updated| ==> updated[i] in updated;
    p.(characters := [DefaultCharacter] + updated, stored := updated)
  }

  /** Deleting from a consistent page keeps the other stored characters in
      their order: it is the filter of the stored list. */
  lemma DeleteFiltersStored(p: Page, id: string)
    requires Consistent(p)
    ensures Delete(p, id).stored == Filter(p.stored, (c: Character) => c.id != id)
  {
    var keep := (c: Character) => c.id != id && !c.isDefault;
    var byId := (c: Character) => c.id != id;
    FilterAppend([DefaultCharacter], p.stored, keep);
    assert Filter([DefaultCharacter], keep) == [] by {
      assert [DefaultCharacter][1..] == [];
    }
    SameFilter(p.stored, keep, byId);
  }

  /** Deleting a freshly created character undoes the creation, provided no
      earlier character had the same id. */
  lemma DeleteUndoesCreate(p: Page, now: nat, persona: string)
    requires Consistent(p) && !IsBlank(p.nameInput) && !IsBlank(p.descInput)
    requires forall i :: 0 <= i < |p.stored| ==> p.stored[i].id != "custom-" + NatToString(now)
    ensures var r := Create(p, now, Some(persona)).0;
            Delete(r, "custom-" + NatToString(now)).stored == p.stored
  {
    var id := "custom-" + NatToString(now);
    var c := NewCharacter(p.nameInput, p.descInput, now, persona);
    AppendKeepsConsistent(p, c);
    DeleteFiltersStored(Append(p, c), id);
    DropLast(p.stored, c, id);
  }

  /** Filtering out an id that only the last element carries gives back the
      list before it. */
  lemma DropLast(xs: seq<Character>, c: Character, id: string)
    requires c.id == id && forall i :: 0 <= i < |xs| ==> xs[i].id != id
    ensures Filter(xs + [c], (x: Character) => x.id != id) == xs
  {
    var byId := (x: Character) => x.id != id;
    FilterAppend(xs, [c], byId);
    FilterKeepsAll(xs, byId);
    assert Filter([c], byId) == [] by {
      assert [c][1..] == [];
    }
  }
}

=== FILE: common.dfy ===
/** Shared building blocks: the optional value used for every storage read,
    JavaScript truthiness of stored strings, and Array.prototype.filter. */
module Common {

  /** A value that may be absent: `localStorage.getItem` returning null,
      an optional field of a record, a React state slot holding null. */
  datatype Option<+T> = None | Some(value: T) {
    function GetOr(default: T): T {
      match this
      case Some(v) => v
      case None => default
    }
  }

  /** JavaScript truthiness of a string read from storage or a form field:
      both a missing value and the empty string are falsy. */
  predicate Truthy(o: Option<string>) {
    o.Some? && o.value != ""
  }

  /** `p` is an initial segment of `s`. */
  predicate IsPrefix<T(==)>(p: seq<T>, s: seq<T>) {
    |p| <= |s| && s[..|p|] == p
  }

  /** `p` is a final segment of `s`. */
  predicate IsSuffix<T(==)>(p: seq<T>, s: seq<T>) {
    |p| <= |s| && s[|s| - |p|..] == p
  }

  /** `Math.round(x)`: the nearest integer, a half rounding upwards. */
  function Round(x: real): (n: int)
    ensures x - 0.5 < n as real <= x + 0.5
  {
    (x + 0.5).Floor
  }

  /** `xs.filter(keep)`: the elements satisfying `keep`, in their original order. */
  function Filter<T(!new)>(xs: seq<T>, keep: T -> bool): (r: seq<T>)
    ensures |r| <= |xs|
    ensures forall x :: x in r <==> x in xs && keep(x)
  {
    if |xs| == 0 then []
    else (if keep(xs[0]) then [xs[0]] else []) + Filter(xs[1..], keep)
  }

  /** Number of elements satisfying `p`. */
  function Count<T(!new)>(xs: seq<T>, p: T -> bool): (n: nat)
    ensures n <= |xs|
  {
    if |xs| == 0 then 0
    else (if p(xs[0]) then 1 else 0) + Count(xs[1..], p)
  }

  /** Filtering distributes over concatenation: kept elements keep their relative order. */
  lemma {:induction false} FilterAppend<T(!new)>(xs: seq<T>, ys: seq<T>, keep: T -> bool)
    ensures Filter(xs + ys, keep) == Filter(xs, keep) + Filter(ys, keep)
  {
    if |xs| == 0 {
      assert xs + ys == ys;
    } else {
      assert (xs + ys)[1..] == xs[1..] + ys;
      FilterAppend(xs[1..], ys, keep);
    }
  }

  /** The filtered sequence has exactly as many elements as satisfy `keep`. */
  lemma {:induction false} FilterLength<T(!new)>(xs: seq<T>, keep: T -> bool)
    ensures |Filter(xs, keep)| == Count(xs, keep)
  {
    if |xs| > 0 {
      FilterLength(xs[1..], keep);
    }
  }

  /** Every element is either kept or dropped: the two counts add up. */
  lemma {:induction false} CountSplit<T(!new)>(xs: seq<T>, p: T -> bool)
    ensures Count(xs, p) + Count(xs, x => !p(x)) == |xs|
  {
    if |xs| > 0 {
      CountSplit(xs[1..], p);
    }
  }

  /** One step of the split: the head goes to exactly one side. */
  lemma SplitStep<T>(x: T, rest: seq<T>, a: seq<T>, b: seq<T>, fa: seq<T>, fb: seq<T>)
    requires multiset(a) + multiset(b) == multiset(rest)
    requires (fa == [x] + a && fb == b) || (fa == a && fb == [x] + b)
    ensures multiset(fa) + multiset(fb) == multiset([x] + rest)
  {
  }

  /** Filtering by `keep` and filtering by its negation `drop` split `xs` as
      a multiset. */
  lemma {:induction false} FilterSplit<T(!new)>(xs: seq<T>, keep: T -> bool, drop: T -> bool)
    requires forall x :: drop(x) == !keep(x)
    ensures multiset(Filter(xs, keep)) + multiset(Filter(xs, drop)) == multiset(xs)
  {
    if |xs| > 0 {
      var x, rest := xs[0], xs[1..];
      FilterSplit(rest, keep, drop);
      assert xs == [x] + rest;
      if keep(x) {
        assert Filter(xs, keep) == [x] + Filter(rest, keep) && Filter(xs, drop) == Filter(rest, drop);
      } else {
        assert Filter(xs, keep) == Filter(rest, keep) && Filter(xs, drop) == [x] + Filter(rest, drop);
      }
      SplitStep(x, rest, Filter(rest, keep), Filter(rest, drop), Filter(xs, keep), Filter(xs, drop));
    }
  }

  /** A filter that keeps everything returns its input unchanged. */
  lemma {:induction false} FilterKeepsAll<T(!new)>(xs: seq<T>, keep: T -> bool)
    requires forall i :: 0 <= i < |xs| ==> keep(xs[i])
    ensures Filter(xs, keep) == xs
  {
    if |xs| > 0 {
      FilterKeepsAll(xs[1..], keep);
    }
  }

  /** A filter that keeps nothing returns the empty sequence. */
  lemma {:induction false} FilterKeepsNone<T(!new)>(xs: seq<T>, keep: T -> bool)
    requires forall i :: 0 <= i < |xs| ==> !keep(xs[i])
    ensures Filter(xs, keep) == []
  {
    if |xs| > 0 {
      FilterKeepsNone(xs[1..], keep);
    }
  }

  /** Two filters agree on a list whose elements they judge alike. */
  lemma {:induction false} SameFilter<T(!new)>(xs: seq<T>, f: T -> bool, g: T -> bool)
    requires forall i :: 0 <= i < |xs| ==> f(xs[i]) == g(xs[i])
    ensures Filter(xs, f) == Filter(xs, g)
  {
    if |xs| > 0 {
      SameFilter(xs[1..], f, g);
    }
  }

  /** Filtering by a looser predicate and then by a stricter one is filtering
      by the stricter one alone. */
  lemma {:induction false} FilterNarrow<T(!new)>(xs: seq<T>, loose: T -> bool, strict: T -> bool)
    requires forall x :: strict(x) ==> loose(x)
    ensures Filter(Filter(xs, loose), strict) == Filter(xs, strict)
  {
    if |xs| > 0 {
      FilterNarrow(xs[1..], loose, strict);
      if loose(xs[0]) {
        assert Filter(xs, loose) == [xs[0]] + Filter(xs[1..], loose);
        assert ([xs[0]] + Filter(xs[1..], loose))[1..] == Filter(xs[1..], loose);
      } else {
        assert !strict(xs[0]);
        assert Filter(xs, loose) == Filter(xs[1..], loose);
      }
    }
  }

  /** Filtering keeps every copy of a kept element and no copy of a dropped
      one. */
  lemma {:induction false} FilterOccurrences<T(!new)>(xs: seq<T>, keep: T -> bool, x: T)
    ensures multiset(Filter(xs, keep))[x] == if keep(x) then multiset(xs)[x] else 0
  {
    if |xs| > 0 {
      FilterOccurrences(xs[1..], keep, x);
      assert xs == [xs[0]] + xs[1..];
    }
  }

  /** Filtering keeps every copy of each kept element and no copy of the
      others, for all elements at once. */
  lemma FilterMultiplicity<T(!new)>(xs: seq<T>, keep: T -> bool)
    ensures forall x :: multiset(Filter(xs, keep))[x] == if keep(x) then multiset(xs)[x] else 0
  {
    forall x
      ensures multiset(Filter(xs, keep))[x] == if keep(x) then multiset(xs)[x] else 0
    {
      FilterOccurrences(xs, keep, x);
    }
  }

  /** Filtering two rearrangements of one sequence gives rearrangements of
      one another. */
  lemma FilterPermutation<T(!new)>(xs: seq<T>, ys: seq<T>, keep: T -> bool)
    requires multiset(xs) == multiset(ys)
    ensures multiset(Filter(xs, keep)) == multiset(Filter(ys, keep))
  {
    forall x
      ensures multiset(Filter(xs, keep))[x] == multiset(Filter(ys, keep))[x]
    {
      FilterOccurrences(xs, keep, x);
      FilterOccurrences(ys, keep, x);
    }
  }

  /** Filtering twice with the same predicate is the same as filtering once. */
  lemma FilterIdempotent<T(!new)>(xs: seq<T>, keep: T -> bool)
    ensures Filter(Filter(xs, keep), keep) == Filter(xs, keep)
  {
    var f := Filter(xs, keep);
    forall i | 0 <= i < |f|
      ensures keep(f[i])
    {
      assert f[i] in f;
    }
    FilterKeepsAll(f, keep);
  }
}

=== FILE: dashboard.dfy ===
/** The dashboard (src/app/dashboard/page.tsx): the focus-session engine that
    counts a pomodoro down second by second and credits whole minutes to the
    active subject and to today's progress record, the subject and note
    lists, and the countdown formatter. Each handler or effect run is one
    atomic transition; the day key is the UTC date of "now", passed in as
    `today`. */
module Dashboard {
  import opened Common
  import opened Text
  import opened Types

  const DefaultPomodoroMinutes: int := 25
  const DefaultDailyGoalHours: real := 3.5
  const FullGrowthDurationSeconds: int := 3600

  /** The countdown state: `duration` is the configured session length in
      seconds and `timer` the seconds left. Paused is "not running with a
      subject still active". */
  datatype Engine = Engine(running: bool, timer: int, activeSubject: Option<Subject>,
                           duration: nat, focusMode: bool, ambientSrc: Option<string>)

  datatype Board = Board(engine: Engine, subjects: seq<Subject>,
                         progress: map<string, DailyProgress>, dailyGoal: real,
                         notes: seq<Note>)

  /** The toast a transition shows. */
  datatype SessionEvent =
    | Quiet
    | SessionInProgress
    | SessionStarted(minutes: int, subjectName: string)
    | SessionComplete(minutes: int)
    | SessionEndedEarly(minutes: int)
    | SessionCancelled

  datatype Outcome = Outcome(board: Board, event: SessionEvent)

  /** The countdown never leaves the configured range. */
  ghost predicate TimerBounds(e: Engine) {
    0 <= e.timer <= e.duration
  }

  // ---------------------------------------------------------------- progress

  /** `updateDailyProgress`: adds `minutes` to today's record, creating it at
      zero, and stamps it with the current goal. */
  function UpdateDailyProgress(progress: map<string, DailyProgress>, today: string,
                               minutes: int, dailyGoal: real): (r: map<string, DailyProgress>)
    ensures today in r
    ensures r[today].minutesStudied ==
              (if today in progress then progress[today].minutesStudied else 0) + minutes
    ensures r[today].dailyGoalInMinutes == dailyGoal * 60.0
    ensures r.Keys == progress.Keys + {today}
    ensures forall d :: d in progress && d != today ==> r[d] == progress[d]
  {
    var day := if today in progress then progress[today] else DailyProgress(0, dailyGoal * 60.0);
    progress[today := DailyProgress(day.minutesStudied + minutes, dailyGoal * 60.0)]
  }

  /** Two credits on the same day add up, and the record keeps the goal of
      the later write, not the one in force when the day was created. */
  lemma UpdateDailyProgressTwice(progress: map<string, DailyProgress>, today: string,
                                 m1: int, g1: real, m2: int, g2: real)
    ensures var once := UpdateDailyProgress(progress, today, m1, g1);
            var twice := UpdateDailyProgress(once, today, m2, g2);
            && twice[today].minutesStudied ==
                 (if today in progress then progress[today].minutesStudied else 0) + m1 + m2
            && twice[today].dailyGoalInMinutes == g2 * 60.0
            && twice == UpdateDailyProgress(progress, today, m1 + m2, g2)
  {
  }

  // ---------------------------------------------------------------- subjects

  /** Sum of `timeStudied` over the subjects (the total behind "Total Hours
      Studied", before the division by 60). */
  function TotalMinutes(subjects: seq<Subject>): int {
    if |subjects| == 0 then 0 else subjects[0].timeStudied + TotalMinutes(subjects[1..])
  }

  /** Number of subjects carrying `id`. */
  function CountId(subjects: seq<Subject>, id: string): nat {
    if |subjects| == 0 then 0 else (if subjects[0].id == id then 1 else 0) + CountId(subjects[1..], id)
  }

  /** `subjects.map(s => s.id === id ? {...s, timeStudied: s.timeStudied + minutes} : s)`. */
  function Credit(subjects: seq<Subject>, id: string, minutes: int): (r: seq<Subject>)
    ensures |r| == |subjects|
    ensures forall i :: 0 <= i < |r| ==>
              r[i] == if subjects[i].id == id
                      then subjects[i].(timeStudied := subjects[i].timeStudied + minutes)
                      else subjects[i]
  {
    if |subjects| == 0 then []
    else
      var s := subjects[0];
      [if s.id == id then s.(timeStudied := s.timeStudied + minutes) else s]
        + Credit(subjects[1..], id, minutes)
  }

  /** Crediting conserves time: the total grows by `minutes` once per subject
      carrying the id, so by exactly `minutes` when ids are unique. */
  lemma {:induction false} CreditTotal(subjects: seq<Subject>, id: string, minutes: int)
    ensures TotalMinutes(Credit(subjects, id, minutes))
            == TotalMinutes(subjects) + minutes * CountId(subjects, id)
  {
    if |subjects| > 0 {
      CreditTotal(subjects[1..], id, minutes);
      var r := Credit(subjects, id, minutes);
      assert r[1..] == Credit(subjects[1..], id, minutes);
    }
  }

  /** `handleAddSubject`: both fields must be non-empty strings (they are not
      trimmed); the goal typed in hours is stored in minutes. */
  function AddSubject(subjects: seq<Subject>, name: string, goal: string, newId: string): (r: seq<Subject>)
    ensures name == "" || goal == "" ==> r == subjects
    ensures name != "" && goal != "" ==>
              && |r| == |subjects| + 1 && r[..|subjects|] == subjects
              && r[|subjects|].id == newId && r[|subjects|].name == name
              && r[|subjects|].timeStudied == 0 && r[|subjects|].iconName == "Clock"
              && (ParseInt(goal).Some? <==> r[|subjects|].timeGoal.Some?)
              && (ParseInt(goal).Some? ==> r[|subjects|].timeGoal.value == ParseInt(goal).value * 60)
  {
    if name != "" && goal != "" then
      var parsed := ParseInt(goal);
      var goalMinutes := if parsed.Some? then Some(parsed.value * 60) else None;
      subjects + [Subject(newId, name, goalMinutes, 0, "Clock")]
    else subjects
  }

  /** `handleDeleteSubject`: keeps every subject whose id differs. */
  function DeleteSubject(subjects: seq<Subject>, id: string): (r: seq<Subject>)
    ensures forall s :: s in r <==> s in subjects && s.id != id
    ensures |r| == Count(subjects, (s: Subject) => s.id != id)
    ensures forall s :: multiset(r)[s] == if s.id != id then multiset(subjects)[s] else 0
  {
    FilterLength(subjects, (s: Subject) => s.id != id);
    FilterMultiplicity(subjects, (s: Subject) => s.id != id);
    Filter(subjects, (s: Subject) => s.id != id)
  }

  /** Deleting a freshly added subject by its new id gives back the list it
      was added to. */
  lemma DeleteSubjectUndoesAdd(subjects: seq<Subject>, name: string, goal: string, newId: string)
    requires forall s :: s in subjects ==> s.id != newId
    ensures DeleteSubject(AddSubject(subjects, name, goal, newId), newId) == subjects
  {
    var keep := (s: Subject) => s.id != newId;
    forall i | 0 <= i < |subjects|
      ensures keep(subjects[i])
    {
      assert subjects[i] in subjects;
    }
    FilterKeepsAll(subjects, keep);
    var added := AddSubject(subjects, name, goal, newId);
    if name != "" && goal != "" {
      assert added == subjects + [added[|subjects|]];
      FilterAppend(subjects, [added[|subjects|]], keep);
      assert Filter([added[|subjects|]], keep) == [];
    }
  }

  /** Deleting the same subject twice is the same as deleting it once. */
  lemma DeleteSubjectIdempotent(subjects: seq<Subject>, id: string)
    ensures DeleteSubject(DeleteSubject(subjects, id), id) == DeleteSubject(subjects, id)
  {
    FilterIdempotent(subjects, (s: Subject) => s.id != id);
  }

  /** Deleting keeps the survivors in order: it distributes over concatenation. */
  lemma DeleteSubjectKeepsOrder(xs: seq<Subject>, ys: seq<Subject>, id: string)
    ensures DeleteSubject(xs + ys, id) == DeleteSubject(xs, id) + DeleteSubject(ys, id)
  {
    FilterAppend(xs, ys, (s: Subject) => s.id != id);
  }

  // ---------------------------------------------------------------- notes

  /** `handleManualAddNote`: a non-blank note is trimmed and put first. */
  function ManualAddNote(notes: seq<Note>, input: string, newId: string, stamp: string): (r: seq<Note>)
    ensures IsBlank(input) ==> r == notes
    ensures !IsBlank(input) ==> |r| == |notes| + 1 && r[1..] == notes
                                && r[0] == Note(newId, Trim(input), stamp)
    ensures !IsBlank(input) ==> |r[0].content| > 0 && !IsWhitespace(r[0].content[0])
  {
    if !IsBlank(input) then [Note(newId, Trim(input), stamp)] + notes else notes
  }

  /** `handleSaveNote`: the note being edited gets the new content and a fresh
      timestamp; every other note is untouched. Without an edited note it is a
      no-op. */
  function SaveNote(notes: seq<Note>, editing: Option<Note>, content: string, stamp: string): (r: seq<Note>)
    ensures editing.None? ==> r == notes
    ensures |r| == |notes|
    ensures editing.Some? ==> forall i :: 0 <= i < |r| ==>
              && r[i].id == notes[i].id
              && (notes[i].id != editing.value.id ==> r[i] == notes[i])
              && (notes[i].id == editing.value.id ==> r[i].content == content && r[i].timestamp == stamp)
  {
    if editing.None? then notes
    else seq(|notes|, i requires 0 <= i < |notes| =>
               if notes[i].id == editing.value.id
               then notes[i].(content := content, timestamp := stamp)
               else notes[i])
  }

  /** `deleteNote`: keeps every note whose id differs. */
  function DeleteNote(notes: seq<Note>, id: string): (r: seq<Note>)
    ensures forall n :: n in r <==> n in notes && n.id != id
    ensures |r| == Count(notes, (n: Note) => n.id != id)
    ensures forall n :: multiset(r)[n] == if n.id != id then multiset(notes)[n] else 0
  {
    FilterLength(notes, (n: Note) => n.id != id);
    FilterMultiplicity(notes, (n: Note) => n.id != id);
    Filter(notes, (n: Note) => n.id != id)
  }

  /** Deleting keeps the survivors in order: it distributes over concatenation. */
  lemma DeleteNoteKeepsOrder(xs: seq<Note>, ys: seq<Note>, id: string)
    ensures DeleteNote(xs + ys, id) == DeleteNote(xs, id) + DeleteNote(ys, id)
  {
    FilterAppend(xs, ys, (n: Note) => n.id != id);
  }

  /** Deleting a freshly added note by its new id gives back the list it was
      added to. */
  lemma DeleteNoteUndoesAdd(notes: seq<Note>, input: string, newId: string, stamp: string)
    requires forall n :: n in notes ==> n.id != newId
    ensures DeleteNote(ManualAddNote(notes, input, newId, stamp), newId) == notes
  {
    var keep := (n: Note) => n.id != newId;
    forall i | 0 <= i < |notes|
      ensures keep(notes[i])
    {
      assert notes[i] in notes;
    }
    FilterKeepsAll(notes, keep);
    if !IsBlank(input) {
      var made := Note(newId, Trim(input), stamp);
      FilterAppend([made], notes, keep);
      assert Filter([made], keep) == [];
    }
  }

  /** Saving an edit touches only the edited note: once that note is deleted,
      the list is as if the edit had never been saved. */
  lemma SaveNoteThenDelete(notes: seq<Note>, editing: Note, content: string, stamp: string)
    ensures DeleteNote(SaveNote(notes, Some(editing), content, stamp), editing.id)
            == DeleteNote(notes, editing.id)
  {
    SameOutsideDeleted(SaveNote(notes, Some(editing), content, stamp), notes, editing.id);
  }

  /** Two lists of notes with the same ids, equal except on notes with id
      `id`, agree once `id` is deleted. */
  lemma {:induction false} SameOutsideDeleted(a: seq<Note>, b: seq<Note>, id: string)
    requires |a| == |b|
    requires forall i :: 0 <= i < |a| ==> a[i].id == b[i].id && (b[i].id != id ==> a[i] == b[i])
    ensures DeleteNote(a, id) == DeleteNote(b, id)
  {
    if |a| > 0 {
      SameOutsideDeleted(a[1..], b[1..], id);
    }
  }

  /** Saving the same edit twice is the same as saving it once. */
  lemma SaveNoteIdempotent(notes: seq<Note>, editing: Option<Note>, content: string, stamp: string)
    ensures var once := SaveNote(notes, editing, content, stamp);
            SaveNote(once, editing, content, stamp) == once
  {
  }

  // ---------------------------------------------------------------- engine

  /** `startTimer`: refused while the countdown runs (a paused session is not
      protected); otherwise the subject becomes active with a full timer. The
      ambient sound is the stored selection unless it is missing or 'none'. */
  function Start(b: Board, subject: Subject, storedSound: Option<string>): (r: Outcome)
    ensures b.engine.running ==> r == Outcome(b, SessionInProgress)
    ensures !b.engine.running ==>
              && r.board == b.(engine := r.board.engine)
              && r.board.engine.running && r.board.engine.focusMode
              && r.board.engine.activeSubject == Some(subject)
              && r.board.engine.timer == b.engine.duration
              && r.board.engine.duration == b.engine.duration
              && r.event == SessionStarted(b.engine.duration / 60, subject.name)
              && (r.board.engine.ambientSrc.Some? <==> Truthy(storedSound) && storedSound.value != "none")
              && (r.board.engine.ambientSrc.Some? ==> r.board.engine.ambientSrc == storedSound)
    ensures TimerBounds(r.board.engine) || !TimerBounds(b.engine)
  {
    if b.engine.running then Outcome(b, SessionInProgress)
    else
      var ambient := if Truthy(storedSound) && storedSound.value != "none" then storedSound else None;
      var e := b.engine.(activeSubject := Some(subject), timer := b.engine.duration,
                         running := true, focusMode := true, ambientSrc := ambient);
      Outcome(b.(engine := e), SessionStarted(b.engine.duration / 60, subject.name))
  }

  /** `toggleTimer`: pause or resume; only the running flag changes. */
  function Toggle(b: Board): (r: Board)
    ensures r.engine.running == !b.engine.running
    ensures r == b.(engine := b.engine.(running := r.engine.running))
  {
    b.(engine := b.engine.(running := !b.engine.running))
  }

  /** The session outcome applied when a running countdown reaches zero or is
      cancelled: credit `minutes` to the active subject (if any) and to today,
      then stop, clear the subject and refill the timer. */
  function Finish(b: Board, today: string, minutes: int, credit: bool): (r: Board)
    ensures !r.engine.running && !r.engine.focusMode && r.engine.activeSubject.None?
    ensures r.engine.timer == b.engine.duration && r.engine.duration == b.engine.duration
    ensures r.notes == b.notes && r.dailyGoal == b.dailyGoal
  {
    var e := b.engine.(running := false, focusMode := false, activeSubject := None,
                       timer := b.engine.duration);
    if credit && b.engine.activeSubject.Some? then
      b.(engine := e,
         subjects := Credit(b.subjects, b.engine.activeSubject.value.id, minutes),
         progress := UpdateDailyProgress(b.progress, today, minutes, b.dailyGoal))
    else b.(engine := e)
  }

  /** One run of the countdown effect: a running timer above zero loses one
      second; a running timer at zero completes the session, crediting
      `floor(duration / 60)` minutes; anything else is left alone. */
  function Step(b: Board, today: string): (r: Outcome)
    ensures !b.engine.running ==> r == Outcome(b, Quiet)
    ensures b.engine.running && b.engine.timer > 0 ==>
              r == Outcome(b.(engine := b.engine.(timer := b.engine.timer - 1)), Quiet)
    ensures b.engine.running && b.engine.timer == 0 ==>
              var m := b.engine.duration / 60;
              && r.event == SessionComplete(m)
              && !r.board.engine.running && r.board.engine.activeSubject.None?
              && r.board.engine.timer == b.engine.duration
              && r.board.engine.duration == b.engine.duration && !r.board.engine.focusMode
              && r.board.notes == b.notes && r.board.dailyGoal == b.dailyGoal
              && (b.engine.activeSubject.Some? ==>
                    && r.board.subjects == Credit(b.subjects, b.engine.activeSubject.value.id, m)
                    && r.board.progress == UpdateDailyProgress(b.progress, today, m, b.dailyGoal))
              && (b.engine.activeSubject.None? ==>
                    r.board.subjects == b.subjects && r.board.progress == b.progress)
    ensures TimerBounds(b.engine) ==> TimerBounds(r.board.engine)
  {
    if b.engine.running && b.engine.timer > 0 then
      Outcome(b.(engine := b.engine.(timer := b.engine.timer - 1)), Quiet)
    else if b.engine.running && b.engine.timer == 0 then
      var m := b.engine.duration / 60;
      Outcome(Finish(b, today, m, true), SessionComplete(m))
    else Outcome(b, Quiet)
  }

  /** `cancelTimer`: credits the whole minutes elapsed, if there are any and a
      subject is active ("ended early"); otherwise credits nothing
      ("cancelled"). Either way the engine is reset. */
  function Cancel(b: Board, today: string): (r: Outcome)
    ensures var k := (b.engine.duration - b.engine.timer) / 60;
            && (b.engine.activeSubject.Some? && k > 0 ==>
                  && r.event == SessionEndedEarly(k)
                  && r.board.subjects == Credit(b.subjects, b.engine.activeSubject.value.id, k)
                  && r.board.progress == UpdateDailyProgress(b.progress, today, k, b.dailyGoal))
            && (b.engine.activeSubject.None? || k <= 0 ==>
                  && r.event == SessionCancelled
                  && r.board.subjects == b.subjects && r.board.progress == b.progress)
    ensures !r.board.engine.running && r.board.engine.activeSubject.None?
    ensures r.board.engine.timer == b.engine.duration
    ensures r.board.engine.duration == b.engine.duration && !r.board.engine.focusMode
    ensures r.board.notes == b.notes && r.board.dailyGoal == b.dailyGoal
    ensures TimerBounds(r.board.engine)
  {
    var k := (b.engine.duration - b.engine.timer) / 60;
    if b.engine.activeSubject.Some? && k > 0 then Outcome(Finish(b, today, k, true), SessionEndedEarly(k))
    else Outcome(Finish(b, today, k, false), SessionCancelled)
  }

  /** The effect that follows a change of the configured duration: the timer
      is refilled only when the countdown is not running. */
  function SetDuration(b: Board, seconds: nat): (r: Board)
    ensures r.engine.duration == seconds
    ensures !b.engine.running ==> r.engine.timer == seconds
    ensures b.engine.running ==> r.engine.timer == b.engine.timer
    ensures !b.engine.running || b.engine.timer <= seconds ==>
              (TimerBounds(b.engine) || !b.engine.running ==> TimerBounds(r.engine))
  {
    b.(engine := b.engine.(duration := seconds,
                           timer := if b.engine.running then b.engine.timer else seconds))
  }

  /** Only the last configured duration counts: a second change overrides
      the first, both the length and, when idle, the refilled timer. */
  lemma SetDurationLastWins(b: Board, first: nat, second: nat)
    ensures SetDuration(SetDuration(b, first), second) == SetDuration(b, second)
  {
  }

  /** The duration read on mount: `parseInt` of the stored minutes, or 25
      minutes when nothing is stored, times 60. `None` is NaN. */
  function LoadDurationSeconds(stored: Option<string>): (r: Option<int>)
    ensures !Truthy(stored) ==> r == Some(DefaultPomodoroMinutes * 60)
    ensures Truthy(stored) ==> (r.Some? <==> ParseInt(stored.value).Some?)
    ensures Truthy(stored) && r.Some? ==> r.value == ParseInt(stored.value).value * 60
  {
    if Truthy(stored) then
      var p := ParseInt(stored.value);
      if p.Some? then Some(p.value * 60) else None
    else Some(DefaultPomodoroMinutes * 60)
  }

  /** The daily goal read on mount: `parseFloat` of the stored hours
      (`None` for NaN), or 3.5 hours when nothing is stored. */
  function LoadDailyGoal(stored: Option<string>, parseFloat: string -> Option<real>): (r: Option<real>)
    ensures !Truthy(stored) ==> r == Some(DefaultDailyGoalHours)
    ensures Truthy(stored) ==> r == parseFloat(stored.value)
  {
    if Truthy(stored) then parseFloat(stored.value) else Some(DefaultDailyGoalHours)
  }

  /** `n` runs of the countdown effect. */
  function Steps(b: Board, n: nat, today: string): Board
    decreases n
  {
    if n == 0 then b else Steps(Step(b, today).board, n - 1, today)
  }

  lemma {:induction false} StepsSnoc(b: Board, n: nat, today: string)
    ensures Steps(b, n + 1, today) == Step(Steps(b, n, today), today).board
    decreases n
  {
    if n > 0 {
      StepsSnoc(Step(b, today).board, n - 1, today);
    }
  }

  /** While the timer has seconds left, `n` effect runs only count it down. */
  lemma {:induction false} CountDown(b: Board, n: nat, today: string)
    requires b.engine.running && b.engine.timer >= n
    ensures Steps(b, n, today) == b.(engine := b.engine.(timer := b.engine.timer - n))
    decreases n
  {
    if n > 0 {
      var b1 := Step(b, today).board;
      assert b1 == b.(engine := b.engine.(timer := b.engine.timer - 1));
      CountDown(b1, n - 1, today);
    }
  }

  /** A full session: starting an idle engine and letting `duration` seconds
      elapse (plus the completing effect run) credits `floor(duration / 60)`
      minutes to the subject and to today, and leaves the engine idle with a
      full timer. */
  lemma FullSession(b: Board, subject: Subject, storedSound: Option<string>, today: string)
    requires !b.engine.running
    ensures var d := b.engine.duration;
            var f := Steps(Start(b, subject, storedSound).board, d + 1, today);
            && !f.engine.running && f.engine.activeSubject.None? && f.engine.timer == d
            && f.subjects == Credit(b.subjects, subject.id, d / 60)
            && f.progress == UpdateDailyProgress(b.progress, today, d / 60, b.dailyGoal)
            && f.notes == b.notes
  {
    var d := b.engine.duration;
    var s1 := Start(b, subject, storedSound).board;
    CountDown(s1, d, today);
    StepsSnoc(s1, d, today);
  }

  /** Cancelling after `k` seconds of a started session credits `floor(k / 60)`
      minutes when that is positive and nothing otherwise. */
  lemma CancelAfterTicks(b: Board, subject: Subject, storedSound: Option<string>,
                         k: nat, today: string)
    requires !b.engine.running && k <= b.engine.duration
    ensures var s := Steps(Start(b, subject, storedSound).board, k, today);
            var c := Cancel(s, today);
            && (k / 60 > 0 ==> c.event == SessionEndedEarly(k / 60)
                               && c.board.subjects == Credit(b.subjects, subject.id, k / 60))
            && (k < 60 ==> c.event == SessionCancelled && c.board.subjects == b.subjects
                           && c.board.progress == b.progress)
  {
    var s1 := Start(b, subject, storedSound).board;
    CountDown(s1, k, today);
  }

  /** A paused session does not block a new start, and replacing it credits
      nothing. */
  lemma PausedSessionReplaced(b: Board, first: Subject, second: Subject, storedSound: Option<string>)
    requires !b.engine.running
    ensures var paused := Toggle(Start(b, first, storedSound).board);
            var r := Start(paused, second, storedSound);
            && r.event == SessionStarted(b.engine.duration / 60, second.name)
            && r.board.engine.activeSubject == Some(second)
            && r.board.subjects == b.subjects && r.board.progress == b.progress
  {
  }

  // ---------------------------------------------------------------- display

  /** Minutes and seconds, each rendered with at least two digits. */
  function Clock(minutes: nat, seconds: nat): string {
    PadNat2(minutes) + ":" + PadNat2(seconds)
  }

  /** `formatTime`: the countdown as `mm:ss`. */
  function FormatTime(seconds: nat): string {
    Clock(seconds / 60, seconds % 60)
  }

  /** Reads an `mm:ss` display back into seconds: at least two minute digits,
      a colon, and two second digits below 60. */
  function ParseClock(t: string): Option<nat> {
    if |t| >= 5 && t[|t| - 3] == ':' && AllDigits(t[..|t| - 3]) && AllDigits(t[|t| - 2..])
       && DecimalValue(t[|t| - 2..]) < 60
    then Some(DecimalValue(t[..|t| - 3]) * 60 + DecimalValue(t[|t| - 2..]))
    else None
  }

  lemma ClockRoundTrip(minutes: nat, seconds: nat)
    requires seconds < 60
    ensures ParseClock(Clock(minutes, seconds)) == Some(minutes * 60 + seconds)
  {
    var m := PadNat2(minutes);
    var s := PadNat2(seconds);
    var r := m + ":" + s;
    assert r[..|r| - 3] == m;
    assert r[|r| - 2..] == s;
  }

  /** The countdown display loses nothing: both fields are zero-padded to at
      least two digits, the seconds field is below 60, and reading it back
      gives `60 * minutes + seconds`, the time left. */
  lemma FormatTimeRoundTrip(seconds: nat)
    ensures ParseClock(FormatTime(seconds)) == Some(seconds)
  {
    ClockRoundTrip(seconds / 60, seconds % 60);
  }

  function RealMin(a: real, b: real): real {
    if a <= b then a else b
  }

  /** `growthPercentage`: the share of the session elapsed, in percent, capped
      at 100. The full-growth constant cancels out. */
  function GrowthPercentage(duration: nat, timer: int): (r: real)
    ensures duration == 0 ==> r == 0.0
    ensures duration > 0 ==>
              r == RealMin((duration - timer) as real / duration as real * 100.0, 100.0)
    ensures 0 <= timer <= duration ==> 0.0 <= r <= 100.0
  {
    if duration == 0 then 0.0
    else
      var elapsed := (duration - timer) as real;
      var multiplier := FullGrowthDurationSeconds as real / duration as real;
      var effective := elapsed * multiplier;
      var pct := effective / FullGrowthDurationSeconds as real * 100.0;
      assert pct == elapsed / duration as real * 100.0;
      RealMin(pct, 100.0)
  }
}

=== FILE: diary.dfy ===
/** The diary list page (src/app/dashboard/diary/page.tsx): starting a new
    entry, deleting one, and the newest-first order in which entries are
    shown. The date picker is an input (`None` when no day is chosen) and
    the id comes from the clock. Entry dates are compared through
    `new Date(text).getTime()`; an unparsable date makes the comparator
    NaN, which places neither entry ahead of the other. */
module Diary {
  import opened Common
  import opened Text
  import opened Types
  import Sorting

  /** `a` is shown ahead of `b`: the comparator `b - a` on the times is
      negative exactly when both parse and `a` is later. */
  predicate Newer(a: DiaryEntry, b: DiaryEntry) {
    a.date.At? && b.date.At? && a.date.seconds > b.date.seconds
  }

  /** What the two storage keys hold after starting an entry, and whether
      the input was accepted (a refused input shows the "incomplete entry"
      toast and writes nothing). */
  datatype Started = Started(entries: seq<DiaryEntry>, activeId: Option<string>, accepted: bool)

  /** The entry made by the dialog: the trimmed title, no content yet. */
  function NewEntry(title: string, date: int, now: nat): (e: DiaryEntry)
    ensures e.title == Trim(title) && e.content == "" && e.date == At(date)
    ensures e.id == NatToString(now)
  {
    DiaryEntry(NatToString(now), Trim(title), "", At(date))
  }

  /** `handleStartWriting`: with a non-blank title and a chosen date, the
      new entry is put in front of the stored ones, the whole list is sorted
      newest first, and the new entry becomes the active one. */
  function StartWriting(stored: seq<DiaryEntry>, activeId: Option<string>,
                        title: string, date: Option<int>, now: nat): (r: Started)
    ensures r.accepted <==> !IsBlank(title) && date.Some?
    ensures !r.accepted ==> r.entries == stored && r.activeId == activeId
    ensures r.accepted ==>
              && multiset(r.entries) == multiset(stored) + multiset{NewEntry(title, date.value, now)}
              && r.activeId == Some(NatToString(now))
  {
    if IsBlank(title) || date.None? then Started(stored, activeId, false)
    else
      var e := NewEntry(title, date.value, now);
      Sorting.SortPermutation([e] + stored, Newer);
      assert multiset([e] + stored) == multiset{e} + multiset(stored);
      Started(Sorting.Sort([e] + stored, Newer), Some(e.id), true)
  }

  /** `handleDeleteEntry`: every entry with that id goes, the rest stay in
      order. */
  function DeleteEntry(entries: seq<DiaryEntry>, id: string): (r: seq<DiaryEntry>)
    ensures forall e :: e in r <==> e in entries && e.id != id
    ensures |r| <= |entries|
    ensures |r| == Count(entries, (e: DiaryEntry) => e.id != id)
    ensures forall e :: multiset(r)[e] == if e.id != id then multiset(entries)[e] else 0
  {
    FilterLength(entries, (e: DiaryEntry) => e.id != id);
    FilterMultiplicity(entries, (e: DiaryEntry) => e.id != id);
    Filter(entries, (e: DiaryEntry) => e.id != id)
  }

  /** Deleting keeps the survivors in order: it distributes over concatenation. */
  lemma DeleteEntryKeepsOrder(xs: seq<DiaryEntry>, ys: seq<DiaryEntry>, id: string)
    ensures DeleteEntry(xs + ys, id) == DeleteEntry(xs, id) + DeleteEntry(ys, id)
  {
    FilterAppend(xs, ys, (e: DiaryEntry) => e.id != id);
  }

  /** Deleting twice is deleting once. */
  lemma DeleteEntryIdempotent(entries: seq<DiaryEntry>, id: string)
    ensures DeleteEntry(DeleteEntry(entries, id), id) == DeleteEntry(entries, id)
  {
    FilterIdempotent(entries, (e: DiaryEntry) => e.id != id);
  }

  /** Deleting the entry just started leaves the other entries, each once:
      the new one is gone and nothing else is. */
  lemma DeleteStarted(stored: seq<DiaryEntry>, activeId: Option<string>,
                      title: string, date: Option<int>, now: nat, e: DiaryEntry)
    requires StartWriting(stored, activeId, title, date, now).accepted
    ensures var r := StartWriting(stored, activeId, title, date, now);
            e in DeleteEntry(r.entries, r.activeId.value) <==> e in stored && e.id != NatToString(now)
  {
    var r := StartWriting(stored, activeId, title, date, now);
    assert e in r.entries <==> e in multiset(r.entries);
    assert e in stored <==> e in multiset(stored);
  }

  /** The entries as shown: a sorted copy, leaving the stored list as it
      is. */
  function DisplayOrder(entries: seq<DiaryEntry>): (r: seq<DiaryEntry>)
    ensures multiset(r) == multiset(entries)
  {
    Sorting.SortPermutation(entries, Newer);
    Sorting.Sort(entries, Newer)
  }

  /** The dates all parse: every entry is compared in full. */
  ghost predicate AllDated(entries: seq<DiaryEntry>) {
    forall i :: 0 <= i < |entries| ==> entries[i].date.At?
  }

  /** When every date parses, the shown list runs from newest to oldest. */
  lemma DisplayNewestFirst(entries: seq<DiaryEntry>)
    requires AllDated(entries)
    ensures var r := DisplayOrder(entries);
            && AllDated(r)
            && (forall i, j :: 0 <= i < j < |r| ==> r[i].date.seconds >= r[j].date.seconds)
  {
    var ok := (e: DiaryEntry) => e.date.At?;
    assert Sorting.StrictWeakOrder(Newer, ok);
    assert Sorting.AllOk(entries, ok);
    Sorting.SortOrdered(entries, Newer, ok);
  }

  /** When the stored dates all parse, the list written after starting an
      entry runs from newest to oldest as well. */
  lemma StartedIsDisplayOrder(stored: seq<DiaryEntry>, activeId: Option<string>,
                              title: string, date: Option<int>, now: nat)
    requires AllDated(stored) && StartWriting(stored, activeId, title, date, now).accepted
    ensures var r := StartWriting(stored, activeId, title, date, now).entries;
            AllDated(r)
            && (forall i, j :: 0 <= i < j < |r| ==> r[i].date.seconds >= r[j].date.seconds)
  {
    var e := NewEntry(title, date.value, now);
    var all := [e] + stored;
    assert AllDated(all) by {
      assert forall i :: 1 <= i < |all| ==> all[i] == stored[i - 1];
    }
    DisplayNewestFirst(all);
  }

  /** Because the sort is stable and the new entry goes in first, the only
      entries shown ahead of it are strictly newer ones: entries of the same
      date stay behind it. */
  lemma NewEntryLeadsItsDate(stored: seq<DiaryEntry>, activeId: Option<string>,
                             title: string, date: Option<int>, now: nat)
    requires StartWriting(stored, activeId, title, date, now).accepted
    ensures var r := StartWriting(stored, activeId, title, date, now).entries;
            var e := NewEntry(title, date.value, now);
            exists k :: 0 <= k < |r| && r[k] == e
                        && forall i :: 0 <= i < k ==> r[i].date.At? && r[i].date.seconds > date.value
  {
    var e := NewEntry(title, date.value, now);
    var r := StartWriting(stored, activeId, title, date, now).entries;
    assert r == Sorting.Sort([e] + stored, Newer);
    Sorting.SortedFrontIsFirstAmongEquals(e, stored, Newer);
    var k := Sorting.LeadingBefore(e, Sorting.Sort(stored, Newer), Newer);
    forall i | 0 <= i < k
      ensures r[i].date.At? && r[i].date.seconds > date.value
    {
      assert Newer(r[i], e);
    }
    assert r[k] == e;
  }
}

=== FILE: diary_write.dfy ===
/** The full-screen editor for one diary entry (src/app/diary/write/page.tsx):
    loading the active entry and saving its content. `activeId` is the
    `activeDiaryEntryId` key and `stored` the parsed `diaryEntries` key,
    `None` when absent. */
module DiaryWrite {
  import opened Common
  import opened Types

  /** What the editor shows after loading: a redirect back to the list (with
      the error toast), the entry being edited with its content in the text
      area, or an empty editor when no entries are stored at all. */
  datatype Opened = Redirect | Editing(entry: DiaryEntry, content: string) | Empty

  /** `entries.find(e => e.id === id)`: the first entry with that id. */
  function Find(entries: seq<DiaryEntry>, id: string): (r: Option<DiaryEntry>)
    ensures r.None? <==> forall i :: 0 <= i < |entries| ==> entries[i].id != id
    ensures r.Some? ==> r.value in entries && r.value.id == id
  {
    if |entries| == 0 then None
    else if entries[0].id == id then Some(entries[0])
    else Find(entries[1..], id)
  }

  /** No entry ahead of the one found has its id. */
  lemma {:induction false} FindIsFirst(entries: seq<DiaryEntry>, id: string)
    requires Find(entries, id).Some?
    ensures exists k :: 0 <= k < |entries| && entries[k] == Find(entries, id).value
                        && forall i :: 0 <= i < k ==> entries[i].id != id
  {
    if entries[0].id != id {
      FindIsFirst(entries[1..], id);
      var k :| 0 <= k < |entries| - 1 && entries[1..][k] == Find(entries, id).value
               && forall i :: 0 <= i < k ==> entries[1..][i].id != id;
      assert entries[k + 1] == Find(entries, id).value;
      assert forall i :: 1 <= i < k + 1 ==> entries[i] == entries[1..][i - 1];
    } else {
      assert entries[0] == Find(entries, id).value;
    }
  }

  /** The load effect. A missing or empty active id sends the user back; so
      does an id that no stored entry has. With no stored entries at all the
      editor stays, empty. */
  function Open(activeId: Option<string>, stored: Option<seq<DiaryEntry>>): (r: Opened)
    ensures !Truthy(activeId) ==> r == Redirect
    ensures r.Editing? ==> Truthy(activeId) && stored.Some?
                           && Find(stored.value, activeId.value) == Some(r.entry)
                           && r.content == r.entry.content
    ensures r.Empty? <==> Truthy(activeId) && stored.None?
    ensures Truthy(activeId) && stored.Some? ==>
              (r == Redirect <==> forall i :: 0 <= i < |stored.value| ==> stored.value[i].id != activeId.value)
  {
    if !Truthy(activeId) then Redirect
    else match stored
      case None => Empty
      case Some(entries) =>
        match Find(entries, activeId.value)
        case Some(e) => Editing(e, e.content)
        case None => Redirect
  }

  /** `entries.map(...)`: every entry with the id gets the new content and
      keeps its id, title and date; the others are untouched. */
  function SetContent(entries: seq<DiaryEntry>, id: string, content: string): (r: seq<DiaryEntry>)
    ensures |r| == |entries|
    ensures forall i :: 0 <= i < |r| ==>
              r[i] == if entries[i].id == id then entries[i].(content := content) else entries[i]
  {
    if |entries| == 0 then []
    else [if entries[0].id == id then entries[0].(content := content) else entries[0]]
         + SetContent(entries[1..], id, content)
  }

  /** The two storage keys after `handleSave`, and whether the "saved" toast
      shows. */
  datatype SaveResult = SaveResult(stored: Option<seq<DiaryEntry>>, activeId: Option<string>, saved: bool)

  /** `handleSave`: with no entry loaded, or no stored entries, nothing
      happens; otherwise the content is written into the matching entries and
      the active id is removed. */
  function Save(view: Opened, content: string, stored: Option<seq<DiaryEntry>>,
                activeId: Option<string>): (r: SaveResult)
    ensures r.saved <==> view.Editing? && stored.Some?
    ensures !r.saved ==> r.stored == stored && r.activeId == activeId
    ensures r.saved ==> r.activeId.None? && r.stored.Some? && |r.stored.value| == |stored.value|
    ensures r.saved ==> r.stored == Some(SetContent(stored.value, view.entry.id, content))
  {
    if !view.Editing? || stored.None? then SaveResult(stored, activeId, false)
    else SaveResult(Some(SetContent(stored.value, view.entry.id, content)), None, true)
  }

  /** Reading back after a save finds the entry with the saved content and
      its title and date unchanged. */
  lemma {:induction false} FindAfterSetContent(entries: seq<DiaryEntry>, id: string, content: string)
    ensures Find(SetContent(entries, id, content), id) ==
            match Find(entries, id) case None => None case Some(e) => Some(e.(content := content))
  {
    if |entries| > 0 {
      assert SetContent(entries, id, content)[1..] == SetContent(entries[1..], id, content);
      FindAfterSetContent(entries[1..], id, content);
    }
  }

  /** The edit round trip: the content typed in the editor is what the
      editor would load for that entry next time, and the active id is gone,
      so reopening without choosing an entry goes back to the list. */
  lemma SaveThenOpen(activeId: Option<string>, entries: seq<DiaryEntry>, content: string)
    requires Open(activeId, Some(entries)).Editing?
    ensures var o := Open(activeId, Some(entries));
            var r := Save(o, content, Some(entries), activeId);
            && r.saved
            && Open(activeId, r.stored) == Editing(o.entry.(content := content), content)
            && Open(r.activeId, r.stored) == Redirect
  {
    FindAfterSetContent(entries, activeId.value, content);
  }

  /** Saving the same content twice is saving it once. */
  lemma SetContentIdempotent(entries: seq<DiaryEntry>, id: string, content: string)
    ensures SetContent(SetContent(entries, id, content), id, content) == SetContent(entries, id, content)
  {
  }
}

=== FILE: plant.dfy ===
/** The growing plant of the focus timer (src/components/plant-animation.tsx):
    the share of the session elapsed, in percent, drives piecewise-linear
    curves for the stem, three leaves, four roots and the flower, each a
    fraction between 0 and 1. Arithmetic is exact. */
module Plant {
  import Dashboard

  /** `x` held to `[0, 1]`: the reference the stage curves are compared
      with. */
  function Clamp(x: real): (c: real)
    ensures 0.0 <= c <= 1.0
    ensures 0.0 <= x <= 1.0 ==> c == x
  {
    if x < 0.0 then 0.0 else if x > 1.0 then 1.0 else x
  }

  /** A leaf or root stage: nothing up to `start`, then a straight rise over
      `span`, then full. */
  function Stage(p: real, start: real, span: real): (g: real)
    requires span > 0.0
    ensures 0.0 <= g <= 1.0
    ensures p <= start ==> g == 0.0
    ensures p >= start + span ==> g == 1.0
  {
    if p > start then
      (DivAtLeastOne(p - start, span); Dashboard.RealMin(1.0, (p - start) / span))
    else 0.0
  }

  /** Dividing by a positive number keeps a number at or above the divisor
      at or above one, and a positive number positive. */
  lemma DivAtLeastOne(a: real, d: real)
    requires d > 0.0 && a > 0.0
    ensures a / d > 0.0
    ensures a >= d ==> a / d >= 1.0
  {
    assert a / d * d == a;
  }

  /** Each stage is the clamp of its straight line. */
  lemma StageIsClamp(p: real, start: real, span: real)
    requires span > 0.0
    ensures Stage(p, start, span) == Clamp((p - start) / span)
  {
    if p <= start {
      DivNonPositive(p - start, span);
    }
  }

  lemma DivNonPositive(a: real, d: real)
    requires d > 0.0 && a <= 0.0
    ensures a / d <= 0.0
  {
    assert a / d * d == a;
  }

  /** Dividing by a positive number keeps the order. */
  lemma DivMonotone(a: real, b: real, d: real)
    requires d > 0.0 && a <= b
    ensures a / d <= b / d
  {
    assert a / d * d == a && b / d * d == b;
  }

  /** A stage never shrinks as the session goes on. */
  lemma StageMonotone(p: real, q: real, start: real, span: real)
    requires span > 0.0 && p <= q
    ensures Stage(p, start, span) <= Stage(q, start, span)
  {
    StageIsClamp(p, start, span);
    StageIsClamp(q, start, span);
    DivMonotone(p - start, q - start, span);
  }

  /** Of two stages with the same span, the one that starts later is never
      further along. */
  lemma LaterStageTrails(p: real, start: real, later: real, span: real)
    requires span > 0.0 && start <= later
    ensures Stage(p, later, span) <= Stage(p, start, span)
  {
    StageIsClamp(p, start, span);
    StageIsClamp(p, later, span);
    DivMonotone(p - later, p - start, span);
  }

  /** Every curve of the drawing, and the stem height in pixels. */
  datatype Growth = Growth(stem: real, leaf1: real, leaf2: real, leaf3: real, flower: real,
                           root1: real, root2: real, root3: real, root4: real, stemHeight: real)

  /** The stem reaches its full height of 60 pixels at 80% of the session. */
  const StemHeightPx: real := 60.0

  /** All curves lie in `[0, 1]` and the stem is at most 60 pixels tall. */
  predicate InRange(g: Growth) {
    && 0.0 <= g.stem <= 1.0 && 0.0 <= g.leaf1 <= 1.0 && 0.0 <= g.leaf2 <= 1.0
    && 0.0 <= g.leaf3 <= 1.0 && 0.0 <= g.flower <= 1.0
    && 0.0 <= g.root1 <= 1.0 && 0.0 <= g.root2 <= 1.0 && 0.0 <= g.root3 <= 1.0
    && 0.0 <= g.root4 <= 1.0 && 0.0 <= g.stemHeight <= StemHeightPx
  }

  /** No curve of `a` is ahead of the same curve of `b`. */
  predicate NotAhead(a: Growth, b: Growth) {
    && a.stem <= b.stem && a.leaf1 <= b.leaf1 && a.leaf2 <= b.leaf2 && a.leaf3 <= b.leaf3
    && a.flower <= b.flower && a.root1 <= b.root1 && a.root2 <= b.root2
    && a.root3 <= b.root3 && a.root4 <= b.root4 && a.stemHeight <= b.stemHeight
  }

  /** `PlantAnimation`: the curves for a growth percentage. Leaves take a
      tenth of the session each, from 25%, 40% and 60%; roots a fifth, from
      5%, 15%, 20% and 22%; the flower appears at 100%. */
  function Grow(growthPercentage: real): (g: Growth)
    ensures var p := growthPercentage / 100.0;
            && (g.flower == 1.0 <==> p >= 1.0) && (g.flower == 0.0 <==> p < 1.0)
            && (p <= 0.25 ==> g.leaf1 == 0.0) && (p <= 0.40 ==> g.leaf2 == 0.0)
            && (p <= 0.60 ==> g.leaf3 == 0.0)
            && (p <= 0.05 ==> g.root1 == 0.0) && (p <= 0.15 ==> g.root2 == 0.0)
            && (p <= 0.20 ==> g.root3 == 0.0) && (p <= 0.22 ==> g.root4 == 0.0)
    ensures g.stemHeight <= StemHeightPx
    ensures g.stemHeight == StemHeightPx <==> growthPercentage >= 80.0
    ensures growthPercentage >= 0.0 ==> InRange(g)
  {
    var p := growthPercentage / 100.0;
    var stem := Dashboard.RealMin(1.0, p / 0.8);
    Growth(stem, Stage(p, 0.25, 0.1), Stage(p, 0.40, 0.1), Stage(p, 0.60, 0.1),
           if p >= 1.0 then 1.0 else 0.0,
           Stage(p, 0.05, 0.2), Stage(p, 0.15, 0.2), Stage(p, 0.20, 0.2), Stage(p, 0.22, 0.2),
           stem * 60.0)
  }

  /** The plant only grows as the percentage rises. */
  lemma GrowMonotone(a: real, b: real)
    requires a <= b
    ensures NotAhead(Grow(a), Grow(b))
  {
    var p, q := a / 100.0, b / 100.0;
    DivMonotone(a, b, 100.0);
    StageMonotone(p, q, 0.25, 0.1);
    StageMonotone(p, q, 0.40, 0.1);
    StageMonotone(p, q, 0.60, 0.1);
    StageMonotone(p, q, 0.05, 0.2);
    StageMonotone(p, q, 0.15, 0.2);
    StageMonotone(p, q, 0.20, 0.2);
    StageMonotone(p, q, 0.22, 0.2);
  }

  /** Leaves open in order, and so do roots: a later one is never further
      along than an earlier one. */
  lemma LaterPartsTrail(growthPercentage: real)
    ensures var g := Grow(growthPercentage);
            g.leaf3 <= g.leaf2 <= g.leaf1 && g.root4 <= g.root3 <= g.root2 <= g.root1
  {
    var p := growthPercentage / 100.0;
    LaterStageTrails(p, 0.25, 0.40, 0.1);
    LaterStageTrails(p, 0.40, 0.60, 0.1);
    LaterStageTrails(p, 0.05, 0.15, 0.2);
    LaterStageTrails(p, 0.15, 0.20, 0.2);
    LaterStageTrails(p, 0.20, 0.22, 0.2);
  }

  /** A session that has not started shows a bare seed; one that is over
      shows the whole plant in flower. */
  lemma SeedAndFullPlant()
    ensures Grow(0.0) == Growth(0.0, 0.0, 0.0, 0.0, 0.0, 0.0, 0.0, 0.0, 0.0, 0.0)
    ensures Grow(100.0) == Growth(1.0, 1.0, 1.0, 1.0, 1.0, 1.0, 1.0, 1.0, 1.0, StemHeightPx)
  {
    Seed();
    FullPlant();
  }

  lemma Seed()
    ensures Grow(0.0) == Growth(0.0, 0.0, 0.0, 0.0, 0.0, 0.0, 0.0, 0.0, 0.0, 0.0)
  {
  }

  lemma FullPlant()
    ensures Grow(100.0) == Growth(1.0, 1.0, 1.0, 1.0, 1.0, 1.0, 1.0, 1.0, 1.0, StemHeightPx)
  {
    assert 100.0 / 100.0 == 1.0;
  }

  /** A part of a whole that is smaller than the whole is less than one. */
  lemma PartBelowOne(a: real, d: real)
    requires 0.0 <= a < d
    ensures a / d < 1.0
  {
    assert a / d * d == a;
  }

  /** Driven by the timer, the plant stays in its drawing area during the
      session and is in flower exactly when the countdown has reached zero. */
  lemma SessionPlant(duration: nat, timer: int)
    requires duration > 0 && 0 <= timer <= duration
    ensures InRange(Grow(Dashboard.GrowthPercentage(duration, timer)))
    ensures Grow(Dashboard.GrowthPercentage(duration, timer)).flower == 1.0 <==> timer == 0
  {
    var pct := Dashboard.GrowthPercentage(duration, timer);
    var f := (duration - timer) as real / duration as real;
    assert pct == Dashboard.RealMin(f * 100.0, 100.0);
    if timer > 0 {
      PartBelowOne((duration - timer) as real, duration as real);
      assert pct < 100.0;
    } else {
      assert f == 1.0;
      assert pct == 100.0;
    }
  }
}

=== FILE: progress.dfy ===
/** The progress history page (src/app/dashboard/progress/page.tsx): the
    order in which the day keys are listed, the goal test, the minute
    formatter and the wording chosen by the stored purpose. A day key is the
    `YYYY-MM-DD` date part of `toISOString()`, written by the dashboard. */
module Progress {
  import opened Common
  import opened Text
  import opened Types
  import Sorting
  import Dashboard

  // ---------------------------------------------------------------- key order

  /** `a.localeCompare(b) < 0` for day keys: keys made of digits and hyphens
      compare character by character, a proper prefix first. */
  predicate LexLess(a: string, b: string) {
    if |a| == 0 then |b| > 0
    else |b| > 0 && (a[0] < b[0] || (a[0] == b[0] && LexLess(a[1..], b[1..])))
  }

  lemma {:induction false} LexIrreflexive(a: string)
    ensures !LexLess(a, a)
  {
    if |a| > 0 {
      LexIrreflexive(a[1..]);
    }
  }

  lemma {:induction false} LexAsymmetric(a: string, b: string)
    ensures LexLess(a, b) ==> !LexLess(b, a)
  {
    if |a| > 0 && |b| > 0 && a[0] == b[0] {
      LexAsymmetric(a[1..], b[1..]);
    }
  }

  lemma {:induction false} LexTransitive(a: string, b: string, c: string)
    ensures LexLess(a, b) && LexLess(b, c) ==> LexLess(a, c)
  {
    if |a| > 0 && |b| > 0 && |c| > 0 {
      LexTransitive(a[1..], b[1..], c[1..]);
    }
  }

  /** Two different keys are always ordered one way or the other. */
  lemma {:induction false} LexTotal(a: string, b: string)
    ensures a == b || LexLess(a, b) || LexLess(b, a)
  {
    if |a| > 0 && |b| > 0 && a[0] == b[0] {
      LexTotal(a[1..], b[1..]);
      if a[1..] == b[1..] {
        assert a == [a[0]] + a[1..] && b == [b[0]] + b[1..];
      }
    }
  }

  /** Comparing two keys that start with parts of the same length: the first
      parts decide, and only when they are equal do the rests. */
  lemma {:induction false} LexConcat(a1: string, a2: string, b1: string, b2: string)
    requires |a1| == |b1|
    ensures LexLess(a1 + a2, b1 + b2) <==> LexLess(a1, b1) || (a1 == b1 && LexLess(a2, b2))
  {
    if |a1| > 0 {
      assert (a1 + a2)[1..] == a1[1..] + a2;
      assert (b1 + b2)[1..] == b1[1..] + b2;
      LexConcat(a1[1..], a2, b1[1..], b2);
      assert a1 == [a1[0]] + a1[1..] && b1 == [b1[0]] + b1[1..];
    } else {
      assert a1 + a2 == a2 && b1 + b2 == b2;
    }
  }

  // ---------------------------------------------------------------- digits

  function Pow10(n: nat): (p: nat)
    ensures p >= 1
  {
    if n == 0 then 1 else 10 * Pow10(n - 1)
  }

  /** One-character keys compare as their characters. */
  lemma LexSingle(x: char, y: char)
    ensures LexLess([x], [y]) <==> x < y
  {
    assert [x][1..] == [] && [y][1..] == [];
  }

  /** For digit strings of one length, character order is numeric order, and
      equal strings are equal numbers. */
  lemma {:induction false} LexDigits(a: string, b: string)
    requires AllDigits(a) && AllDigits(b) && |a| == |b|
    ensures LexLess(a, b) <==> DecimalValue(a) < DecimalValue(b)
    ensures a == b <==> DecimalValue(a) == DecimalValue(b)
  {
    if |a| > 0 {
      var n := |a|;
      var ia, ib := a[..n - 1], b[..n - 1];
      var x, y := a[n - 1], b[n - 1];
      LexDigits(ia, ib);
      LastDigitSplit(a, b);
      LexConcat(ia, [x], ib, [y]);
      LexSingle(x, y);
      DigitStep(DecimalValue(ia), DigitValue(x), DecimalValue(ib), DigitValue(y));
      if x == y {
        assert x == y ==> DigitValue(x) == DigitValue(y);
      } else {
        assert DigitValue(x) != DigitValue(y);
      }
    }
  }

  /** Two digit strings of one length, each split into its prefix and its
      last digit, in value as in characters. */
  lemma LastDigitSplit(a: string, b: string)
    requires AllDigits(a) && AllDigits(b) && |a| == |b| > 0
    ensures a == a[..|a| - 1] + [a[|a| - 1]] && b == b[..|b| - 1] + [b[|b| - 1]]
    ensures DecimalValue(a) == DecimalValue(a[..|a| - 1]) * 10 + DigitValue(a[|a| - 1])
    ensures DecimalValue(b) == DecimalValue(b[..|b| - 1]) * 10 + DigitValue(b[|b| - 1])
    ensures a == b <==> a[..|a| - 1] == b[..|b| - 1] && a[|a| - 1] == b[|b| - 1]
  {
    LastDigit(a);
    LastDigit(b);
  }

  /** A digit string is its prefix followed by its last digit. */
  lemma LastDigit(s: string)
    requires AllDigits(s) && |s| > 0
    ensures s == s[..|s| - 1] + [s[|s| - 1]]
    ensures DecimalValue(s) == DecimalValue(s[..|s| - 1]) * 10 + DigitValue(s[|s| - 1])
  {
    SplitLast(s);
  }

  lemma SplitLast(s: string)
    requires |s| > 0
    ensures s == s[..|s| - 1] + [s[|s| - 1]]
  {
  }

  /** Appending one digit to two numbers keeps their order, with the digits
      deciding between equal prefixes. */
  lemma DigitStep(va: nat, dx: nat, vb: nat, dy: nat)
    requires dx < 10 && dy < 10
    ensures va * 10 + dx < vb * 10 + dy <==> va < vb || (va == vb && dx < dy)
    ensures va * 10 + dx == vb * 10 + dy <==> va == vb && dx == dy
  {
  }

  /** A number below `10^k` renders in at most `k` digits. */
  lemma {:induction false} NatToStringFits(n: nat, k: nat)
    requires 1 <= k && n < Pow10(k)
    ensures |NatToString(n)| <= k
  {
    if n >= 10 {
      assert k >= 2;
      assert n / 10 < Pow10(k - 1);
      NatToStringFits(n / 10, k - 1);
    }
  }

  // ---------------------------------------------------------------- day keys

  /** `padStart(4, "0")` of a year below 10000: four digits denoting it. */
  function Year4(year: nat): (r: string)
    requires year < 10000
    ensures |r| == 4 && AllDigits(r) && DecimalValue(r) == year
  {
    NatToStringFits(year, 4);
    NatToStringValue(year);
    ZeroPad(NatToString(year), 4)
  }

  /** The date part of `toISOString()`: the year padded to four digits, then
      the month and the day padded to two. */
  function DateKey(year: nat, month: nat, day: nat): (k: string)
    requires year < 10000 && 1 <= month <= 12 && 1 <= day <= 31
    ensures |k| == 10 && k[4] == '-' && k[7] == '-'
  {
    Year4(year) + "-" + (PadNat2(month) + "-" + PadNat2(day))
  }

  /** Dropping a common leading hyphen does not change the order. */
  lemma HyphenThen(x: string, y: string)
    ensures LexLess("-" + x, "-" + y) <==> LexLess(x, y)
  {
    assert ("-" + x)[1..] == x && ("-" + y)[1..] == y;
  }

  /** Two keys of the same shape: a digit part of one length, a hyphen and
      the rest. The digits decide by value, and only a tie passes to the
      rests. */
  lemma DigitsThen(a: string, x: string, b: string, y: string)
    requires AllDigits(a) && AllDigits(b) && |a| == |b|
    ensures LexLess(a + "-" + x, b + "-" + y) <==>
              DecimalValue(a) < DecimalValue(b) || (DecimalValue(a) == DecimalValue(b) && LexLess(x, y))
  {
    assert a + "-" + x == a + ("-" + x);
    assert b + "-" + y == b + ("-" + y);
    LexConcat(a, "-" + x, b, "-" + y);
    LexDigits(a, b);
    HyphenThen(x, y);
  }

  /** Day keys compare as the dates they name: year, then month, then day. */
  lemma DateKeyOrder(y1: nat, m1: nat, d1: nat, y2: nat, m2: nat, d2: nat)
    requires y1 < 10000 && 1 <= m1 <= 12 && 1 <= d1 <= 31
    requires y2 < 10000 && 1 <= m2 <= 12 && 1 <= d2 <= 31
    ensures LexLess(DateKey(y1, m1, d1), DateKey(y2, m2, d2)) <==>
              y1 < y2 || (y1 == y2 && (m1 < m2 || (m1 == m2 && d1 < d2)))
  {
    var ma, mb, da, db := PadNat2(m1), PadNat2(m2), PadNat2(d1), PadNat2(d2);
    DigitsThen(Year4(y1), ma + "-" + da, Year4(y2), mb + "-" + db);
    DigitsThen(ma, da, mb, db);
    LexDigits(da, db);
  }

  /** The comparator `(a, b) => b.localeCompare(a)` asks for `a` first when
      it is the later key. */
  predicate Later(a: string, b: string) {
    LexLess(b, a)
  }

  predicate AnyKey(k: string) {
    true
  }

  /** Key order is a strict weak order, so the sort is fully determined. */
  lemma LaterIsStrictWeak()
    ensures Sorting.StrictWeakOrder(Later, AnyKey)
  {
    forall a: string ensures !Later(a, a) {
      LexIrreflexive(a);
    }
    forall a: string, b: string ensures Later(a, b) ==> !Later(b, a) {
      LexAsymmetric(b, a);
    }
    forall a: string, b: string, c: string | !Later(a, b) && !Later(b, c)
      ensures !Later(a, c)
    {
      LexTotal(a, b);
      LexTotal(b, c);
      LexTransitive(a, b, c);
      LexAsymmetric(a, c);
    }
  }

  /** `Object.keys(progressHistory).sort((a, b) => b.localeCompare(a))`: a
      rearrangement of the keys. */
  function SortedDates(keys: seq<string>): (r: seq<string>)
    ensures multiset(r) == multiset(keys)
  {
    Sorting.SortPermutation(keys, Later);
    Sorting.Sort(keys, Later)
  }

  /** The listed keys descend: each one is equal to or later than every key
      listed after it. */
  lemma SortedDatesDescending(keys: seq<string>)
    ensures var r := SortedDates(keys);
            forall i, j :: 0 <= i < j < |r| ==> r[i] == r[j] || LexLess(r[j], r[i])
  {
    LaterIsStrictWeak();
    Sorting.SortOrdered(keys, Later, AnyKey);
    var r := SortedDates(keys);
    forall i, j | 0 <= i < j < |r|
      ensures r[i] == r[j] || LexLess(r[j], r[i])
    {
      LexTotal(r[i], r[j]);
    }
  }

  /** Newest first: of two listed days, the one shown first is not the
      earlier date. */
  lemma NewestFirst(keys: seq<string>, i: nat, j: nat,
                    y1: nat, m1: nat, d1: nat, y2: nat, m2: nat, d2: nat)
    requires y1 < 10000 && 1 <= m1 <= 12 && 1 <= d1 <= 31
    requires y2 < 10000 && 1 <= m2 <= 12 && 1 <= d2 <= 31
    requires i < j < |SortedDates(keys)|
    requires SortedDates(keys)[i] == DateKey(y1, m1, d1)
    requires SortedDates(keys)[j] == DateKey(y2, m2, d2)
    ensures y2 < y1 || (y2 == y1 && (m2 < m1 || (m2 == m1 && d2 <= d1)))
  {
    SortedDatesDescending(keys);
    DateKeyOrder(y2, m2, d2, y1, m1, d1);
    DateKeyOrder(y1, m1, d1, y2, m2, d2);
  }

  // ---------------------------------------------------------------- goal

  /** A day is shown with the check mark when the minutes studied reach the
      goal recorded for that day. */
  predicate GoalMet(p: DailyProgress) {
    p.minutesStudied as real >= p.dailyGoalInMinutes
  }

  /** After a credit, the day is met against the goal in force at the time of
      the credit, not the one recorded when the day began. */
  lemma GoalAfterCredit(progress: map<string, DailyProgress>, today: string, minutes: int, dailyGoal: real)
    ensures var before := if today in progress then progress[today].minutesStudied else 0;
            GoalMet(Dashboard.UpdateDailyProgress(progress, today, minutes, dailyGoal)[today]) <==>
              (before + minutes) as real >= dailyGoal * 60.0
  {
  }

  /** Raising the goal can take the check mark away from a day that had it,
      even though the day gains minutes. */
  lemma RaisedGoalUnmeets()
    ensures var progress := map["2024-05-01" := DailyProgress(120, 60.0)];
            var after := Dashboard.UpdateDailyProgress(progress, "2024-05-01", 25, 3.5);
            GoalMet(progress["2024-05-01"]) && !GoalMet(after["2024-05-01"])
  {
    GoalAfterCredit(map["2024-05-01" := DailyProgress(120, 60.0)], "2024-05-01", 25, 3.5);
  }

  // ---------------------------------------------------------------- minutes

  /** `formatMinutes(minutes)` as written: whole hours by `Math.floor`, then
      the remainder modulo 60 rounded by `Math.round`; the hours are shown
      only when there is at least one. Amounts are never negative: minutes
      only grow and the goal is validated to be at least 0. */
  function FormatMinutes(minutes: real): string
    requires minutes >= 0.0
  {
    var hours := (minutes / 60.0).Floor;
    var rem := Round(minutes - 60.0 * hours as real);
    if hours > 0 then NatToString(hours) + "h " + NatToString(rem) + "m" else NatToString(rem) + "m"
  }

  /** Position of the first `c` in `s`. */
  function IndexOf(s: string, c: char): (r: Option<nat>)
    ensures r.Some? ==> r.value < |s| && s[r.value] == c && forall i :: 0 <= i < r.value ==> s[i] != c
    ensures r.None? ==> forall i :: 0 <= i < |s| ==> s[i] != c
  {
    if |s| == 0 then None
    else if s[0] == c then Some(0)
    else match IndexOf(s[1..], c)
         case None => None
         case Some(k) => Some(k + 1)
  }

  /** Reads a rendering `"Hh Mm"` or `"Mm"` back as a number of minutes. */
  function ParseMinutes(s: string): Option<nat> {
    if |s| < 2 || s[|s| - 1] != 'm' then None else ParseAmount(s[..|s| - 1])
  }

  /** The part before the final `m`: either digits, or hours, `h`, a space
      and digits. */
  function ParseAmount(body: string): Option<nat> {
    match IndexOf(body, 'h')
    case None => if AllDigits(body) then Some(DecimalValue(body)) else None
    case Some(i) => ParseSplit(body[..i], body[i + 1..])
  }

  function ParseSplit(h: string, m: string): Option<nat> {
    if |h| > 0 && AllDigits(h) && |m| >= 2 && m[0] == ' ' && AllDigits(m[1..])
    then Some(60 * DecimalValue(h) + DecimalValue(m[1..]))
    else None
  }

  /** The final `m` is stripped and the rest read as an amount. */
  lemma ParseMinutesStrip(body: string)
    requires |body| > 0
    ensures ParseMinutes(body + "m") == ParseAmount(body)
  {
    assert (body + "m")[..|body|] == body;
  }

  lemma ParseMinutesOnly(m: nat)
    ensures ParseMinutes(NatToString(m) + "m") == Some(m)
  {
    var a := NatToString(m);
    ParseMinutesStrip(a);
    assert IndexOf(a, 'h').None?;
    NatToStringValue(m);
  }

  /** In `digits + "h " + rest` the first `h` follows the digits. */
  lemma HourMark(a: string, b: string)
    requires AllDigits(a)
    ensures var body := a + "h " + b;
            && IndexOf(body, 'h') == Some(|a|)
            && body[..|a|] == a && body[|a| + 1..] == " " + b
  {
    var body := a + "h " + b;
    assert body[|a|] == 'h';
    assert forall i :: 0 <= i < |a| ==> body[i] == a[i];
    assert body[..|a|] == a;
    assert body[|a| + 1..] == " " + b;
  }

  lemma SpaceThenDigits(a: string, b: string)
    requires |a| > 0 && |b| > 0 && AllDigits(a) && AllDigits(b)
    ensures ParseSplit(a, " " + b) == Some(60 * DecimalValue(a) + DecimalValue(b))
  {
    var m := " " + b;
    assert m[1..] == b;
  }

  lemma ParseDigitsHM(a: string, b: string)
    requires |a| > 0 && |b| > 0 && AllDigits(a) && AllDigits(b)
    ensures ParseMinutes(a + "h " + b + "m") == Some(60 * DecimalValue(a) + DecimalValue(b))
  {
    var body := a + "h " + b;
    ParseMinutesStrip(body);
    assert ParseAmount(body) == ParseSplit(a, " " + b) by {
      HourMark(a, b);
    }
    SpaceThenDigits(a, b);
  }

  lemma ParseHoursMinutes(h: nat, m: nat)
    ensures ParseMinutes(NatToString(h) + "h " + NatToString(m) + "m") == Some(60 * h + m)
  {
    ParseDigitsHM(NatToString(h), NatToString(m));
    NatToStringValue(h);
    NatToStringValue(m);
  }

  /** Whole minutes split exactly into hours and a remainder below 60. */
  lemma WholeSplit(m: nat)
    ensures (m as real / 60.0).Floor == m / 60
    ensures m as real - 60.0 * (m / 60) as real == (m % 60) as real
  {
    var q, r := m / 60, m % 60;
    assert m == 60 * q + r;
    assert m as real / 60.0 == q as real + r as real / 60.0;
  }

  /** For a whole number of minutes the hours are shown only from 60 on, and
      the minute part is the remainder below 60. */
  lemma FormatWholeShape(m: nat)
    ensures m >= 60 ==> FormatMinutes(m as real) == NatToString(m / 60) + "h " + NatToString(m % 60) + "m"
    ensures m < 60 ==> FormatMinutes(m as real) == NatToString(m) + "m"
  {
    WholeSplit(m);
    assert Round((m % 60) as real) == m % 60;
  }

  /** For a whole number of minutes the rendering reads back as that number. */
  lemma FormatMinutesWhole(m: nat)
    ensures ParseMinutes(FormatMinutes(m as real)) == Some(m)
  {
    FormatWholeShape(m);
    if m >= 60 {
      ParseHoursMinutes(m / 60, m % 60);
    } else {
      ParseMinutesOnly(m);
    }
  }

  /** A fractional goal just under a whole hour is shown with a minute part
      of 60: 119.94 minutes (a goal of 1.999 hours) renders as "1h 60m". */
  lemma FormatMinutesShowsSixty()
    ensures FormatMinutes(119.94) == "1h 60m"
  {
    assert (119.94 / 60.0).Floor == 1;
    assert Round(119.94 - 60.0) == 60;
    assert NatToString(1) == "1";
    assert NatToString(60) == NatToString(6) + "0";
  }

  /** The evident intent: round the total first, then split it, so the minute
      part is always below 60 and the rendering reads back as the rounded
      amount. */
  function FormatMinutesRounded(minutes: real): (r: string)
    requires minutes >= 0.0
    ensures ParseMinutes(r) == Some(Round(minutes))
    ensures Round(minutes) >= 60 ==> r == NatToString(Round(minutes) / 60) + "h " + NatToString(Round(minutes) % 60) + "m"
    ensures Round(minutes) < 60 ==> r == NatToString(Round(minutes)) + "m"
  {
    var t := Round(minutes);
    FormatMinutesWhole(t);
    FormatWholeShape(t);
    FormatMinutes(t as real)
  }

  /** On whole minutes the two renderings agree. */
  lemma RoundedAgreesOnWhole(m: nat)
    ensures FormatMinutesRounded(m as real) == FormatMinutes(m as real)
  {
    assert Round(m as real) == m;
  }

  // ---------------------------------------------------------------- wording

  /** Any stored purpose other than `'hobby'`, none included, selects the
      study wording. */
  predicate IsStudent(purpose: Option<string>) {
    purpose != Some("hobby")
  }

  function PageTitle(purpose: Option<string>): (t: string)
    ensures t == "Progress History" || t == "Activity History"
  {
    if IsStudent(purpose) then "Progress History" else "Activity History"
  }

  function ProgressText(purpose: Option<string>, minutes: string): (t: string)
    ensures EndsWith(t, minutes + ".")
  {
    var t := if IsStudent(purpose) then "You studied for " + minutes + "." else "You were active for " + minutes + ".";
    assert t[|t| - |minutes + "."|..] == minutes + ".";
    t
  }

  /** The activity wording appears only for the stored purpose `'hobby'`. */
  lemma WordingChoice(purpose: Option<string>)
    ensures PageTitle(purpose) == "Activity History" <==> purpose == Some("hobby")
    ensures PageTitle(None) == "Progress History"
  {
  }
}

=== FILE: reminders.dfy ===
/** Reminders: the background scan in the dashboard layout
    (src/app/dashboard/layout.tsx) that fires every reminder whose time has
    come and removes it from storage, and the reminders page
    (src/app/dashboard/reminders/page.tsx) that schedules a reminder from a
    12-hour clock time, deletes one, and lists them by time. Time is whole
    seconds; `now` and the start of the local day are parameters. */
module Reminders {
  import opened Common
  import opened Text
  import opened Types
  import Sorting

  const DefaultRingtone: string := "/sounds/forest-birds.mp3"

  /** `new Date(r.remindAt) <= now`; an Invalid Date compares false. */
  predicate Due(r: Reminder, now: int) {
    r.remindAt.At? && r.remindAt.seconds <= now
  }

  /** `playReminderSound`: the source handed to the new audio element, the
      stored ringtone unless it is missing or empty. */
  function RingtoneSource(stored: Option<string>): (src: string)
    ensures src != ""
    ensures Truthy(stored) ==> src == stored.value
    ensures !Truthy(stored) ==> src == DefaultRingtone
  {
    if Truthy(stored) then stored.value else DefaultRingtone
  }

  /** The descriptions of the toasts shown, one per reminder, in list order. */
  function Contents(rs: seq<Reminder>): (r: seq<string>)
    ensures |r| == |rs|
    ensures forall i :: 0 <= i < |rs| ==> r[i] == rs[i].content
  {
    if |rs| == 0 then [] else [rs[0].content] + Contents(rs[1..])
  }

  /** What one scan leaves behind: the stored list, the toasts shown, the
      reminder audio element's source, and whether the storage event was
      dispatched. */
  datatype Scan = Scan(stored: Option<seq<Reminder>>, toasts: seq<string>,
                       audio: Option<string>, dispatched: bool)

  /** `checkReminders`: nothing happens when nothing is stored; otherwise
      every due reminder rings and shows a toast and is dropped, and the list
      is written back (and the event dispatched) only if something fired.
      Each ring replaces the previous audio element, so the last one
      survives. */
  function CheckReminders(stored: Option<seq<Reminder>>, ringtone: Option<string>,
                          audio: Option<string>, now: int): (s: Scan)
    ensures stored.None? ==> s == Scan(stored, [], audio, false)
    ensures stored.Some? ==>
              var due := Filter(stored.value, (r: Reminder) => Due(r, now));
              && s.toasts == Contents(due)
              && s.dispatched == (|due| > 0)
              && s.stored.Some?
              && (forall r :: r in s.stored.value <==> r in stored.value && !Due(r, now))
              && |s.stored.value| == Count(stored.value, (r: Reminder) => !Due(r, now))
              && (forall r :: multiset(s.stored.value)[r] == if Due(r, now) then 0 else multiset(stored.value)[r])
              && (|due| == 0 ==> s.stored == stored && s.audio == audio)
              && (|due| > 0 ==> s.audio == Some(RingtoneSource(ringtone)))
  {
    if stored.None? then Scan(stored, [], audio, false)
    else
      var due := Filter(stored.value, (r: Reminder) => Due(r, now));
      var upcoming := Filter(stored.value, (r: Reminder) => !Due(r, now));
      FilterLength(stored.value, (r: Reminder) => !Due(r, now));
      FilterMultiplicity(stored.value, (r: Reminder) => !Due(r, now));
      if |due| > 0 then Scan(Some(upcoming), Contents(due), Some(RingtoneSource(ringtone)), true)
      else
        FilterKeepsAll(stored.value, (r: Reminder) => !Due(r, now));
        Scan(stored, [], audio, false)
  }

  /** Nothing is lost: the reminders kept and the reminders fired are the
      stored list, as a multiset, and exactly one toast is shown per fired
      reminder. */
  lemma CheckPartition(stored: seq<Reminder>, ringtone: Option<string>, audio: Option<string>, now: int)
    ensures var s := CheckReminders(Some(stored), ringtone, audio, now);
            var due := Filter(stored, (r: Reminder) => Due(r, now));
            && multiset(s.stored.value) + multiset(due) == multiset(stored)
            && |s.toasts| == Count(stored, (r: Reminder) => Due(r, now))
  {
    var due := Filter(stored, (r: Reminder) => Due(r, now));
    FilterSplit(stored, (r: Reminder) => !Due(r, now), (r: Reminder) => Due(r, now));
    FilterLength(stored, (r: Reminder) => Due(r, now));
    if |due| == 0 {
      assert multiset(due) == multiset{};
    }
  }

  /** A second scan at the same instant does nothing: no toast, no write, no
      event, same audio. */
  lemma CheckIdempotent(stored: Option<seq<Reminder>>, ringtone: Option<string>,
                        audio: Option<string>, now: int)
    ensures var s1 := CheckReminders(stored, ringtone, audio, now);
            var s2 := CheckReminders(s1.stored, ringtone, s1.audio, now);
            s2 == Scan(s1.stored, [], s1.audio, false)
  {
    var s1 := CheckReminders(stored, ringtone, audio, now);
    if s1.stored.Some? {
      var kept := s1.stored.value;
      assert forall i :: 0 <= i < |kept| ==> kept[i] in kept;
      FilterKeepsNone(kept, (r: Reminder) => Due(r, now));
    }
  }

  /** What a scan keeps is the stored list filtered to the reminders not yet
      due. */
  lemma ScanKeeps(stored: seq<Reminder>, ringtone: Option<string>, audio: Option<string>, now: int)
    ensures CheckReminders(Some(stored), ringtone, audio, now).stored
            == Some(Filter(stored, (r: Reminder) => !Due(r, now)))
  {
    var due := Filter(stored, (r: Reminder) => Due(r, now));
    if |due| == 0 {
      forall i | 0 <= i < |stored|
        ensures !Due(stored[i], now)
      {
        assert stored[i] in stored;
        assert stored[i] !in due;
      }
      FilterKeepsAll(stored, (r: Reminder) => !Due(r, now));
    }
  }

  /** A reminder whose date does not parse is never due: every scan keeps
      every copy of it. */
  lemma InvalidNeverFires(stored: seq<Reminder>, r: Reminder, ringtone: Option<string>,
                          audio: Option<string>, now: int)
    requires r.remindAt.Invalid?
    ensures var s := CheckReminders(Some(stored), ringtone, audio, now);
            && (r in s.stored.value <==> r in stored)
            && multiset(s.stored.value)[r] == multiset(stored)[r]
  {
    ScanKeeps(stored, ringtone, audio, now);
    FilterOccurrences(stored, (x: Reminder) => !Due(x, now), r);
  }

  /** A scan keeps the pending reminders in their stored order: it
      distributes over concatenation. */
  lemma CheckKeepsOrder(xs: seq<Reminder>, ys: seq<Reminder>, ringtone: Option<string>,
                        audio: Option<string>, now: int)
    ensures CheckReminders(Some(xs + ys), ringtone, audio, now).stored.value
            == CheckReminders(Some(xs), ringtone, audio, now).stored.value
               + CheckReminders(Some(ys), ringtone, audio, now).stored.value
  {
    ScanKeeps(xs + ys, ringtone, audio, now);
    ScanKeeps(xs, ringtone, audio, now);
    ScanKeeps(ys, ringtone, audio, now);
    FilterAppend(xs, ys, (r: Reminder) => !Due(r, now));
  }

  /** Two scans leave what the later scan alone leaves: a reminder an
      earlier scan did not fire is fired by the next one, and the stored list
      and the ringing audio end up the same as after the later scan only. */
  lemma ScansCompose(stored: seq<Reminder>, ringtone: Option<string>, audio: Option<string>,
                     t1: int, t2: int)
    requires t1 <= t2
    ensures var s1 := CheckReminders(Some(stored), ringtone, audio, t1);
            var s2 := CheckReminders(s1.stored, ringtone, s1.audio, t2);
            var s := CheckReminders(Some(stored), ringtone, audio, t2);
            s2.stored == s.stored && s2.audio == s.audio
  {
    var s1 := CheckReminders(Some(stored), ringtone, audio, t1);
    ScanKeeps(stored, ringtone, audio, t1);
    ScanKeeps(s1.stored.value, ringtone, s1.audio, t2);
    ScanKeeps(stored, ringtone, audio, t2);
    FilterNarrow(stored, (r: Reminder) => !Due(r, t1), (r: Reminder) => !Due(r, t2));
    var due1 := Filter(stored, (r: Reminder) => Due(r, t1));
    if |due1| > 0 {
      var x := due1[0];
      assert x in due1;
      assert x in Filter(stored, (r: Reminder) => Due(r, t2));
    }
  }

  // ---------------------------------------------------------------- scheduling

  /** The 24-hour clock hour for a 12-hour hour and period. */
  function Hour24(hour: int, period: string): int {
    if period == "pm" && hour < 12 then hour + 12
    else if period == "am" && hour == 12 then 0
    else hour
  }

  /** The 12-hour reading of a 24-hour clock hour. */
  function Hour12(h: int): (int, string) {
    if h == 0 then (12, "am")
    else if h < 12 then (h, "am")
    else if h == 12 then (12, "pm")
    else (h - 12, "pm")
  }

  /** On the valid inputs (hour 1 to 12, period am or pm) the conversion to
      the 24-hour clock is a bijection onto 0 to 23: it lands in range and
      `Hour12` undoes it, and every 24-hour hour is reached. */
  lemma Hour24Bijection(hour: int, period: string, h: int)
    ensures 1 <= hour <= 12 && (period == "am" || period == "pm") ==>
              0 <= Hour24(hour, period) < 24 && Hour12(Hour24(hour, period)) == (hour, period)
    ensures 0 <= h < 24 ==>
              1 <= Hour12(h).0 <= 12 && Hour24(Hour12(h).0, Hour12(h).1) == h
  {
  }

  /** Today at `h24:minute` local time, or the same time tomorrow when that is
      already past. */
  function Schedule(dayStart: int, now: int, h24: int, minute: int): (t: int)
    ensures 0 <= h24 < 24 && 0 <= minute < 60 && dayStart <= now < dayStart + SecondsPerDay ==>
              now <= t < now + SecondsPerDay
    ensures (t - dayStart) % SecondsPerDay == (h24 * 3600 + minute * 60) % SecondsPerDay
  {
    var t := dayStart + h24 * 3600 + minute * 60;
    if t < now then t + SecondsPerDay else t
  }

  datatype AddError = MissingInformation | InvalidTime

  /** The four form fields of the reminders page. */
  datatype ReminderForm = ReminderForm(content: string, hour: string, minute: string, period: string)

  /** The form after a successful add: all fields cleared, period back to pm. */
  const EmptyForm: ReminderForm := ReminderForm("", "", "", "pm")

  /** A rejection changes nothing (only a toast is shown). */
  datatype AddResult = Added(reminders: seq<Reminder>, form: ReminderForm) | Rejected(error: AddError)

  /** `handleAddReminder`: content must be non-blank and both fields must
      parse (radix 10); then the hour must be 1 to 12 and the minute 0 to 59.
      The accepted reminder is appended with trimmed content and the form is
      cleared. */
  function AddReminder(reminders: seq<Reminder>, form: ReminderForm, dayStart: int, now: int,
                       newId: string): (r: AddResult)
    ensures r.Rejected? && r.error == MissingInformation <==>
              IsBlank(form.content) || ParseInt(form.hour).None? || ParseInt(form.minute).None?
    ensures r.Rejected? && r.error == InvalidTime <==>
              && !IsBlank(form.content) && ParseInt(form.hour).Some? && ParseInt(form.minute).Some?
              && !(1 <= ParseInt(form.hour).value <= 12 && 0 <= ParseInt(form.minute).value <= 59)
    ensures r.Added? ==>
              && r.form == EmptyForm
              && |r.reminders| == |reminders| + 1 && r.reminders[..|reminders|] == reminders
              && var added := r.reminders[|reminders|];
                 && added.id == newId && added.content == Trim(form.content)
                 && added.remindAt == At(Schedule(dayStart, now, Hour24(ParseInt(form.hour).value, form.period),
                                                  ParseInt(form.minute).value))
                 && (dayStart <= now < dayStart + SecondsPerDay && (form.period == "am" || form.period == "pm") ==>
                       now <= added.remindAt.seconds < now + SecondsPerDay)
  {
    var hour := ParseInt(form.hour);
    var minute := ParseInt(form.minute);
    if IsBlank(form.content) || hour.None? || minute.None? then Rejected(MissingInformation)
    else if hour.value < 1 || hour.value > 12 || minute.value < 0 || minute.value > 59 then
      Rejected(InvalidTime)
    else
      Hour24Bijection(hour.value, form.period, 0);
      var t := Schedule(dayStart, now, Hour24(hour.value, form.period), minute.value);
      Added(reminders + [Reminder(newId, Trim(form.content), At(t))], EmptyForm)
  }

  /** A scheduled reminder fires at the first scan at or after its time and
      at no scan before it. */
  lemma AddedFiresOnTime(reminders: seq<Reminder>, form: ReminderForm, dayStart: int, now: int,
                         newId: string, scanAt: int, ringtone: Option<string>, audio: Option<string>)
    requires AddReminder(reminders, form, dayStart, now, newId).Added?
    ensures var rs := AddReminder(reminders, form, dayStart, now, newId).reminders;
            var added := rs[|reminders|];
            var s := CheckReminders(Some(rs), ringtone, audio, scanAt);
            (added in s.stored.value <==> scanAt < added.remindAt.seconds)
  {
    var rs := AddReminder(reminders, form, dayStart, now, newId).reminders;
    assert rs[|reminders|] in rs;
  }

  /** `deleteReminder`: keeps every reminder whose id differs. */
  function DeleteReminder(reminders: seq<Reminder>, id: string): (r: seq<Reminder>)
    ensures forall x :: x in r <==> x in reminders && x.id != id
    ensures |r| == Count(reminders, (x: Reminder) => x.id != id)
    ensures forall x :: multiset(r)[x] == if x.id != id then multiset(reminders)[x] else 0
  {
    FilterLength(reminders, (x: Reminder) => x.id != id);
    FilterMultiplicity(reminders, (x: Reminder) => x.id != id);
    Filter(reminders, (x: Reminder) => x.id != id)
  }

  /** Deleting keeps the other reminders in order: it distributes over
      concatenation. */
  lemma DeleteReminderKeepsOrder(xs: seq<Reminder>, ys: seq<Reminder>, id: string)
    ensures DeleteReminder(xs + ys, id) == DeleteReminder(xs, id) + DeleteReminder(ys, id)
  {
    FilterAppend(xs, ys, (x: Reminder) => x.id != id);
  }

  /** Deleting a reminder just added takes the list back to what it was,
      when no older reminder shares the new id. */
  lemma DeleteUndoesAdd(reminders: seq<Reminder>, form: ReminderForm, dayStart: int, now: int,
                        newId: string)
    requires AddReminder(reminders, form, dayStart, now, newId).Added?
    requires forall i :: 0 <= i < |reminders| ==> reminders[i].id != newId
    ensures DeleteReminder(AddReminder(reminders, form, dayStart, now, newId).reminders, newId) == reminders
  {
    var rs := AddReminder(reminders, form, dayStart, now, newId).reminders;
    var keep := (x: Reminder) => x.id != newId;
    assert rs == reminders + [rs[|reminders|]];
    FilterAppend(reminders, [rs[|reminders|]], keep);
    FilterKeepsAll(reminders, keep);
    assert Filter([rs[|reminders|]], keep) == [];
  }

  /** The list comparator: `a` goes first when its time is earlier; a NaN
      difference (an unparsable date) places neither ahead. */
  predicate Earlier(a: Reminder, b: Reminder) {
    a.remindAt.At? && b.remindAt.At? && a.remindAt.seconds < b.remindAt.seconds
  }

  /** The list as displayed: a rearrangement of the stored list. */
  function DisplayOrder(reminders: seq<Reminder>): (r: seq<Reminder>)
    ensures multiset(r) == multiset(reminders)
  {
    Sorting.SortPermutation(reminders, Earlier);
    Sorting.Sort(reminders, Earlier)
  }

  /** When every date parses, the list is displayed in chronological order. */
  lemma DisplayOrderChronological(reminders: seq<Reminder>)
    requires forall i :: 0 <= i < |reminders| ==> reminders[i].remindAt.At?
    ensures var r := DisplayOrder(reminders);
            && (forall i :: 0 <= i < |r| ==> r[i].remindAt.At?)
            && (forall i, j :: 0 <= i < j < |r| ==> r[i].remindAt.seconds <= r[j].remindAt.seconds)
  {
    var ok := (x: Reminder) => x.remindAt.At?;
    assert Sorting.StrictWeakOrder(Earlier, ok);
    assert Sorting.AllOk(reminders, ok);
    Sorting.SortOrdered(reminders, Earlier, ok);
  }

  /** With an unparsable date among them the comparator is not a strict weak
      order, so no ordering is promised: 5 and 7 are each "not after" an
      invalid entry, yet 5 comes before 7. */
  lemma InvalidBreaksOrder()
    ensures var a := Reminder("a", "", At(5));
            var b := Reminder("b", "", Invalid("x"));
            var c := Reminder("c", "", At(7));
            !Earlier(a, b) && !Earlier(b, c) && Earlier(a, c)
  {
  }

  /** The form "c" at 8:00 am. */
  const EightAm: ReminderForm := ReminderForm("c", "8", "0", "am")

  /** Added at midnight, 8:00 am is scheduled the same day, eight hours
      on, whatever the list. */
  lemma AddEightAm(rs: seq<Reminder>, dayStart: int)
    ensures AddReminder(rs, EightAm, dayStart, dayStart, "3")
            == Added(rs + [Reminder("3", "c", At(dayStart + 28800))], EmptyForm)
  {
    EightAmParses();
    AddAccepted(rs, EightAm, dayStart, dayStart, "3", 8, 0);
    assert Hour24(8, "am") == 8;
  }

  /** The fields of the form "c" at 8:00 am read as they look. */
  lemma EightAmParses()
    ensures ParseInt(EightAm.hour) == Some(8) && ParseInt(EightAm.minute) == Some(0)
    ensures !IsBlank(EightAm.content) && Trim(EightAm.content) == "c"
  {
    ParseDigit("8");
    ParseDigit("0");
    TrimOne('c');
  }

  /** A form whose content is not blank and whose hour and minute parse
      within range appends exactly the reminder at the scheduled instant. */
  lemma AddAccepted(rs: seq<Reminder>, form: ReminderForm, dayStart: int, now: int, newId: string,
                    hour: int, minute: int)
    requires !IsBlank(form.content)
    requires ParseInt(form.hour) == Some(hour) && 1 <= hour <= 12
    requires ParseInt(form.minute) == Some(minute) && 0 <= minute <= 59
    ensures AddReminder(rs, form, dayStart, now, newId)
            == Added(rs + [Reminder(newId, Trim(form.content),
                                    At(Schedule(dayStart, now, Hour24(hour, form.period), minute)))],
                     EmptyForm)
  {
  }

  /** A lone digit parses as its value. */
  lemma ParseDigit(s: string)
    requires |s| == 1 && IsDigit(s[0])
    ensures ParseInt(s) == Some(DigitValue(s[0]))
  {
    ParseIntFromDigit(s);
    assert DigitPrefix(s[1..]) == "";
    assert DigitPrefix(s) == s;
    assert s[..0] == "";
  }

  /** A lone character that is not whitespace is its own trim. */
  lemma TrimOne(c: char)
    requires !IsWhitespace(c)
    ensures Trim([c]) == [c] && !IsBlank([c])
  {
    assert TrimStart([c]) == [c];
  }

  /** The display order of two reminders, the later stored first. */
  lemma SortTwo(later: Reminder, earlier: Reminder)
    requires Earlier(earlier, later)
    ensures DisplayOrder([later, earlier]) == [earlier, later]
  {
    assert [later, earlier][1..] == [earlier];
    assert Sorting.Sort([earlier], Earlier) == [earlier];
    assert Sorting.InsertFront(later, [], Earlier) == [later];
  }
}

=== FILE: reminders_page.dfy ===
/** The reminders page (src/app/dashboard/reminders/page.tsx) as it runs:
    the render sorts the `reminders` state array in place
    (`reminders.sort(...)` rather than a sorted copy), so the handlers that
    read the state afterwards work on the stored list in display order. */
module ReminderPage {
  import opened Common
  import opened Text
  import opened Types
  import opened Reminders
  import Sorting

  /** `handleAddReminder` as the page runs it. The render sorts the
      `reminders` state array itself (`reminders.sort(...)`, not a sorted
      copy), so the list the handler appends to and writes back is the stored
      list in display order. The same reminders are written as by appending
      to the stored list; only their order differs. */
  function AddOnPage(stored: seq<Reminder>, form: ReminderForm, dayStart: int, now: int,
                     newId: string): (r: AddResult)
    ensures r.Rejected? <==> AddReminder(stored, form, dayStart, now, newId).Rejected?
    ensures r.Rejected? ==> r == AddReminder(stored, form, dayStart, now, newId)
    ensures r.Added? ==>
              var intended := AddReminder(stored, form, dayStart, now, newId).reminders;
              r.reminders == DisplayOrder(stored) + [intended[|stored|]] && r.form == EmptyForm
  {
    AddSameReminder(DisplayOrder(stored), stored, form, dayStart, now, newId);
    AddReminder(DisplayOrder(stored), form, dayStart, now, newId)
  }

  /** The page writes the same reminders as appending to the stored list
      would, each as often; only their order differs. */
  lemma AddOnPageSameReminders(stored: seq<Reminder>, form: ReminderForm, dayStart: int, now: int,
                               newId: string)
    requires AddOnPage(stored, form, dayStart, now, newId).Added?
    ensures multiset(AddOnPage(stored, form, dayStart, now, newId).reminders)
            == multiset(AddReminder(stored, form, dayStart, now, newId).reminders)
  {
    AddSameReminder(stored, stored, form, dayStart, now, newId);
  }

  /** The outcome of the form does not depend on the list: whichever list
      it is added to, the same reminder is appended. */
  lemma AddSameReminder(a: seq<Reminder>, b: seq<Reminder>, form: ReminderForm, dayStart: int,
                        now: int, newId: string)
    ensures AddReminder(a, form, dayStart, now, newId).Rejected?
            <==> AddReminder(b, form, dayStart, now, newId).Rejected?
    ensures AddReminder(a, form, dayStart, now, newId).Rejected? ==>
              AddReminder(a, form, dayStart, now, newId) == AddReminder(b, form, dayStart, now, newId)
    ensures AddReminder(a, form, dayStart, now, newId).Added? ==>
              AddReminder(a, form, dayStart, now, newId).reminders
              == a + [AddReminder(b, form, dayStart, now, newId).reminders[|b|]]
  {
  }

  /** `deleteReminder` as the page runs it, on the state the render has
      sorted in place: the same reminders survive as when filtering the
      stored list, in display order. */
  function DeleteOnPage(stored: seq<Reminder>, id: string): (r: seq<Reminder>)
    ensures multiset(r) == multiset(DeleteReminder(stored, id))
  {
    FilterPermutation(DisplayOrder(stored), stored, (x: Reminder) => x.id != id);
    DeleteReminder(DisplayOrder(stored), id)
  }

  /** Appending to the sorted state reorders what was stored: two stored
      reminders, the later one first (10:00 stored ahead of 09:00, say), are
      written back swapped, followed by the new one, where `AddReminder`
      keeps the stored list as its prefix. */
  lemma AddOnPageReorders(stored: seq<Reminder>, form: ReminderForm, dayStart: int, now: int,
                          newId: string)
    requires |stored| == 2 && Earlier(stored[1], stored[0])
    requires AddReminder(stored, form, dayStart, now, newId).Added?
    ensures var intended := AddReminder(stored, form, dayStart, now, newId).reminders;
            && AddOnPage(stored, form, dayStart, now, newId).Added?
            && AddOnPage(stored, form, dayStart, now, newId).reminders
               == [stored[1], stored[0], intended[2]]
  {
    OnPageAppends(stored, form, dayStart, now, newId);
    SwapTwo(stored);
  }

  /** Two reminders stored later first are displayed swapped. */
  lemma SwapTwo(stored: seq<Reminder>)
    requires |stored| == 2 && Earlier(stored[1], stored[0])
    ensures DisplayOrder(stored) == [stored[1], stored[0]]
  {
    assert stored == [stored[0], stored[1]];
    SortTwo(stored[0], stored[1]);
  }

  /** Whenever the form is accepted, the stored list and the display order
      are each followed by the same new reminder. */
  lemma OnPageAppends(stored: seq<Reminder>, form: ReminderForm, dayStart: int, now: int,
                      newId: string)
    requires AddReminder(stored, form, dayStart, now, newId).Added?
    ensures var intended := AddReminder(stored, form, dayStart, now, newId).reminders;
            && |intended| == |stored| + 1
            && intended == stored + [intended[|stored|]]
            && AddOnPage(stored, form, dayStart, now, newId).Added?
            && AddOnPage(stored, form, dayStart, now, newId).reminders
               == DisplayOrder(stored) + [intended[|stored|]]
  {
    AddSameReminder(stored, stored, form, dayStart, now, newId);
  }
}

=== FILE: settings.dfy ===
/** The settings page (src/app/dashboard/settings/page.tsx): the three save
    validators, the key selection shared by "reset" and "download backup",
    the restore of the stored theme and the custom palette editor. Storage is
    a string-keyed map of strings. `parseFloat` and `Number.prototype.toString`
    on reals are parameters. */
module Settings {
  import opened Common
  import opened Text
  import Dashboard

  type Storage = map<string, string>

  /** The storage after a save and whether the input was accepted (a rejected
      input shows the "invalid" toast and writes nothing). */
  datatype Saved = Saved(storage: Storage, accepted: bool)

  // ---------------------------------------------------------------- validators

  /** `handleSavePomodoro`: the input is read with `parseInt` and written
      back as a whole number of minutes when it is positive. */
  function SavePomodoro(storage: Storage, input: string): (r: Saved)
    ensures r.accepted <==> ParseInt(input).Some? && ParseInt(input).value > 0
    ensures !r.accepted ==> r.storage == storage
    ensures r.accepted ==> "pomodoroDuration" in r.storage
    ensures forall k :: k in r.storage ==> k in storage || k == "pomodoroDuration"
    ensures forall k :: k in storage && k != "pomodoroDuration" ==> k in r.storage && r.storage[k] == storage[k]
  {
    match ParseInt(input)
    case Some(v) =>
      if v > 0 then Saved(storage["pomodoroDuration" := NatToString(v)], true)
      else Saved(storage, false)
    case None => Saved(storage, false)
  }

  /** What is saved is what the dashboard loads: the session length becomes
      the parsed number of minutes. */
  lemma SavedPomodoroLoads(storage: Storage, input: string)
    requires SavePomodoro(storage, input).accepted
    ensures var stored := SavePomodoro(storage, input).storage["pomodoroDuration"];
            Dashboard.LoadDurationSeconds(Some(stored)) == Some(ParseInt(input).value * 60)
  {
    var v: nat := ParseInt(input).value;
    ParseIntOfNatToString(v);
  }

  /** Input such as "30 minutes" is accepted as 30: `parseInt` ignores the
      text after the leading digits. */
  lemma PomodoroToleratesText(storage: Storage, digits: string, rest: string)
    requires |digits| > 0 && AllDigits(digits) && DecimalValue(digits) > 0
    requires |rest| == 0 || !IsDigit(rest[0])
    ensures var r := SavePomodoro(storage, digits + rest);
            r.accepted && r.storage["pomodoroDuration"] == NatToString(DecimalValue(digits))
  {
    ParseIntIgnoresTail(digits, rest);
  }

  /** `handleSaveDailyGoal`: the input is read with `parseFloat` (`None` for
      NaN); any number from 0 up is written, rendered by `render`. */
  function SaveDailyGoal(storage: Storage, input: string,
                         parseFloat: string -> Option<real>, render: real -> string): (r: Saved)
    ensures r.accepted <==> parseFloat(input).Some? && parseFloat(input).value >= 0.0
    ensures !r.accepted ==> r.storage == storage
    ensures r.accepted ==> r.storage == storage["dailyGoal" := render(parseFloat(input).value)]
  {
    var g := parseFloat(input);
    if g.None? || g.value < 0.0 then Saved(storage, false)
    else Saved(storage["dailyGoal" := render(g.value)], true)
  }

  /** A saved goal is the goal the dashboard reads back on its next mount,
      provided `parseFloat` reads the rendered number back as itself (as it
      does for `toString` of a finite number). */
  lemma SavedGoalLoads(storage: Storage, input: string, parseFloat: string -> Option<real>,
                       render: real -> string)
    requires parseFloat(input).Some? && parseFloat(input).value >= 0.0
    requires render(parseFloat(input).value) != ""
    requires parseFloat(render(parseFloat(input).value)) == parseFloat(input)
    ensures var r := SaveDailyGoal(storage, input, parseFloat, render);
            && r.accepted && "dailyGoal" in r.storage
            && Dashboard.LoadDailyGoal(Some(r.storage["dailyGoal"]), parseFloat) == parseFloat(input)
  {
    var r := SaveDailyGoal(storage, input, parseFloat, render);
    assert r.storage["dailyGoal"] == render(parseFloat(input).value);
  }

  /** A goal of zero hours is accepted, unlike a session length of zero. */
  lemma ZeroGoalAccepted(storage: Storage, parseFloat: string -> Option<real>, render: real -> string)
    requires parseFloat("0") == Some(0.0)
    ensures SaveDailyGoal(storage, "0", parseFloat, render).accepted
    ensures !SavePomodoro(storage, "0").accepted
  {
    assert DigitPrefix("0") == "0";
    assert TrimStart("0") == "0";
  }

  /** `handleSaveName`: the trimmed name is written; a blank one is
      rejected. */
  function SaveName(storage: Storage, input: string): (r: Saved)
    ensures r.accepted <==> !IsBlank(input)
    ensures !r.accepted ==> r.storage == storage
    ensures r.accepted ==> "userName" in r.storage && r.storage["userName"] != ""
    ensures r.accepted ==> r.storage == storage["userName" := Trim(input)]
  {
    var t := Trim(input);
    if t == "" then Saved(storage, false) else Saved(storage["userName" := t], true)
  }

  /** The stored name has no surrounding whitespace, so saving it again
      changes nothing. */
  lemma SaveNameIdempotent(storage: Storage, input: string)
    requires SaveName(storage, input).accepted
    ensures var r := SaveName(storage, input);
            SaveName(r.storage, r.storage["userName"]) == r
  {
    TrimIdempotent(input);
  }

  // ---------------------------------------------------------------- keys

  /** `LOCAL_STORAGE_KEYS`. */
  const AppKeys: seq<string> := [
    "subjects", "analyticsData", "notes", "reminders", "dailyProgress",
    "userPurpose", "pomodoroDuration", "dailyGoal", "customFocusBackground",
    "focusTimerColor", "selectedAmbientSound", "customAmbientSounds", "reminderRingtone", "reminderRingtoneName",
    "userName", "app-theme", "custom-colors", "diaryEntries", "activeDiaryEntryId", "customCharacters", "chatHistory_michael"
  ]

  /** A key belongs to the application when it is listed or is a chat
      history. */
  predicate IsAppKey(k: string) {
    k in AppKeys || StartsWith(k, "chatHistory_")
  }

  /** `handleResetData`: every application key is removed. */
  function Reset(storage: Storage): (r: Storage)
    ensures forall k :: k in r <==> k in storage && !IsAppKey(k)
    ensures forall k :: k in r ==> r[k] == storage[k]
  {
    map k | k in storage && !IsAppKey(k) :: storage[k]
  }

  /** `handleDownloadData`: the object written to the backup file. */
  function Backup(storage: Storage): (r: Storage)
    ensures forall k :: k in r <==> k in storage && IsAppKey(k)
    ensures forall k :: k in r ==> r[k] == storage[k]
  {
    map k | k in storage && IsAppKey(k) :: storage[k]
  }

  /** Backup and reset select the same keys: the backup holds exactly what a
      reset deletes, the two are disjoint, and together they are the whole
      storage. */
  lemma BackupIsWhatResetDeletes(storage: Storage)
    ensures Backup(storage).Keys == storage.Keys - Reset(storage).Keys
    ensures Backup(storage).Keys !! Reset(storage).Keys
    ensures Reset(storage) + Backup(storage) == storage
  {
  }

  /** A reset leaves nothing to back up, and resetting twice is resetting
      once. */
  lemma ResetIdempotent(storage: Storage)
    ensures Reset(Reset(storage)) == Reset(storage)
    ensures Backup(Reset(storage)) == map[]
  {
  }

  /** The chat history of any character is application data: a reset
      deletes it and a backup keeps it. */
  lemma ChatHistoriesAreAppData(storage: Storage, characterId: string)
    ensures "chatHistory_" + characterId !in Reset(storage)
    ensures "chatHistory_" + characterId in storage ==>
              "chatHistory_" + characterId in Backup(storage)
  {
    assert ("chatHistory_" + characterId)[..12] == "chatHistory_";
  }

  // ---------------------------------------------------------------- theme

  /** The names of the preset themes. */
  const ThemeNames: seq<string> := ["default", "ocean", "sunset", "forest"]

  /** The theme selected when the page loads: the stored one when it names a
      preset or `'custom'`, otherwise `'default'`. */
  function RestoreTheme(stored: Option<string>): (r: string)
    ensures r in ThemeNames || r == "custom"
    ensures r != "default" ==> stored == Some(r)
    ensures stored.Some? && (stored.value in ThemeNames || stored.value == "custom") ==> r == stored.value
  {
    if Truthy(stored) && (stored.value in ThemeNames || stored.value == "custom") then stored.value
    else "default"
  }

  /** The effect of choosing a theme: the name is stored, and the
      `data-theme` attribute is set unless the theme is the custom one. */
  datatype ThemeSet = ThemeSet(storage: Storage, dataTheme: Option<string>)

  function ThemeChange(storage: Storage, name: string): (r: ThemeSet)
    ensures "app-theme" in r.storage && r.storage["app-theme"] == name
    ensures r.dataTheme.Some? <==> name != "custom"
    ensures r.dataTheme.Some? ==> r.dataTheme.value == name
    ensures forall k :: k in storage && k != "app-theme" ==> k in r.storage && r.storage[k] == storage[k]
  {
    ThemeSet(storage["app-theme" := name], if name == "custom" then None else Some(name))
  }

  /** A theme chosen on the page survives a reload. */
  lemma ThemeChangeRestores(storage: Storage, name: string)
    requires name in ThemeNames || name == "custom"
    ensures RestoreTheme(Some(ThemeChange(storage, name).storage["app-theme"])) == name
  {
  }

  // ---------------------------------------------------------------- palette

  datatype Mode = Light | Dark
  datatype Field = Primary | Accent | Background

  datatype Palette = Palette(primary: string, accent: string, background: string)
  datatype CustomColors = CustomColors(light: Palette, dark: Palette)

  const DefaultCustomColors: CustomColors :=
    CustomColors(Palette("#7c00c7", "#00c7c7", "#f9faff"), Palette("#c88aff", "#33d9d9", "#1d1a26"))

  function Color(c: CustomColors, mode: Mode, field: Field): string {
    var p := if mode == Light then c.light else c.dark;
    match field
    case Primary => p.primary
    case Accent => p.accent
    case Background => p.background
  }

  function SetField(p: Palette, field: Field, value: string): Palette {
    match field
    case Primary => p.(primary := value)
    case Accent => p.(accent := value)
    case Background => p.(background := value)
  }

  /** `handleCustomColorChange`: one colour of one mode is replaced. */
  function SetCustomColor(c: CustomColors, mode: Mode, field: Field, value: string): (r: CustomColors)
    ensures Color(r, mode, field) == value
    ensures forall m: Mode, f: Field :: (m, f) != (mode, field) ==> Color(r, m, f) == Color(c, m, f)
  {
    if mode == Light then c.(light := SetField(c.light, field, value))
    else c.(dark := SetField(c.dark, field, value))
  }

  /** Setting a colour back to what it was restores the palette. */
  lemma SetCustomColorUndo(c: CustomColors, mode: Mode, field: Field, value: string)
    ensures SetCustomColor(SetCustomColor(c, mode, field, value), mode, field, Color(c, mode, field)) == c
  {
  }

  /** The page state the palette handlers touch. */
  datatype ThemePage = ThemePage(selected: string, colors: CustomColors, storage: Storage,
                                 dataTheme: Option<string>)

  /** `handleClearCustomTheme`: the stored palette is removed and the default
      colours shown; a selected custom theme falls back to `'default'`. */
  function ClearCustomTheme(page: ThemePage): (r: ThemePage)
    ensures r.colors == DefaultCustomColors
    ensures "custom-colors" !in r.storage
    ensures page.selected == "custom" ==>
              && r.selected == "default" && r.dataTheme == Some("default")
              && "app-theme" in r.storage && r.storage["app-theme"] == "default"
              && r.storage == (page.storage - {"custom-colors"})["app-theme" := "default"]
    ensures page.selected != "custom" ==>
              r.selected == page.selected && r.dataTheme == page.dataTheme && r.storage == page.storage - {"custom-colors"}
  {
    var storage := page.storage - {"custom-colors"};
    if page.selected == "custom" then
      var t := ThemeChange(storage, "default");
      ThemePage("default", DefaultCustomColors, t.storage, t.dataTheme)
    else ThemePage(page.selected, DefaultCustomColors, storage, page.dataTheme)
  }

  /** After clearing, a reload selects a preset, never the custom theme. */
  lemma ClearedThemeIsPreset(page: ThemePage)
    requires "app-theme" in page.storage ==> page.storage["app-theme"] == page.selected
    ensures var r := ClearCustomTheme(page);
            "app-theme" in r.storage ==> RestoreTheme(Some(r.storage["app-theme"])) != "custom"
  {
  }
}

=== FILE: sorting.dfy ===
/** `Array.prototype.sort` with a comparator, as a stable insertion sort.
    `before(a, b)` holds when the comparator returns a negative number for
    `(a, b)`: `a` must be placed ahead of `b`. A comparator that yields NaN
    (an unparsable date) gives `false` both ways. For a comparator that is a
    strict weak order every stable sort returns the same sequence, so the
    insertion sort stands for the engine's sort. */
module Sorting {

  /** Puts `x` in front of the first element of `ys` that does not have to
      come ahead of it. */
  function InsertFront<T>(x: T, ys: seq<T>, before: (T, T) -> bool): (r: seq<T>)
    ensures |r| == |ys| + 1
  {
    if |ys| == 0 || !before(ys[0], x) then [x] + ys
    else [ys[0]] + InsertFront(x, ys[1..], before)
  }

  /** How many leading elements of `ys` must come ahead of `x`: all of the
      first `k` do, and the next one (if any) does not. */
  function LeadingBefore<T>(x: T, ys: seq<T>, before: (T, T) -> bool): (k: nat)
    ensures k <= |ys|
  {
    if |ys| == 0 || !before(ys[0], x) then 0 else 1 + LeadingBefore(x, ys[1..], before)
  }

  /** The first `k` elements of `ys` all come ahead of `x`, and the next one
      (if any) does not. */
  lemma {:induction false} LeadingBeforeSpec<T>(x: T, ys: seq<T>, before: (T, T) -> bool)
    ensures var k := LeadingBefore(x, ys, before);
            && (forall i :: 0 <= i < k ==> before(ys[i], x))
            && (k < |ys| ==> !before(ys[k], x))
  {
    if |ys| > 0 && before(ys[0], x) {
      LeadingBeforeSpec(x, ys[1..], before);
      var k := LeadingBefore(x, ys[1..], before);
      assert forall i :: 1 <= i < k + 1 ==> ys[i] == ys[1..][i - 1];
    }
  }

  /** `x` lands right after the run of leading elements that come ahead of it,
      and in front of everything else. */
  lemma {:induction false} InsertFrontShape<T>(x: T, ys: seq<T>, before: (T, T) -> bool)
    ensures var k := LeadingBefore(x, ys, before);
            InsertFront(x, ys, before) == ys[..k] + [x] + ys[k..]
  {
    if |ys| > 0 && before(ys[0], x) {
      var tail := ys[1..];
      InsertFrontShape(x, tail, before);
      var k := LeadingBefore(x, tail, before);
      assert InsertFront(x, ys, before) == [ys[0]] + (tail[..k] + [x] + tail[k..]);
      assert ys[..k + 1] == [ys[0]] + tail[..k];
      assert ys[k + 1..] == tail[k..];
    } else {
      assert ys[..0] == [] && ys[0..] == ys;
    }
  }

  /** The sorted copy: the first element is inserted into the sorted rest. */
  function Sort<T>(xs: seq<T>, before: (T, T) -> bool): (r: seq<T>)
    ensures |r| == |xs|
  {
    if |xs| == 0 then [] else InsertFront(xs[0], Sort(xs[1..], before), before)
  }

  lemma InsertCounts<T>(a: seq<T>, x: T, b: seq<T>)
    ensures multiset(a + [x] + b) == multiset(a + b) + multiset{x}
  {
  }

  /** Inserting adds exactly the one element. */
  lemma InsertFrontCounts<T>(x: T, ys: seq<T>, before: (T, T) -> bool)
    ensures multiset(InsertFront(x, ys, before)) == multiset(ys) + multiset{x}
  {
    InsertFrontShape(x, ys, before);
    var k := LeadingBefore(x, ys, before);
    InsertCounts(ys[..k], x, ys[k..]);
    assert ys[..k] + ys[k..] == ys;
  }

  /** Sorting only rearranges: the result is a permutation of the input. */
  lemma {:induction false} SortPermutation<T>(xs: seq<T>, before: (T, T) -> bool)
    ensures multiset(Sort(xs, before)) == multiset(xs)
  {
    if |xs| > 0 {
      SortPermutation(xs[1..], before);
      InsertFrontCounts(xs[0], Sort(xs[1..], before), before);
      assert xs == [xs[0]] + xs[1..];
    }
  }

  /** No element is required to come ahead of one placed before it. */
  ghost predicate Ordered<T>(s: seq<T>, before: (T, T) -> bool) {
    forall i, j :: 0 <= i < j < |s| ==> !before(s[j], s[i])
  }

  /** `before` is a strict weak order on the values satisfying `ok`:
      irreflexive, asymmetric, and "not ahead of" is transitive. */
  ghost predicate StrictWeakOrder<T(!new)>(before: (T, T) -> bool, ok: T -> bool) {
    && (forall a :: ok(a) ==> !before(a, a))
    && (forall a, b :: ok(a) && ok(b) && before(a, b) ==> !before(b, a))
    && (forall a, b, c :: ok(a) && ok(b) && ok(c) && !before(a, b) && !before(b, c) ==> !before(a, c))
  }

  ghost predicate AllOk<T>(s: seq<T>, ok: T -> bool) {
    forall i :: 0 <= i < |s| ==> ok(s[i])
  }

  /** Inserting into an ordered sequence keeps it ordered. */
  lemma InsertFrontOrdered<T(!new)>(x: T, ys: seq<T>, before: (T, T) -> bool, ok: T -> bool)
    requires Ordered(ys, before) && StrictWeakOrder(before, ok)
    requires ok(x) && AllOk(ys, ok)
    ensures Ordered(InsertFront(x, ys, before), before)
    ensures AllOk(InsertFront(x, ys, before), ok)
  {
    InsertFrontShape(x, ys, before);
    LeadingBeforeSpec(x, ys, before);
    var k := LeadingBefore(x, ys, before);
    var r := InsertFront(x, ys, before);
    assert forall i :: 0 <= i < k ==> r[i] == ys[i];
    assert r[k] == x;
    assert forall i :: k < i < |r| ==> r[i] == ys[i - 1];
    forall i, j | 0 <= i < j < |r|
      ensures !before(r[j], r[i])
    {
      if j < k || i > k {
        // both come from `ys`, in their original order
      } else if j == k {
        // ys[i] comes ahead of x
      } else if i == k {
        // x does not have to come after ys[k], which is not ahead of ys[j - 1]
        if j - 1 > k {
          assert !before(ys[j - 1], ys[k]);
        }
      } else {
        assert i < k < j;
      }
    }
  }

  /** `Sort` returns an ordered sequence whenever the comparator is a strict
      weak order on the input's values. */
  lemma {:induction false} SortOrdered<T(!new)>(xs: seq<T>, before: (T, T) -> bool, ok: T -> bool)
    requires StrictWeakOrder(before, ok) && AllOk(xs, ok)
    ensures Ordered(Sort(xs, before), before) && AllOk(Sort(xs, before), ok)
  {
    if |xs| > 0 {
      SortOrdered(xs[1..], before, ok);
      assert ok(xs[0]);
      InsertFrontOrdered(xs[0], Sort(xs[1..], before), before, ok);
    }
  }

  /** Stability at the front: an element placed first in the input ends up
      ahead of every element that does not have to come before it; only
      elements required to precede it are placed in front of it. */
  lemma SortedFrontIsFirstAmongEquals<T>(x: T, xs: seq<T>, before: (T, T) -> bool)
    ensures var r := Sort([x] + xs, before);
            var k := LeadingBefore(x, Sort(xs, before), before);
            && k < |r| && r[k] == x
            && (forall i :: 0 <= i < k ==> before(r[i], x))
  {
    var s := Sort(xs, before);
    assert ([x] + xs)[1..] == xs;
    InsertFrontShape(x, s, before);
    LeadingBeforeSpec(x, s, before);
    var k := LeadingBefore(x, s, before);
    var r := Sort([x] + xs, before);
    assert r == s[..k] + [x] + s[k..];
    forall i | 0 <= i < k
      ensures before(r[i], x)
    {
      assert r[i] == s[i];
    }
  }
}

=== FILE: sounds.dfy ===
/** The sounds page (src/app/dashboard/sounds/page.tsx): the ambient sound
    list (built-ins followed by the uploaded ones), selection, play/pause,
    deletion, the upload validator and the reminder ringtone. The audio
    elements are not modelled; only which source is playing is. A file's
    contents arrive as the data URL `dataUrl`. */
module Sounds {
  import opened Common
  import opened Text
  import opened Types
  import Reminders

  const MaxFileSizeBytes: nat := 5 * 1024 * 1024

  const BuiltInSounds: seq<Sound> := [
    Sound("none", "None", "none", false),
    Sound("rain-drops", "Rain Drops", "/sounds/rain-drops.mp3", false),
    Sound("forest-birds", "Forest Birds", "/sounds/forest-birds.mp3", false)
  ]

  /** The file picked in an upload dialog. */
  datatype Upload = Upload(name: string, size: nat, mimeType: string)

  datatype UploadCheck = TooLarge | WrongType | Accepted

  /** The checks of `handleFileChange`, size first, then the MIME type. */
  function CheckUpload(f: Upload): (r: UploadCheck)
    ensures r == Accepted <==> f.size <= MaxFileSizeBytes && f.mimeType == "audio/mpeg"
    ensures r == TooLarge <==> f.size > MaxFileSizeBytes
  {
    if f.size > MaxFileSizeBytes then TooLarge
    else if f.mimeType != "audio/mpeg" then WrongType
    else Accepted
  }

  /** The limit itself is allowed; one byte more is not, whatever the type. */
  lemma UploadLimitInclusive(name: string, mimeType: string)
    ensures CheckUpload(Upload(name, 5242880, "audio/mpeg")) == Accepted
    ensures CheckUpload(Upload(name, 5242881, mimeType)) == TooLarge
  {
  }

  /** `fileName.replace(/\.mp3$/, "")`: one trailing `.mp3` is dropped. */
  function SoundName(fileName: string): (r: string)
    ensures EndsWith(fileName, ".mp3") ==> r + ".mp3" == fileName
    ensures !EndsWith(fileName, ".mp3") ==> r == fileName
  {
    if EndsWith(fileName, ".mp3") then
      var r := fileName[..|fileName| - 4];
      assert r + ".mp3" == fileName;
      r
    else fileName
  }

  /** Only one suffix goes: "a.mp3.mp3" becomes "a.mp3". */
  lemma SoundNameOneSuffix(base: string)
    ensures SoundName(base + ".mp3") == base
    ensures SoundName(base + ".mp3.mp3") == base + ".mp3"
  {
    var s := base + ".mp3";
    assert EndsWith(s, ".mp3") by {
      assert s[|s| - 4..] == ".mp3";
    }
    var t := base + ".mp3.mp3";
    assert t == (base + ".mp3") + ".mp3";
    assert EndsWith(t, ".mp3") by {
      assert t[|t| - 4..] == ".mp3";
    }
  }

  /** Stored keys and page state. `custom` is the `customAmbientSounds` key,
      `storedSelection` the `selectedAmbientSound` key, `storedRingtone` and
      `storedRingtoneName` the two ringtone keys. */
  datatype Page = Page(custom: Option<seq<Sound>>, storedSelection: Option<string>,
                       storedRingtone: Option<string>, storedRingtoneName: Option<string>,
                       allSounds: seq<Sound>, selected: Option<string>, playing: Option<string>,
                       ringtoneSrc: Option<string>, ringtoneName: Option<string>, ringtonePlaying: bool)

  /** The displayed list is the built-ins followed by the stored uploads, and
      every upload carries an id of the form `custom-…`. */
  ghost predicate Consistent(p: Page) {
    && p.allSounds == BuiltInSounds + p.custom.GetOr([])
    && forall i :: 0 <= i < |p.custom.GetOr([])| ==> StartsWith(p.custom.GetOr([])[i].id, "custom-")
  }

  /** Nothing plays under the name `'none'`. */
  ghost predicate PlayingIsReal(p: Page) {
    p.playing != Some("none")
  }

  /** The mount effect: the list, the selection (`'none'` when absent) and the
      ringtone are read from storage. */
  function Load(custom: Option<seq<Sound>>, storedSelection: Option<string>,
                storedRingtone: Option<string>, storedRingtoneName: Option<string>): (p: Page)
    ensures |p.allSounds| == |BuiltInSounds| + |custom.GetOr([])|
    ensures p.allSounds[..|BuiltInSounds|] == BuiltInSounds
    ensures p.allSounds[|BuiltInSounds|..] == custom.GetOr([])
    ensures p.selected == Some(if Truthy(storedSelection) then storedSelection.value else "none")
    ensures p.playing.None? && !p.ringtonePlaying
    ensures Truthy(storedRingtone) ==> p.ringtoneSrc == storedRingtone && p.ringtoneName == storedRingtoneName
    ensures !Truthy(storedRingtone) ==> p.ringtoneSrc.None? && p.ringtoneName.None?
  {
    var all := BuiltInSounds + custom.GetOr([]);
    assert all[..|BuiltInSounds|] == BuiltInSounds && all[|BuiltInSounds|..] == custom.GetOr([]);
    Page(custom, storedSelection, storedRingtone, storedRingtoneName, all,
         Some(if Truthy(storedSelection) then storedSelection.value else "none"), None,
         if Truthy(storedRingtone) then storedRingtone else None,
         if Truthy(storedRingtone) then storedRingtoneName else None, false)
  }

  /** `handleSelectAmbientSound`: the choice is stored; choosing `'none'`
      stops the playing sound. */
  function Select(p: Page, src: string): (r: Page)
    ensures r.selected == Some(src) && r.storedSelection == Some(src)
    ensures src == "none" && Truthy(p.playing) ==> r.playing.None?
    ensures !(src == "none" && Truthy(p.playing)) ==> r.playing == p.playing
    ensures r.allSounds == p.allSounds && r.custom == p.custom
  {
    var r := p.(storedSelection := Some(src), selected := Some(src));
    if src == "none" && Truthy(p.playing) then r.(playing := None) else r
  }

  /** `handlePlayPauseAmbient`: `'none'` is ignored, the playing sound is
      stopped, any other sound replaces what was playing. */
  function PlayPause(p: Page, src: string): (r: Page)
    ensures src == "none" ==> r == p
    ensures src != "none" && p.playing == Some(src) ==> r.playing.None?
    ensures src != "none" && p.playing != Some(src) ==> r.playing == Some(src)
    ensures r == p.(playing := r.playing)
  {
    if src == "none" then p
    else if p.playing == Some(src) then p.(playing := None)
    else p.(playing := Some(src))
  }

  /** Pressing the same sound twice returns to silence, and nothing ever plays
      under the name `'none'`. */
  lemma PlayPauseTwice(p: Page, src: string)
    requires p.playing.None? && src != "none"
    ensures PlayPause(PlayPause(p, src), src) == p
    ensures PlayingIsReal(PlayPause(p, src))
  {
  }

  /** At most one ambient sound plays, and never one named `'none'`: every
      handler keeps that so. */
  lemma PlayingStaysReal(p: Page, src: string, s: Sound, f: Upload, dataUrl: string, now: nat)
    requires PlayingIsReal(p)
    ensures PlayingIsReal(Select(p, src)) && PlayingIsReal(PlayPause(p, src))
    ensures PlayingIsReal(Delete(p, s)) && PlayingIsReal(UploadAmbient(p, f, dataUrl, now))
    ensures PlayingIsReal(RemoveRingtone(p)) && PlayingIsReal(PlayPauseRingtone(p))
  {
  }

  /** The new upload: id from the clock, name without `.mp3`. */
  function NewSound(f: Upload, dataUrl: string, now: nat): (s: Sound)
    ensures StartsWith(s.id, "custom-") && s.isCustom && s.src == dataUrl
  {
    var id := "custom-" + NatToString(now);
    assert id[..7] == "custom-";
    Sound(id, SoundName(f.name), dataUrl, true)
  }

  /** An ambient upload: when the file passes the checks, one sound is
      appended to the stored list and to the displayed one. */
  function UploadAmbient(p: Page, f: Upload, dataUrl: string, now: nat): (r: Page)
    ensures CheckUpload(f) != Accepted ==> r == p
    ensures CheckUpload(f) == Accepted ==>
              && r.custom == Some(p.custom.GetOr([]) + [NewSound(f, dataUrl, now)])
              && r.allSounds == p.allSounds + [NewSound(f, dataUrl, now)]
              && r == p.(custom := r.custom, allSounds := r.allSounds)
  {
    if CheckUpload(f) != Accepted then p
    else
      var s := NewSound(f, dataUrl, now);
      p.(custom := Some(p.custom.GetOr([]) + [s]), allSounds := p.allSounds + [s])
  }

  lemma UploadKeepsConsistent(p: Page, f: Upload, dataUrl: string, now: nat)
    requires Consistent(p)
    ensures Consistent(UploadAmbient(p, f, dataUrl, now))
  {
    if CheckUpload(f) == Accepted {
      var s := NewSound(f, dataUrl, now);
      var c := p.custom.GetOr([]);
      assert BuiltInSounds + (c + [s]) == (BuiltInSounds + c) + [s];
      assert forall i :: 0 <= i < |c| ==> (c + [s])[i] == c[i];
    }
  }

  /** A ringtone upload: when the file passes the checks, both ringtone keys
      are written. */
  function UploadRingtone(p: Page, f: Upload, dataUrl: string): (r: Page)
    ensures CheckUpload(f) != Accepted ==> r == p
    ensures CheckUpload(f) == Accepted ==>
              r == p.(storedRingtone := Some(dataUrl), storedRingtoneName := Some(f.name),
                      ringtoneSrc := Some(dataUrl), ringtoneName := Some(f.name))
  {
    if CheckUpload(f) != Accepted then p
    else p.(storedRingtone := Some(dataUrl), storedRingtoneName := Some(f.name),
             ringtoneSrc := Some(dataUrl), ringtoneName := Some(f.name))
  }

  /** `handleDeleteCustomSound`: a built-in sound cannot be deleted. A custom
      one is dropped by id from the stored and the displayed list; a selection
      of it falls back to `'none'` and its playback stops. */
  function Delete(p: Page, s: Sound): (r: Page)
    ensures !s.isCustom ==> r == p
    ensures s.isCustom ==>
              && r.custom == Some(Filter(p.custom.GetOr([]), (x: Sound) => x.id != s.id))
              && r.allSounds == Filter(p.allSounds, (x: Sound) => x.id != s.id)
              && (p.selected == Some(s.src) ==> r.selected == Some("none") && r.storedSelection == Some("none"))
              && (p.selected != Some(s.src) ==> r.selected == p.selected && r.storedSelection == p.storedSelection)
              && (p.playing == Some(s.src) ==> r.playing.None?)
              && (p.playing != Some(s.src) ==> r.playing == p.playing)
              && r.storedRingtone == p.storedRingtone && r.ringtoneSrc == p.ringtoneSrc
  {
    if !s.isCustom then p
    else
      var keep := (x: Sound) => x.id != s.id;
      var p1 := p.(custom := Some(Filter(p.custom.GetOr([]), keep)), allSounds := Filter(p.allSounds, keep));
      var p2 := if p.selected == Some(s.src) then p1.(storedSelection := Some("none"), selected := Some("none")) else p1;
      if p.playing == Some(s.src) then p2.(playing := None) else p2
  }

  /** No built-in sound carries a `custom-…` id. */
  lemma BuiltInIdsAreNotCustom(id: string)
    requires StartsWith(id, "custom-")
    ensures forall i :: 0 <= i < |BuiltInSounds| ==> BuiltInSounds[i].id != id
  {
    assert id[0] == 'c';
  }

  /** Deleting a listed sound keeps the list consistent: the built-ins stay
      and the uploads lose exactly that id. */
  lemma DeleteKeepsConsistent(p: Page, s: Sound)
    requires Consistent(p) && s in p.allSounds
    ensures Consistent(Delete(p, s))
  {
    if s.isCustom {
      var c := p.custom.GetOr([]);
      var i :| 0 <= i < |p.allSounds| && p.allSounds[i] == s;
      assert i >= |BuiltInSounds|;
      assert p.allSounds[i] == c[i - |BuiltInSounds|];
      DeleteKeepsBuiltIns(c, s.id);
      DeleteKeepsCustomIds(c, s.id);
    }
  }

  /** Dropping an upload's id from the list drops nothing built in. */
  lemma DeleteKeepsBuiltIns(c: seq<Sound>, id: string)
    requires StartsWith(id, "custom-")
    ensures var keep := (x: Sound) => x.id != id;
            Filter(BuiltInSounds + c, keep) == BuiltInSounds + Filter(c, keep)
  {
    var keep := (x: Sound) => x.id != id;
    BuiltInIdsAreNotCustom(id);
    FilterAppend(BuiltInSounds, c, keep);
    FilterKeepsAll(BuiltInSounds, keep);
  }

  /** What is left of the uploads still carries `custom-…` ids. */
  lemma DeleteKeepsCustomIds(c: seq<Sound>, id: string)
    requires forall i :: 0 <= i < |c| ==> StartsWith(c[i].id, "custom-")
    ensures var fc := Filter(c, (x: Sound) => x.id != id);
            forall j :: 0 <= j < |fc| ==> StartsWith(fc[j].id, "custom-")
  {
    var fc := Filter(c, (x: Sound) => x.id != id);
    forall j | 0 <= j < |fc|
      ensures StartsWith(fc[j].id, "custom-")
    {
      assert fc[j] in c;
    }
  }

  /** `handleRemoveRingtone`: both ringtone keys are removed, the shown
      ringtone is cleared and the preview stops. */
  function RemoveRingtone(p: Page): (r: Page)
    ensures r.storedRingtone.None? && r.storedRingtoneName.None?
    ensures r.ringtoneSrc.None? && r.ringtoneName.None? && !r.ringtonePlaying
    ensures r.allSounds == p.allSounds && r.playing == p.playing
  {
    p.(storedRingtone := None, storedRingtoneName := None, ringtoneSrc := None, ringtoneName := None,
       ringtonePlaying := false)
  }

  /** `handlePlayPauseRingtone`: without a ringtone nothing happens;
      otherwise the preview flips between playing and stopped. */
  function PlayPauseRingtone(p: Page): (r: Page)
    ensures !Truthy(p.ringtoneSrc) ==> r == p
    ensures Truthy(p.ringtoneSrc) ==> r == p.(ringtonePlaying := !p.ringtonePlaying)
  {
    if !Truthy(p.ringtoneSrc) then p else p.(ringtonePlaying := !p.ringtonePlaying)
  }

  /** The reminder that fires next rings the uploaded file after an upload,
      and the default sound after a removal. */
  lemma RingtoneReachesReminders(p: Page, f: Upload, dataUrl: string)
    requires CheckUpload(f) == Accepted && dataUrl != ""
    ensures Reminders.RingtoneSource(UploadRingtone(p, f, dataUrl).storedRingtone) == dataUrl
    ensures Reminders.RingtoneSource(RemoveRingtone(UploadRingtone(p, f, dataUrl)).storedRingtone)
              == Reminders.DefaultRingtone
  {
  }
}

=== FILE: text.dfy ===
/** The JavaScript string primitives the handlers rely on: `trim`,
    `parseInt` in radix 10 and 16, `String(n)` for whole numbers,
    `padStart` with zeros, `startsWith`/`endsWith` and `toUpperCase`. */
module Text {
  import opened Common

  /** ECMAScript WhiteSpace and LineTerminator code points, the set that
      `trim` removes and `parseInt` skips. */
  predicate IsWhitespace(c: char) {
    c in WhitespaceChars || '\U{2000}' <= c <= '\U{200A}'
  }

  /** The whitespace code points outside the range U+2000 to U+200A. */
  const WhitespaceChars: set<char> :=
    {' ', '\t', '\n', '\r', '\U{000B}', '\U{000C}', '\U{00A0}', '\U{1680}',
     '\U{2028}', '\U{2029}', '\U{202F}', '\U{205F}', '\U{3000}', '\U{FEFF}'}

  /** `s.trimStart()`: drops the leading whitespace and nothing else. */
  function TrimStart(s: string): (r: string)
    ensures |r| <= |s| && r == s[|s| - |r|..]
    ensures |r| > 0 ==> !IsWhitespace(r[0])
    ensures forall i :: 0 <= i < |s| - |r| ==> IsWhitespace(s[i])
  {
    if |s| > 0 && IsWhitespace(s[0]) then TrimStart(s[1..]) else s
  }

  /** `s.trimEnd()`: drops the trailing whitespace and nothing else. */
  function TrimEnd(s: string): (r: string)
    ensures |r| <= |s| && r == s[..|r|]
    ensures |r| > 0 ==> !IsWhitespace(r[|r| - 1])
    ensures forall i :: |r| <= i < |s| ==> IsWhitespace(s[i])
  {
    if |s| > 0 && IsWhitespace(s[|s| - 1]) then TrimEnd(s[..|s| - 1]) else s
  }

  /** `s.trim()`. */
  function Trim(s: string): (r: string)
    ensures |r| > 0 ==> !IsWhitespace(r[0]) && !IsWhitespace(r[|r| - 1])
  {
    var t := TrimStart(s);
    TrimEndKeepsHead(t);
    TrimEnd(t)
  }

  /** What `trimEnd` leaves starts where its input starts. */
  lemma TrimEndKeepsHead(t: string)
    ensures |TrimEnd(t)| > 0 ==> TrimEnd(t)[0] == t[0]
  {
    var r := TrimEnd(t);
    if |r| > 0 {
      assert r == t[..|r|];
    }
  }

  /** A form field that is falsy after `trim()`. */
  predicate IsBlank(s: string) {
    Trim(s) == ""
  }

  /** Trimming removes only whitespace: `trim()` yields the empty string
      exactly when every character is whitespace. */
  lemma BlankIffAllWhitespace(s: string)
    ensures IsBlank(s) <==> forall i :: 0 <= i < |s| ==> IsWhitespace(s[i])
  {
    var t := TrimStart(s);
    if TrimEnd(t) == "" {
      assert |t| == 0;
    }
  }

  /** Trimming an already trimmed string changes nothing. */
  lemma TrimIdempotent(s: string)
    ensures Trim(Trim(s)) == Trim(s)
  {
    var r := Trim(s);
    if |r| > 0 {
      assert TrimStart(r) == r;
      assert TrimEnd(r) == r;
    }
  }

  predicate StartsWith(s: string, prefix: string) {
    |prefix| <= |s| && s[..|prefix|] == prefix
  }

  predicate EndsWith(s: string, suffix: string) {
    |suffix| <= |s| && s[|s| - |suffix|..] == suffix
  }

  /** `s.toUpperCase()` on the ASCII letters; other characters are kept. */
  function ToUpperAscii(s: string): (r: string)
    ensures |r| == |s|
    ensures forall i :: 0 <= i < |s| ==>
              r[i] == (if 'a' <= s[i] <= 'z' then (s[i] as int - 32) as char else s[i])
  {
    seq(|s|, i requires 0 <= i < |s| => if 'a' <= s[i] <= 'z' then (s[i] as int - 32) as char else s[i])
  }

  // ---------------------------------------------------------------- decimal

  predicate IsDigit(c: char) {
    '0' <= c <= '9'
  }

  predicate AllDigits(s: string) {
    forall i :: 0 <= i < |s| ==> IsDigit(s[i])
  }

  function DigitValue(c: char): (d: nat)
    requires IsDigit(c)
    ensures d < 10
  {
    c as int - '0' as int
  }

  function DigitChar(d: nat): (c: char)
    requires d < 10
    ensures IsDigit(c) && DigitValue(c) == d
  {
    ('0' as int + d) as char
  }

  /** The number a string of decimal digits denotes (most significant first). */
  function DecimalValue(s: string): nat
    requires AllDigits(s)
  {
    if |s| == 0 then 0 else DecimalValue(s[..|s| - 1]) * 10 + DigitValue(s[|s| - 1])
  }

  /** `String(n)` for a non-negative integer: decimal digits, no leading zero. */
  function NatToString(n: nat): (r: string)
    ensures |r| >= 1 && AllDigits(r)
    ensures (r[0] == '0') == (n == 0)
  {
    if n < 10 then [DigitChar(n)] else NatToString(n / 10) + [DigitChar(n % 10)]
  }

  /** Reading back the decimal rendering of `n` gives `n`. */
  lemma {:induction false} NatToStringValue(n: nat)
    ensures DecimalValue(NatToString(n)) == n
  {
    if n >= 10 {
      var p := NatToString(n / 10);
      var r := p + [DigitChar(n % 10)];
      assert r[..|r| - 1] == p;
      NatToStringValue(n / 10);
    }
  }

  /** Numbers below 100 render in at most two digits. */
  lemma NatToStringShort(n: nat)
    requires n < 100
    ensures |NatToString(n)| <= 2
  {
    if n >= 10 {
      assert |NatToString(n / 10)| == 1;
    }
  }

  /** The longest prefix of `s` made of decimal digits. */
  function DigitPrefix(s: string): (r: string)
    ensures AllDigits(r) && |r| <= |s| && r == s[..|r|]
    ensures |r| < |s| ==> !IsDigit(s[|r|])
  {
    if |s| > 0 && IsDigit(s[0]) then [s[0]] + DigitPrefix(s[1..]) else ""
  }

  lemma {:induction false} DigitPrefixOfDigits(s: string)
    requires AllDigits(s)
    ensures DigitPrefix(s) == s
  {
    if |s| > 0 {
      DigitPrefixOfDigits(s[1..]);
    }
  }

  /** Drops one leading `-` or `+`. */
  function DropSign(t: string): string {
    if |t| > 0 && (t[0] == '-' || t[0] == '+') then t[1..] else t
  }

  /** `parseInt(s, 10)`; `None` stands for NaN. Leading whitespace and one sign
      are skipped and the longest run of digits that follows is read; trailing
      garbage is ignored. */
  function ParseInt(s: string): Option<int> {
    var t := TrimStart(s);
    var d := DigitPrefix(DropSign(t));
    if |d| == 0 then None
    else
      var v: int := DecimalValue(d);
      if |t| > 0 && t[0] == '-' then Some(-v) else Some(v)
  }

  /** `parseInt` inverts `String` on the unbounded naturals; a JavaScript
      number keeps this only below 2^53. */
  lemma ParseIntOfNatToString(n: nat)
    ensures ParseInt(NatToString(n)) == Some(n)
  {
    var s := NatToString(n);
    assert !IsWhitespace(s[0]);
    assert TrimStart(s) == s;
    assert DropSign(s) == s;
    DigitPrefixOfDigits(s);
    NatToStringValue(n);
  }

  /** The run of digits at the front is exactly `d` when `d` is followed by
      something that is not a digit. */
  lemma {:induction false} DigitPrefixAppend(d: string, t: string)
    requires AllDigits(d) && (|t| == 0 || !IsDigit(t[0]))
    ensures DigitPrefix(d + t) == d
  {
    if |d| == 0 {
      assert d + t == t;
    } else {
      assert (d + t)[1..] == d[1..] + t;
      DigitPrefixAppend(d[1..], t);
      assert d == [d[0]] + d[1..];
    }
  }

  /** Starting with a digit, `parseInt` reads the leading run of digits. */
  lemma ParseIntFromDigit(s: string)
    requires |s| > 0 && IsDigit(s[0])
    ensures ParseInt(s) == Some(DecimalValue(DigitPrefix(s)))
  {
    assert !IsWhitespace(s[0]);
    assert TrimStart(s) == s;
    assert DropSign(s) == s;
  }

  /** `parseInt` reads the leading digits and ignores what follows them. */
  lemma ParseIntIgnoresTail(d: string, t: string)
    requires |d| > 0 && AllDigits(d) && (|t| == 0 || !IsDigit(t[0]))
    ensures ParseInt(d + t) == Some(DecimalValue(d))
  {
    assert (d + t)[0] == d[0];
    ParseIntFromDigit(d + t);
    DigitPrefixAppend(d, t);
  }

  /** `parseInt` never yields a number when no digit follows the optional sign. */
  lemma ParseIntNoDigits(s: string)
    requires var u := DropSign(TrimStart(s)); |u| == 0 || !IsDigit(u[0])
    ensures ParseInt(s).None?
  {
  }

  /** A leading zero does not change the value of a digit string. */
  lemma {:induction false} LeadingZero(s: string)
    ensures AllDigits(s) ==> AllDigits("0" + s) && DecimalValue("0" + s) == DecimalValue(s)
  {
    var t := "0" + s;
    if !AllDigits(s) {
    } else if |s| > 0 {
      assert t[..|t| - 1] == "0" + s[..|s| - 1];
      LeadingZero(s[..|s| - 1]);
    } else {
      assert t[..|t| - 1] == "";
    }
  }

  /** `k` zero digits. */
  function Zeros(k: nat): (z: string)
    ensures |z| == k && forall i :: 0 <= i < k ==> z[i] == '0'
  {
    seq(k, i => '0')
  }

  /** Any number of leading zeros leaves the value of a digit string alone. */
  lemma {:induction false} LeadingZeros(k: nat, s: string)
    ensures AllDigits(s) ==> AllDigits(Zeros(k) + s) && DecimalValue(Zeros(k) + s) == DecimalValue(s)
  {
    if k > 0 && AllDigits(s) {
      var t := Zeros(k - 1) + s;
      LeadingZeros(k - 1, s);
      LeadingZero(t);
      assert Zeros(k) + s == "0" + t;
    } else if AllDigits(s) {
      assert Zeros(k) + s == s;
    }
  }

  /** `s.padStart(width, "0")`. */
  function ZeroPad(s: string, width: nat): (r: string)
    ensures |r| == if |s| >= width then |s| else width
    ensures r[|r| - |s|..] == s
    ensures forall i :: 0 <= i < |r| - |s| ==> r[i] == '0'
    ensures AllDigits(s) ==> AllDigits(r) && DecimalValue(r) == DecimalValue(s)
  {
    var k := if |s| >= width then 0 else width - |s|;
    LeadingZeros(k, s);
    var r := Zeros(k) + s;
    assert r[k..] == s;
    r
  }

  /** `String(n).padStart(2, "0")`: at least two digits, exactly two below
      100, denoting `n`. */
  function PadNat2(n: nat): (r: string)
    ensures |r| >= 2 && AllDigits(r) && DecimalValue(r) == n
    ensures n < 100 ==> |r| == 2
  {
    PadNat2IsPadStart(n);
    if n < 10 then "0" + NatToString(n) else NatToString(n)
  }

  /** The two-digit rendering is `padStart(2, "0")` applied to `String(n)`. */
  lemma PadNat2IsPadStart(n: nat)
    ensures var p := ZeroPad(NatToString(n), 2);
            && p == (if n < 10 then "0" + NatToString(n) else NatToString(n))
            && |p| >= 2 && AllDigits(p) && DecimalValue(p) == n
            && (n < 100 ==> |p| == 2)
  {
    NatToStringValue(n);
    var t := NatToString(n);
    if n < 10 {
      assert |t| == 1;
      assert ZeroPad(t, 2) == "0" + t;
    } else {
      assert |t| >= 2 by {
        assert t == NatToString(n / 10) + [DigitChar(n % 10)];
      }
    }
    if n < 100 {
      NatToStringShort(n);
    }
  }

  // ---------------------------------------------------------------- hexadecimal

  predicate IsHexDigit(c: char) {
    IsDigit(c) || 'a' <= c <= 'f' || 'A' <= c <= 'F'
  }

  predicate AllHex(s: string) {
    forall i :: 0 <= i < |s| ==> IsHexDigit(s[i])
  }

  function HexDigitValue(c: char): (d: nat)
    requires IsHexDigit(c)
    ensures d < 16
  {
    if IsDigit(c) then DigitValue(c)
    else if 'a' <= c <= 'f' then c as int - 'a' as int + 10
    else c as int - 'A' as int + 10
  }

  /** The number a string of hexadecimal digits denotes. */
  function HexValue(s: string): nat
    requires AllHex(s)
  {
    if |s| == 0 then 0 else HexValue(s[..|s| - 1]) * 16 + HexDigitValue(s[|s| - 1])
  }

  /** The longest prefix of `s` made of hexadecimal digits. */
  function HexPrefix(s: string): (r: string)
    ensures AllHex(r) && |r| <= |s| && r == s[..|r|]
    ensures |r| < |s| ==> !IsHexDigit(s[|r|])
  {
    if |s| > 0 && IsHexDigit(s[0]) then [s[0]] + HexPrefix(s[1..]) else ""
  }

  /** Drops a leading `0x` or `0X`, as radix-16 `parseInt` does. */
  function DropHexMarker(t: string): string {
    if |t| >= 2 && t[0] == '0' && (t[1] == 'x' || t[1] == 'X') then t[2..] else t
  }

  /** `parseInt(s, 16)`; `None` stands for NaN. */
  function ParseHexInt(s: string): Option<int> {
    var t := TrimStart(s);
    var d := HexPrefix(DropHexMarker(DropSign(t)));
    if |d| == 0 then None
    else
      var v: int := HexValue(d);
      if |t| > 0 && t[0] == '-' then Some(-v) else Some(v)
  }

  lemma {:induction false} HexPrefixOfHex(s: string)
    requires AllHex(s)
    ensures HexPrefix(s) == s
  {
    if |s| > 0 {
      HexPrefixOfHex(s[1..]);
    }
  }

  lemma HexValueOfPair(s: string)
    requires |s| == 2 && AllHex(s)
    ensures HexValue(s) == 16 * HexDigitValue(s[0]) + HexDigitValue(s[1])
  {
    assert s[..1] == [s[0]] && [s[0]][..0] == "";
    assert HexValue([s[0]]) == HexDigitValue(s[0]);
  }

  /** On two hexadecimal digits `parseInt(_, 16)` is the plain base-16 value. */
  lemma ParseHexIntOfPair(s: string)
    requires |s| == 2 && AllHex(s)
    ensures ParseHexInt(s) == Some(16 * HexDigitValue(s[0]) + HexDigitValue(s[1]))
  {
    assert IsHexDigit(s[0]) && IsHexDigit(s[1]);
    assert !IsWhitespace(s[0]);
    assert TrimStart(s) == s;
    assert DropSign(s) == s;
    assert DropHexMarker(s) == s;
    HexPrefixOfHex(s);
    HexValueOfPair(s);
  }

  /** `parseInt(p, 16)` on a string of exactly two characters, case by case:
      two digits, a digit followed by something else, a blank or a sign in
      front of one digit, or nothing readable (`0x` alone included).
      `ParseHexPairIsParseHexInt` shows it agrees with the general reading. */
  function ParseHexPair(p: string): (r: Option<int>)
    requires |p| == 2
    ensures r.Some? ==> -15 <= r.value <= 255
    ensures AllHex(p) ==> r == Some(16 * HexDigitValue(p[0]) + HexDigitValue(p[1]))
  {
    var a, b := p[0], p[1];
    if IsHexDigit(a) then
      if a == '0' && (b == 'x' || b == 'X') then None
      else if IsHexDigit(b) then Some(16 * HexDigitValue(a) + HexDigitValue(b))
      else Some(HexDigitValue(a))
    else if (IsWhitespace(a) || a == '+') && IsHexDigit(b) then Some(HexDigitValue(b))
    else if a == '-' && IsHexDigit(b) then Some(0 - HexDigitValue(b))
    else None
  }

  /** The two-character reading is the general `parseInt(_, 16)`, on every
      two-character string. */
  lemma ParseHexPairIsParseHexInt(p: string)
    requires |p| == 2
    ensures ParseHexPair(p) == ParseHexInt(p)
  {
    if IsHexDigit(p[0]) {
      PairDigitFirst(p);
    } else if IsWhitespace(p[0]) {
      PairBlankFirst(p);
    } else if p[0] == '+' || p[0] == '-' {
      PairSignFirst(p);
    } else {
      PairOtherFirst(p);
    }
  }

  // The four cases of the first character, one lemma each.
  lemma PairDigitFirst(p: string)
    requires |p| == 2 && IsHexDigit(p[0])
    ensures ParseHexPair(p) == ParseHexInt(p)
  {
    var a, b := p[0], p[1];
    assert !IsWhitespace(a);
    assert TrimStart(p) == p;
    assert DropSign(p) == p;
    if a == '0' && (b == 'x' || b == 'X') {
      assert DropHexMarker(p) == "";
    } else if IsHexDigit(b) {
      ParseHexIntOfPair(p);
    } else {
      assert DropHexMarker(p) == p;
      assert HexPrefix(p) == [a];
      assert HexValue([a]) == HexDigitValue(a);
    }
  }

  lemma PairBlankFirst(p: string)
    requires |p| == 2 && IsWhitespace(p[0])
    ensures ParseHexPair(p) == ParseHexInt(p)
  {
    PairBlankSkips(p);
    OneChar(p[1]);
    ParseHexPairBlank(p);
  }

  lemma ParseHexPairBlank(p: string)
    requires |p| == 2 && IsWhitespace(p[0])
    ensures ParseHexPair(p) == if IsHexDigit(p[1]) then Some(HexDigitValue(p[1])) else None
  {
  }

  lemma PairBlankSkips(p: string)
    requires |p| == 2 && IsWhitespace(p[0])
    ensures ParseHexInt(p) == ParseHexInt([p[1]])
  {
    assert p[1..] == [p[1]];
    assert TrimStart(p) == TrimStart([p[1]]);
  }

  lemma PairSignFirst(p: string)
    requires |p| == 2 && (p[0] == '+' || p[0] == '-')
    ensures ParseHexPair(p) == ParseHexInt(p)
  {
    assert !IsWhitespace(p[0]);
    assert TrimStart(p) == p;
    assert DropSign(p) == [p[1]];
    OneCharDigits(p[1]);
    if IsHexDigit(p[1]) {
      assert HexPrefix(DropHexMarker(DropSign(p))) == [p[1]];
    } else {
      assert HexPrefix(DropHexMarker(DropSign(p))) == "";
    }
  }

  lemma PairOtherFirst(p: string)
    requires |p| == 2 && !IsHexDigit(p[0]) && !IsWhitespace(p[0]) && p[0] != '+' && p[0] != '-'
    ensures ParseHexPair(p) == ParseHexInt(p)
  {
    assert TrimStart(p) == p;
    assert DropSign(p) == p;
    assert DropHexMarker(p) == p;
    assert HexPrefix(p) == "";
  }

  /** A single character: `0x` cannot occur, and it is read iff it is a digit. */
  lemma OneCharDigits(b: char)
    ensures DropHexMarker([b]) == [b]
    ensures IsHexDigit(b) ==> HexPrefix([b]) == [b] && HexValue([b]) == HexDigitValue(b)
    ensures !IsHexDigit(b) ==> HexPrefix([b]) == ""
  {
    if IsHexDigit(b) {
      assert [b][..0] == "";
    }
  }

  /** `parseInt(_, 16)` of one character. */
  lemma OneChar(b: char)
    ensures ParseHexInt([b]) == if IsHexDigit(b) then Some(HexDigitValue(b)) else None
  {
    if IsWhitespace(b) {
      OneBlank(b);
    } else if b == '+' || b == '-' {
      OneSign(b);
    } else {
      OneOther(b);
    }
  }

  lemma OneBlank(b: char)
    requires IsWhitespace(b)
    ensures ParseHexInt([b]) == None
  {
    assert TrimStart([b]) == "";
  }

  lemma OneSign(b: char)
    requires b == '+' || b == '-'
    ensures ParseHexInt([b]) == None
  {
    assert TrimStart([b]) == [b];
    assert DropSign([b]) == "";
  }

  lemma OneOther(b: char)
    requires !IsWhitespace(b) && b != '+' && b != '-'
    ensures ParseHexInt([b]) == if IsHexDigit(b) then Some(HexDigitValue(b)) else None
  {
    assert TrimStart([b]) == [b];
    assert DropSign([b]) == [b];
    OneCharDigits(b);
  }
}

=== FILE: theme.dfy ===
/** The custom theme provider (src/components/custom-theme-provider.tsx):
    the conversion of `#rrggbb` colours to the `"h s% l%"` text of CSS
    variables, the light/dark test that picks a readable foreground, and
    the decision whether the stored custom palette is applied at all.
    Arithmetic is exact: IEEE-754 rounding is not modelled. */
module Theme {
  import opened Common
  import opened Text
  import Settings

  // ---------------------------------------------------------------- hexToHsl

  /** The `"h s% l%"` text of three whole numbers. */
  function HslText(h: nat, s: nat, l: nat): string {
    NatToString(h) + " " + NatToString(s) + "% " + NatToString(l) + "%"
  }

  /** The fallback of `hexToHsl`. */
  const Black: string := "0 0% 0%"

  /** The pattern `^#?([a-f\d]{2}){3}$` (any case) on a seven-character
      string: a `#` and six hexadecimal digits. */
  predicate IsHexColor(hex: string) {
    |hex| == 7 && hex[0] == '#' && AllHex(hex[1..])
  }

  /** The value of the two hexadecimal digits at `i` and `i + 1`. */
  function Channel(hex: string, i: nat): (v: nat)
    requires i + 1 < |hex| && IsHexDigit(hex[i]) && IsHexDigit(hex[i + 1])
    ensures v <= 255
  {
    16 * HexDigitValue(hex[i]) + HexDigitValue(hex[i + 1])
  }

  function Max3(a: real, b: real, c: real): (m: real)
    ensures m == a || m == b || m == c
    ensures a <= m && b <= m && c <= m
  {
    if a >= b && a >= c then a else if b >= c then b else c
  }

  function Min3(a: real, b: real, c: real): (m: real)
    ensures m == a || m == b || m == c
    ensures m <= a && m <= b && m <= c
  {
    if a <= b && a <= c then a else if b <= c then b else c
  }

  /** A number of `[-d, d]` divided by `d` lies in `[-1, 1]`. */
  lemma DivBounds(a: real, d: real)
    requires d > 0.0 && -d <= a <= d
    ensures -1.0 <= a / d <= 1.0
  {
    assert a / d * d == a;
  }

  /** A number of `[0, b]` divided by `b` lies in `[0, 1]`. */
  lemma UnitFraction(a: real, b: real)
    requires 0.0 <= a <= b && b > 0.0
    ensures 0.0 <= a / b <= 1.0
  {
    assert a / b * b == a;
  }

  /** The saturation, for channel extremes `mn < mx` in `[0, 1]`. */
  function Saturation(mx: real, mn: real): (s: real)
    requires 0.0 <= mn < mx <= 1.0
    ensures 0.0 <= s <= 1.0
  {
    var l := (mx + mn) / 2.0;
    var d := mx - mn;
    if l > 0.5 then (UnitFraction(d, 2.0 - mx - mn); d / (2.0 - mx - mn))
    else (UnitFraction(d, mx + mn); d / (mx + mn))
  }

  /** The hue in turns (a fraction of the circle), for channel values in
      `[0, 1]` that are not all equal. The `switch` matches the channels in
      the order red, green, blue. */
  function Hue(r: real, g: real, b: real): (h: real)
    requires Max3(r, g, b) != Min3(r, g, b)
    ensures 0.0 <= h <= 1.0
  {
    var mx := Max3(r, g, b);
    var d := mx - Min3(r, g, b);
    var h :=
      if mx == r then (DivBounds(g - b, d); (g - b) / d + (if g < b then 6.0 else 0.0))
      else if mx == g then (DivBounds(b - r, d); (b - r) / d + 2.0)
      else (DivBounds(r - g, d); (r - g) / d + 4.0);
    h / 6.0
  }

  /** `Math.round` of a value in `[0, k]` is a whole number in `[0, k]`. */
  function RoundIn(x: real, k: nat): (n: nat)
    requires 0.0 <= x <= k as real
    ensures n == Round(x) && n <= k
  {
    Round(x)
  }

  /** The three rounded components: hue in degrees, saturation and
      lightness in percent. */
  function HslOf(r: nat, g: nat, b: nat): (c: (nat, nat, nat))
    requires r <= 255 && g <= 255 && b <= 255
    ensures c.0 <= 360 && c.1 <= 100 && c.2 <= 100
    ensures r == g == b ==> c.0 == 0 && c.1 == 0 && c.2 == Round(r as real / 255.0 * 100.0)
  {
    var rr := r as real / 255.0;
    var gg := g as real / 255.0;
    var bb := b as real / 255.0;
    var mx := Max3(rr, gg, bb);
    var mn := Min3(rr, gg, bb);
    var l := (mx + mn) / 2.0;
    var hs := if mx != mn then (Hue(rr, gg, bb), Saturation(mx, mn)) else (0.0, 0.0);
    (RoundIn(hs.0 * 360.0, 360), RoundIn(hs.1 * 100.0, 100), RoundIn(l * 100.0, 100))
  }

  /** `hexToHsl`: a well-formed colour becomes its HSL text; anything else
      becomes black. */
  function HexToHsl(hex: string): (t: string)
    ensures !IsHexColor(hex) ==> t == Black
    ensures IsHexColor(hex) ==>
              var c := HslOf(Channel(hex, 1), Channel(hex, 3), Channel(hex, 5));
              t == HslText(c.0, c.1, c.2)
  {
    if |hex| != 7 || !IsHexColor(hex) then Black
    else
      assert forall i :: 1 <= i < 7 ==> IsHexDigit(hex[i]) by {
        assert forall i :: 1 <= i < 7 ==> hex[i] == hex[1..][i - 1];
      }
      var c := HslOf(Channel(hex, 1), Channel(hex, 3), Channel(hex, 5));
      HslText(c.0, c.1, c.2)
  }

  /** Black, white and the three primaries give the textbook HSL values. */
  lemma HslOfKnownColors()
    ensures HslOf(0, 0, 0) == (0, 0, 0)
    ensures HslOf(255, 255, 255) == (0, 0, 100)
    ensures HslOf(255, 0, 0) == (0, 100, 50)
    ensures HslOf(0, 255, 0) == (120, 100, 50)
    ensures HslOf(0, 0, 255) == (240, 100, 50)
  {
    HslOfRed();
    HslOfGreen();
    HslOfBlue();
  }

  lemma HslOfRed()
    ensures HslOf(255, 0, 0) == (0, 100, 50)
  {
  }

  lemma HslOfGreen()
    ensures HslOf(0, 255, 0) == (120, 100, 50)
  {
  }

  lemma HslOfBlue()
    ensures HslOf(0, 0, 255) == (240, 100, 50)
  {
  }

  /** The fallback text is itself the text of black, and white reads as
      full lightness. */
  lemma BlackIsHslOfBlack()
    ensures HexToHsl("#000000") == Black
    ensures Black == HslText(0, 0, 0)
    ensures HexToHsl("#ffffff") == "0 0% 100%"
  {
    HexToHslOfBlack();
    HexToHslOfWhite();
  }

  lemma HexToHslOfBlack()
    ensures HexToHsl("#000000") == Black == HslText(0, 0, 0)
  {
    assert IsHexColor("#000000");
    assert Channel("#000000", 1) == 0 && Channel("#000000", 3) == 0 && Channel("#000000", 5) == 0;
  }

  lemma HexToHslOfWhite()
    ensures HexToHsl("#ffffff") == "0 0% 100%"
  {
    assert IsHexColor("#ffffff");
    assert Channel("#ffffff", 1) == 255 && Channel("#ffffff", 3) == 255 && Channel("#ffffff", 5) == 255;
    assert NatToString(100) == "100";
  }

  // ---------------------------------------------------------------- isColorLight

  /** `n * n`, built up from sums of odd numbers so that the brightness
      formula stays linear for the solver; `SquareIsProduct` connects the
      two. */
  function Square(x: int): (q: nat)
    decreases if x < 0 then 1 - x else x
  {
    if x < 0 then Square(-x) else if x == 0 then 0 else Square(x - 1) + 2 * x - 1
  }

  lemma {:induction false} SquareIsProduct(x: int)
    ensures Square(x) == x * x
    decreases if x < 0 then 1 - x else x
  {
    if x < 0 {
      SquareIsProduct(-x);
      assert x * x == (-x) * (-x);
    } else if x > 0 {
      SquareIsProduct(x - 1);
      assert x * x == (x - 1) * (x - 1) + 2 * x - 1;
    }
  }

  /** The square of the HSP brightness, `0.299 r² + 0.587 g² + 0.114 b²`.
      Comparing it with `127.5²` is comparing the brightness with `127.5`,
      since both are non-negative. */
  function HspSquared(r: int, g: int, b: int): real {
    0.299 * Square(r) as real + 0.587 * Square(g) as real + 0.114 * Square(b) as real
  }

  const Threshold: real := 127.5 * 127.5

  /** The brightness test on three parsed channels; NaN (`None`) is never
      light. */
  predicate LightChannels(r: Option<int>, g: Option<int>, b: Option<int>) {
    r.Some? && g.Some? && b.Some? && HspSquared(r.value, g.value, b.value) > Threshold
  }

  /** `isColorLight`: any seven-character string is cut into three pairs
      read with `parseInt(_, 16)` (through its two-character form
      `ParseHexPair`); a pair that does not parse makes the brightness NaN,
      which is never light. */
  function IsColorLight(hex: string): (b: bool)
    ensures |hex| != 7 ==> !b
  {
    |hex| == 7 && LightChannels(ParseHexPair(hex[1..3]), ParseHexPair(hex[3..5]), ParseHexPair(hex[5..7]))
  }

  /** Each pair of a well-formed colour reads as its channel value. */
  lemma PairParses(hex: string, i: nat, pair: string)
    requires IsHexColor(hex) && (i == 1 || i == 3 || i == 5) && pair == hex[i..i + 2]
    ensures IsHexDigit(hex[i]) && IsHexDigit(hex[i + 1])
    ensures ParseHexPair(pair).Some? && ParseHexPair(pair).value == Channel(hex, i)
  {
    assert hex[i] == hex[1..][i - 1] && hex[i + 1] == hex[1..][i];
    assert pair[0] == hex[i] && pair[1] == hex[i + 1];
  }

  /** On a well-formed colour the test is the HSP formula on its three
      channels. */
  lemma IsColorLightOfHex(hex: string)
    requires IsHexColor(hex)
    ensures forall i :: 1 <= i < 7 ==> IsHexDigit(hex[i])
    ensures IsColorLight(hex) <==> HspSquared(Channel(hex, 1), Channel(hex, 3), Channel(hex, 5)) > Threshold
  {
    assert forall i :: 1 <= i < 7 ==> IsHexDigit(hex[i]) by {
      assert forall i :: 1 <= i < 7 ==> hex[i] == hex[1..][i - 1];
    }
    PairParses(hex, 1, hex[1..3]);
    PairParses(hex, 3, hex[3..5]);
    PairParses(hex, 5, hex[5..7]);
  }

  /** Squaring is monotone on non-negative numbers. */
  lemma {:induction false} SquareMonotone(a: int, b: int)
    requires 0 <= a <= b
    ensures Square(a) <= Square(b)
  {
    if a < b {
      SquareMonotone(a, b - 1);
    }
  }

  /** Raising any channel never makes a light colour dark. */
  lemma LighterStaysLight(r: int, g: int, b: int, r2: int, g2: int, b2: int)
    requires 0 <= r <= r2 && 0 <= g <= g2 && 0 <= b <= b2
    requires HspSquared(r, g, b) > Threshold
    ensures HspSquared(r2, g2, b2) > Threshold
  {
    SquareMonotone(r, r2);
    SquareMonotone(g, g2);
    SquareMonotone(b, b2);
  }

  /** The test on a well-formed colour whose channels are known. */
  lemma LightOfChannels(hex: string, r: nat, g: nat, b: nat)
    requires IsHexColor(hex)
    requires forall i :: 1 <= i < 7 ==> IsHexDigit(hex[i])
    requires Channel(hex, 1) == r && Channel(hex, 3) == g && Channel(hex, 5) == b
    ensures IsColorLight(hex) <==> 0.299 * (r * r) as real + 0.587 * (g * g) as real + 0.114 * (b * b) as real > Threshold
  {
    IsColorLightOfHex(hex);
    SquareIsProduct(r);
    SquareIsProduct(g);
    SquareIsProduct(b);
  }

  /** Black is dark and white is light. */
  lemma BlackDarkWhiteLight()
    ensures !IsColorLight("#000000") && IsColorLight("#ffffff")
  {
    BlackIsDark();
    WhiteIsLight();
  }

  lemma BlackIsDark()
    ensures !IsColorLight("#000000")
  {
    LightOfChannels("#000000", 0, 0, 0);
  }

  lemma WhiteIsLight()
    ensures IsColorLight("#ffffff")
  {
    LightOfChannels("#ffffff", 255, 255, 255);
  }

  // ---------------------------------------------------------------- foreground

  const DarkText: string := "0 0% 5%"
  const LightText: string := "0 0% 98%"

  /** The foreground over a colour: near-black text over a light colour,
      near-white over anything else. */
  function Foreground(hex: string): (t: string)
    ensures t == DarkText <==> IsColorLight(hex)
    ensures t == DarkText || t == LightText
  {
    if IsColorLight(hex) then DarkText else LightText
  }

  /** The six variables one colour mode defines. */
  datatype ModeVars = ModeVars(background: string, foreground: string, primary: string,
                               primaryForeground: string, accent: string, accentForeground: string)

  /** The variables of a palette: each colour as HSL text, each foreground
      read off the colour it sits on. */
  function PaletteVars(p: Settings.Palette): (v: ModeVars)
    ensures v.background == HexToHsl(p.background) && v.primary == HexToHsl(p.primary)
            && v.accent == HexToHsl(p.accent)
    ensures v.foreground == Foreground(p.background) && v.primaryForeground == Foreground(p.primary)
            && v.accentForeground == Foreground(p.accent)
  {
    ModeVars(HexToHsl(p.background), Foreground(p.background), HexToHsl(p.primary),
             Foreground(p.primary), HexToHsl(p.accent), Foreground(p.accent))
  }

  /** The default palette puts dark text on the light background and light
      text on the dark background. */
  lemma DefaultForegrounds()
    ensures PaletteVars(Settings.DefaultCustomColors.light).foreground == DarkText
    ensures PaletteVars(Settings.DefaultCustomColors.dark).foreground == LightText
  {
    DefaultLightIsLight();
    DefaultDarkIsDark();
  }

  lemma DefaultLightIsLight()
    ensures IsColorLight("#f9faff")
  {
    LightOfChannels("#f9faff", 249, 250, 255);
  }

  lemma DefaultDarkIsDark()
    ensures !IsColorLight("#1d1a26")
  {
    LightOfChannels("#1d1a26", 29, 26, 38);
  }

  // ---------------------------------------------------------------- applying

  /** What happens to the `data-theme` attribute. */
  datatype DataTheme = SetTo(name: string) | Removed | Untouched

  /** The effect of `generateAndApplyTheme`: the attribute and the injected
      style (`None` for the empty style). */
  datatype Applied = Applied(dataTheme: DataTheme, style: Option<(ModeVars, ModeVars)>)

  /** `generateAndApplyTheme`. `activeTheme` and `colorsText` are the two
      storage keys; `parsed` is the palette the colours text holds, `None`
      when it does not parse into one (the error path, which clears the
      style). */
  function Apply(activeTheme: Option<string>, colorsText: Option<string>,
                 parsed: Option<Settings.CustomColors>): (a: Applied)
    ensures a.style.Some? <==> activeTheme == Some("custom") && Truthy(colorsText) && parsed.Some?
    ensures a.dataTheme.SetTo? <==> activeTheme != Some("custom")
    ensures a.dataTheme.SetTo? ==> a.dataTheme.name == if Truthy(activeTheme) then activeTheme.value else "default"
    ensures a.dataTheme == Removed <==> activeTheme == Some("custom") && Truthy(colorsText)
    ensures a.style.Some? ==> a.style.value == (PaletteVars(parsed.value.light), PaletteVars(parsed.value.dark))
  {
    if activeTheme != Some("custom") || !Truthy(colorsText) then
      Applied(if activeTheme != Some("custom")
              then SetTo(if Truthy(activeTheme) then activeTheme.value else "default")
              else Untouched, None)
    else match parsed
      case None => Applied(Removed, None)
      case Some(c) => Applied(Removed, Some((PaletteVars(c.light), PaletteVars(c.dark))))
  }

  /** The provider and the settings page agree: after a preset is chosen the
      provider sets the same `data-theme` the page set, and applies no
      custom style whatever palette is stored. */
  lemma ProviderFollowsPresetChoice(storage: Settings.Storage, name: string,
                                    parsed: Option<Settings.CustomColors>)
    requires name in Settings.ThemeNames
    ensures var t := Settings.ThemeChange(storage, name);
            var colors := if "custom-colors" in t.storage then Some(t.storage["custom-colors"]) else None;
            var a := Apply(Some(t.storage["app-theme"]), colors, parsed);
            a.dataTheme == SetTo(t.dataTheme.value) && a.style.None?
  {
  }

  /** After the custom theme is cleared on the settings page the provider
      applies no custom style. */
  lemma ClearedThemeHasNoStyle(page: Settings.ThemePage, parsed: Option<Settings.CustomColors>)
    ensures var r := Settings.ClearCustomTheme(page);
            var theme := if "app-theme" in r.storage then Some(r.storage["app-theme"]) else None;
            Apply(theme, None, parsed).style.None?
  {
  }
}

=== FILE: types.dfy ===
/** The records the application keeps in browser storage
    (src/lib/types.ts). Storage holds them as JSON text; the model keeps
    them as values, so serialising and parsing back is the identity. */
module Types {
  import opened Common

  /** Seconds in a calendar day; time is counted in whole seconds. */
  const SecondsPerDay: int := 86400

  /** A stored ISO 8601 date string, seen through `new Date(text)`: either it
      names an instant or it is an Invalid Date (NaN time). Strings produced
      by `toISOString` always name the instant they were made from. */
  datatype Stamp = At(seconds: int) | Invalid(text: string)

  /** A study subject or activity. `timeGoal` is in minutes and is `None` when
      the goal typed by the user did not parse (NaN in the source). */
  datatype Subject = Subject(id: string, name: string, timeGoal: Option<int>,
                             timeStudied: int, iconName: string)

  datatype Note = Note(id: string, content: string, timestamp: string)

  datatype Reminder = Reminder(id: string, content: string, remindAt: Stamp)

  /** An ambient sound; `isCustom` is absent (falsy) on the built-in ones. */
  datatype Sound = Sound(id: string, name: string, src: string, isCustom: bool)

  /** One day of the progress history: minutes studied against the goal in
      force at the last write. */
  datatype DailyProgress = DailyProgress(minutesStudied: int, dailyGoalInMinutes: real)

  datatype DiaryEntry = DiaryEntry(id: string, title: string, content: string, date: Stamp)

  datatype Role = User | Assistant

  datatype Message = Message(role: Role, content: string)

  /** A chat character; `persona` is the generated system prompt. */
  datatype Character = Character(id: string, name: string, description: string,
                                 persona: string, isDefault: bool)
}

=== FILE: welcome.dfy ===
/** The first-run page (src/app/page.tsx): a returning user is sent to the
    dashboard; a new one types a name (step 1) and then picks a purpose
    (step 2), which stores both and opens the dashboard. */
module Welcome {
  import opened Common
  import opened Text
  import Progress
  import Settings

  datatype Purpose = Student | Hobby

  /** The value written to the `userPurpose` key. */
  function PurposeText(p: Purpose): (s: string)
    ensures s == "student" || s == "hobby"
    ensures (s == "hobby") <==> p == Hobby
  {
    match p
    case Student => "student"
    case Hobby => "hobby"
  }

  /** The form: the current step (1 or 2) and the name typed so far. */
  datatype Form = Form(step: nat, name: string)

  /** The mount effect: with a name already stored the user goes straight to
      the dashboard and the form is never shown. */
  function ShowsForm(storedName: Option<string>): (b: bool)
    ensures b <==> storedName.None? || storedName.value == ""
  {
    !Truthy(storedName)
  }

  /** `handleNameContinue`: step 2 is reached only with a non-blank name. */
  function Continue(f: Form): (r: Form)
    ensures r.name == f.name
    ensures !IsBlank(f.name) ==> r.step == 2
    ensures IsBlank(f.name) ==> r == f
  {
    if IsBlank(f.name) then f else f.(step := 2)
  }

  /** `handleKeyDown`: Enter acts as the continue button; other keys do
      nothing. */
  function KeyDown(f: Form, key: string): (r: Form)
    ensures key == "Enter" ==> r == Continue(f)
    ensures key != "Enter" ==> r == f
  {
    if key == "Enter" then Continue(f) else f
  }

  /** The storage and whether the dashboard opens after picking a purpose. */
  datatype Chosen = Chosen(storage: Settings.Storage, toDashboard: bool)

  /** `handlePurposeSelect`: with a non-blank name, the trimmed name and the
      purpose are stored and the dashboard opens; otherwise nothing happens. */
  function SelectPurpose(storage: Settings.Storage, f: Form, purpose: Purpose): (r: Chosen)
    ensures r.toDashboard <==> !IsBlank(f.name)
    ensures !r.toDashboard ==> r.storage == storage
    ensures r.toDashboard ==>
              && "userName" in r.storage && r.storage["userName"] == Trim(f.name)
              && "userPurpose" in r.storage && r.storage["userPurpose"] == PurposeText(purpose)
              && forall k :: k in storage && k != "userName" && k != "userPurpose" ==>
                   k in r.storage && r.storage[k] == storage[k]
  {
    var t := Trim(f.name);
    if t == "" then Chosen(storage, false)
    else Chosen(storage["userName" := t]["userPurpose" := PurposeText(purpose)], true)
  }

  /** Choosing a purpose is a one-time step: afterwards the page no longer
      shows the form, and the progress page reads the choice back, using the
      study wording exactly for a student. */
  lemma WelcomeIsOnce(storage: Settings.Storage, f: Form, purpose: Purpose)
    requires !IsBlank(f.name)
    ensures var r := SelectPurpose(storage, f, purpose).storage;
            && !ShowsForm(Some(r["userName"]))
            && (Progress.IsStudent(Some(r["userPurpose"])) <==> purpose == Student)
  {
  }

  /** The name stored here is already in the form the settings page writes:
      saving it there again changes nothing. */
  lemma StoredNameIsSettled(storage: Settings.Storage, f: Form, purpose: Purpose)
    requires !IsBlank(f.name)
    ensures var r := SelectPurpose(storage, f, purpose).storage;
            Settings.SaveName(r, r["userName"]) == Settings.Saved(r, true)
  {
    var r := SelectPurpose(storage, f, purpose).storage;
    TrimIdempotent(f.name);
    assert r["userName" := Trim(f.name)] == r;
  }

  /** Step 2 is reached, by button or by Enter, exactly when picking a
      purpose would then succeed. */
  lemma ContinueAgreesWithSelect(f: Form, storage: Settings.Storage, purpose: Purpose)
    requires f.step == 1
    ensures KeyDown(f, "Enter").step == 2 <==> SelectPurpose(storage, f, purpose).toDashboard
    ensures Continue(f).step == 2 <==> SelectPurpose(storage, f, purpose).toDashboard
  {
  }
}
